=== FILE: README.md ===
# Benzinga news ingest, modelled in Dafny

The service reads the Benzinga news websocket. It keeps each message that
names a ticker and appends it, as one NDJSON line, to files partitioned by
time window: `<base>/ingest_dt=YYYY/MM/DD/hour=HH/part=<start>-<end>/<host>-seq=<n>.ndjson`,
with an `uploading.marker` beside the open file. A separate migration script
rewrites legacy records. It replaces each body with a summary from a
Bedrock model, found by stripping HTML, prompting and retrying.

This project models the decision logic of that code as pure Dafny functions
and small methods:

- `Calendar`, `WindowClock`: window arithmetic and partition names. Instants
  are integer microseconds since the epoch, with a verified days-to-date
  conversion.
- `FileWriter`, `WriterRuns`: the windowed file writer as a state machine.
  It runs over an abstract filesystem (files with bytes, markers,
  directories) and records each filesystem effect in order. `Utf8` models
  the encoding of lines.
- `Models`: the message shapes, `try_extract_output` and `to_ndjson`.
- `WsClient`: the stream URL, the reconnect backoff loop, the consumer fold
  over frames and the sink selection.
- `TextUtils`: `strip_html_tags`, as Python's `re.sub` with each of its
  eight patterns, followed by the whitespace tidying. `TextExamples` proves
  the two examples of its docstring.
- `Summarizer`: the retry loop around the model call, the blank-input
  short cuts and the prompt texts.
- `Migration`: the S3 path parsing, record validation and transformation,
  the per-file counters and the batch plan.
- `Common`: shared string helpers.

The clock, random draws, filesystem and model failures, JSON encoding and
the model's answers are all parameters.

The model keeps three behaviours of the code that a reader might not expect:

- A window size that does not divide 60 gives windows that straddle the hour
  and overlap (`FileWriter.NonDivisorWindowsOverlap`).
- The inclusive end bound is one second short of the next window. For a
  window size that divides the hour, a write in that last second, past its
  first microsecond, rotates into the same window and opens another object
  (`FileWriter.LastSecondRotation`).
- The window and path are set before the open. With a positive size limit,
  after a failed open every later write in that window fails for lack of a
  handle (`FileWriter.WriteLine`).

Where a description of the system and the code differ, the model follows the
code, with one exception: the migration's record type. As written, the
migration loses the records of every file with a transformed record; the
model writes them as the code evidently intends (`Migration.MigrateFile`
under "Left out", and "Findings"). Elsewhere:

- The migration's API-call counter moves only when the summarizer call
  returns. An exception in that call skips the increment
  (migrate_legacy_data.py:151-159).
- A legacy record whose teaser is truthy but not a string makes the
  transform raise, and the record is dropped without a call
  (migrate_legacy_data.py:119-123).

## Model

| member | source | states |
|---|---|---|
| `Calendar.CivilFromDaysSound` | app/file_writer.py:36-37 | The date printed for a day number is a valid Gregorian date, and converting it back gives the same day number. |
| `Calendar.CivilInjective` | app/file_writer.py:36-37 | Distinct days print as distinct dates. |
| `Calendar.YearMonotone` | app/file_writer.py:36-37 | A later day never falls in an earlier year. |
| `WindowClock.FloorWindow` | app/file_writer.py:26-28 | The floored start is at or before the instant, and the instant lies less than one window after it. |
| `WindowClock.FloorWindowShape` | app/file_writer.py:26-28 | The floored start has second 0 and microsecond 0, the date and hour of the instant, and a minute that is a multiple of the window size and not past the instant's minute. |
| `WindowClock.FloorWindowUnique` | app/file_writer.py:26-28 | The floor is the only instant with those properties: a reference characterisation independent of the formula. |
| `WindowClock.FloorWindowIdempotent` | app/file_writer.py:26-28 | Flooring a floored start changes nothing. |
| `WindowClock.WindowBounds` | app/file_writer.py:30-33 | The end is one second before start plus the window size, and the start is not after the instant. |
| `WindowClock.LastSecondSameBounds` | app/file_writer.py:30-33 | For a size that divides the hour, an instant within one second after a window's end has that same window as its bounds. |
| `WindowClock.JoinPath` | app/file_writer.py:38 | `os.path.join` ends with its last component. |
| `WindowClock.CompactStampInjective` | app/file_writer.py:37 | Two minute-aligned instants with the same `%Y%m%d_%H%M` stamp are equal. |
| `WindowClock.ParseCompactStamp` | app/file_writer.py:37 | Reading the stamp's digits back gives the instant's year, month, day, hour and minute. |
| `WindowClock.PartPrefixShape` | app/file_writer.py:37 | The `part=` directory name is 32 characters long and holds the start stamp at positions 5-17. |
| `WindowClock.PrefixNamesOneWindow` | app/file_writer.py:35-38 | Windows with equal partition prefixes have equal starts, so a prefix names one window. |
| `WindowClock.ObjectNameInjective` | app/file_writer.py:40-42 | Object names of one host differ when their sequence numbers differ. |
| `WindowClock.NameSuffixInjective` | app/file_writer.py:40-42 | A path ends in the object name of at most one sequence number, whatever directory precedes it. |
| `FileWriter.Init` | app/file_writer.py:10-24 | Construction fails exactly when creating the base directory fails. Otherwise it adds that directory and starts with no window, counter 0, no file and no bytes. |
| `FileWriter.Finalize` | app/file_writer.py:80-100 | With no open file nothing happens. Otherwise the file is closed first. The marker is removed exactly when markers are on, it exists and removal succeeds. Handle, path and byte count are cleared, while window and counter stay. |
| `FileWriter.Release` | app/file_writer.py:83-100 | The close-then-remove step: the writer's file, path and bytes are cleared and the marker set loses exactly the removed marker. |
| `FileWriter.Close` | app/file_writer.py:102-103 | Closing leaves no open file, no counted bytes, and file contents untouched. |
| `FileWriter.CloseIdempotent` | app/file_writer.py:80-103 | A second close has no effect at all. |
| `FileWriter.StartNewWindow` | app/file_writer.py:44-59 | A zero window size, a window whose start plus the window size passes the end of year 9999, or a failed `makedirs` changes nothing; the first two are exactly the `ZeroWindow` and `WindowOverflow` failures. Otherwise the counter rises by one, the window and path become the bounds and object path of `now`, and the directory is made before the marker and the marker before the open. On success the object is open with 0 bytes counted; a failed open leaves no handle. Existing files are untouched. |
| `FileWriter.OpenLog` | app/file_writer.py:47-58 | The effects of opening are the directory first, the marker exactly when it was put, and the open exactly when it succeeded. Nothing is appended. |
| `FileWriter.EnterWindow` | app/file_writer.py:48-59 | Path, window and counter are recorded whether or not the open succeeds. The handle is set exactly on success. Only the new object is added to the files, and a marker only when enabled and creatable. |
| `FileWriter.Prepare` | app/file_writer.py:72-74 | Without `_should_rotate` nothing happens. With it, the old object is finalized and then the window of `now` is opened, with the next sequence number and a zero byte count. |
| `FileWriter.Append` | app/file_writer.py:75-78 | A write through a missing handle or a failed write changes nothing. A successful one appends exactly the UTF-8 bytes of the line to the open file and adds their count. |
| `FileWriter.WriteLine` | app/file_writer.py:70-78 | Effects come in protocol order: close, remove marker, make directory, put marker, open, append. Without rotation the window, path, counter and handle stay. A success appends exactly the line's bytes and counts them from 0 after a rotation. The size check precedes the append, so an object passes the limit by at most its last line. With a positive size limit, after a failed open, writes in the same window keep failing. Files only grow. |
| `FileWriter.LastSecondRotation` | app/file_writer.py:61-65 | For a window size that divides the hour, a write past the end bound but in the window's last second rotates, although its own bounds are the current window. |
| `FileWriter.NonDivisorWindowsOverlap` | app/file_writer.py:26-33 | With 45-minute windows, 00:50 gives 00:45-01:29:59 and 01:30 gives 01:00-01:44:59: the windows cross the hour and overlap. |
| `WriterRuns.Run` | app/file_writer.py:70-78 | Over any sequence of writes, the bytes appended are exactly the UTF-8 of the successful lines in call order. The objects opened carry strictly increasing sequence numbers from a counter that never resets. No file loses bytes. |
| `Utf8.EncodeChar` | app/file_writer.py:75 | A character encodes to 1 to 4 bytes. It takes one byte exactly when it is ASCII, and that byte is its code. |
| `Utf8.DecodeEncode` | app/file_writer.py:75 | Decoding the UTF-8 of a string gives the string back. |
| `Utf8.EncodeInjective` | app/file_writer.py:75 | Different strings have different encodings. |
| `Utf8.EncodeAppend` | app/file_writer.py:75-78 | The encoding of a concatenation is the concatenation of the encodings, so successive writes append the encoding of the joined lines. |
| `Utf8.EncodeAsciiLength` | app/file_writer.py:78 | For ASCII text the byte count added equals the character count. |
| `Models.FirstSymbolAt` | app/models.py:64 | Finds the first security, in list order, whose symbol is present and non-empty; nothing before it qualifies, and it is absent exactly when none qualifies. |
| `Models.FirstSymbolUnique` | app/models.py:64 | Any qualifying position with no qualifying one before it is the one found. |
| `Models.TryExtractOutput` | app/models.py:60-79 | No securities, or none with a truthy symbol, gives no record. Otherwise the ticker is that first symbol, which may be whitespace, and id, timestamp and the content fields are copied unchanged. |
| `Models.ExtractIgnoresUnusablePrefix` | app/models.py:61-66 | Putting securities without a usable symbol in front changes nothing. |
| `Models.ToNdjson` | app/models.py:56-57 | The line is the JSON text followed by exactly one newline, and for JSON without a newline it is the only one. |
| `Models.NdjsonSplit` | app/models.py:56-57 | Concatenated NDJSON lines split at newlines give the JSON texts back, plus a final empty piece. |
| `Models.NdjsonJoin` | app/models.py:56-57 | Concatenated NDJSON lines are the JSON texts joined by newlines with a trailing newline. |
| `WsClient.BuildWsUrl` | app/ws_client.py:22-26 | The URL is the configured URL, then `&` if it already has a `?` and `?` otherwise, then `token=` and the key. |
| `WsClient.BuildWsUrlInjective` | app/ws_client.py:22-26 | For URLs of one length, the built URL determines both the URL and the token. |
| `WsClient.DelayBounds` | app/ws_client.py:80-81 | The delay never exceeds the maximum. With non-negative jitter it is at least the lesser of maximum and backoff; with jitter up to the backoff it is at most twice the backoff. |
| `WsClient.JitterBounds` | app/ws_client.py:80 | `random.uniform(0, backoff)` lies in [0, backoff]. |
| `WsClient.NextBackoffBounds` | app/ws_client.py:87 | With 0 ≤ base ≤ max the next backoff lies in [base, max] and never decreases from a value within the maximum. |
| `WsClient.CappedDoubling` | app/ws_client.py:87 | Doubling a capped backoff and capping again is capping the doubled value. |
| `WsClient.BackoffsClosedForm` | app/ws_client.py:61-87 | Starting from the base, k consecutive failures give backoff min(max, base·2^k). |
| `WsClient.RunStream` | app/ws_client.py:60-87 | The loop never takes more turns than it is given, and it is still going exactly when it used them all. It never waits more times than it took turns. |
| `WsClient.RunStreamEnds` | app/ws_client.py:62-78 | The loop makes a turn only while `stop` is unset. It ends at the first turn that sees `stop` set, or at the first cancellation, which propagates with no reconnect. |
| `WsClient.DelaysBounded` | app/ws_client.py:60-87 | Every delay waited and the final backoff lie in [base, max]. |
| `WsClient.FailuresCompound` | app/ws_client.py:79-87 | A run opening with k connect failures waits their delays and then continues as a run started from the k-fold backoff. |
| `WsClient.DroppedResets` | app/ws_client.py:74-87 | After a connection that succeeded and then dropped, the delay and next backoff do not depend on the backoff before it: the reset to base took effect. |
| `WsClient.AcceptedInOrder` | app/ws_client.py:29-57 | Exactly the frames that decode, validate and yield a record contribute a record, in frame order and with none passed over. |
| `WsClient.SkippedFrame` | app/ws_client.py:31-51 | A frame failing decode, validation or extraction adds nothing and the loop goes on. |
| `WsClient.Lines` | app/ws_client.py:45-54 | One line is handed to the writer per accepted record. |
| `WsClient.ConsumeMessages` | app/ws_client.py:29-57 | The k-th write is the NDJSON line of the k-th accepted record. Every accepted record is attempted even after failed writes. The bytes appended are the UTF-8 of the lines that succeeded, and objects are numbered in increasing order. |
| `WsClient.DeliveredAllOk` | app/ws_client.py:52-57 | When no write fails, the delivered text is the NDJSON text of the records. |
| `WsClient.StoredRecords` | app/ws_client.py:29-57 | When no write fails and no JSON text holds a newline, the bytes written decode and split back into exactly the JSON texts of the accepted records, in order. |
| `WsClient.SelectSink` | app/ws_client.py:92-108 | The S3 writer is chosen exactly when the setting, lower-cased, is `s3`, and the file writer otherwise, including when unset. Both get 30-minute windows, a 512 000 000-byte limit and markers on. |
| `WsClient.SelectSinkCaseInsensitive` | app/ws_client.py:92 | Settings that differ only in letter case choose the same sink. |
| `WsClient.MainFile` | app/ws_client.py:90-126 | With the file sink, the writer exists exactly when its directory can be made. One consumer run covers every connection, because the writer is built once and a failed write is caught inside the consumer. When every write succeeds and no record's JSON holds a line break, the bytes written decode as the NDJSON lines of the accepted records, in stream order. After the stream ends the writer is closed: no open file, no counted bytes. |
| `Common.StripEmptyIffBlank` | app/bedrock_summarizer.py:135 | `s.strip()` is empty exactly when `s` is all whitespace. |
| `Common.JoinSplit` | app/text_utils.py:62 | Joining the pieces of a split with the separator gives the text back. |
| `Common.SplitJoin` | app/text_utils.py:62 | Splitting a join of separator-free pieces gives the pieces back. |
| `TextUtils.FirstMatch` | app/text_utils.py:42-60 | The leftmost match position: a match starts there when it is inside the text. |
| `TextUtils.FirstMatchLeftmost` | app/text_utils.py:42-60 | No match starts before the leftmost one. |
| `TextUtils.ScanKeeps` | app/text_utils.py:42-60 | Up to the leftmost match, the scan copies the text unchanged. |
| `TextUtils.ScanLeftmost` | app/text_utils.py:42-60 | The scan is `re.sub` as Python describes it: the text before the leftmost match is kept and the rest is rewritten from that match on. |
| `TextUtils.ScanNoMatch` | app/text_utils.py:42-60 | Text with no match is left unchanged. |
| `TextUtils.SubWithoutLead` | app/text_utils.py:42-60 | Text without the character every match starts with is unchanged by that rewrite. |
| `TextUtils.SubAvoids` | app/text_utils.py:42-60 | A rewrite introduces no character absent from both the text and its replacement. |
| `TextUtils.SubAtMatch` | app/text_utils.py:42-60 | At a match the replacement is emitted and the scan resumes after it. |
| `TextUtils.ParaBreakRewrite` | app/text_utils.py:42 | `</p>`, any whitespace, `<p>`, in any letter case, becomes two newlines. |
| `TextUtils.LineBreakRewrite` | app/text_utils.py:43 | `<br>`, with any whitespace and an optional slash, in any letter case, becomes one newline. |
| `TextUtils.DivBreakRewrite` | app/text_utils.py:44 | `</div>`, any whitespace, `<div>`, in any letter case, becomes two newlines. |
| `TextUtils.AnyTagLeavesNoTag` | app/text_utils.py:51 | After `<[^>]+>` is removed everywhere no such span is left. |
| `TextUtils.MarkupAvoidsAmp` | app/text_utils.py:42-51 | The markup rewrites introduce no `&`, so text without entities stays without them. |
| `TextUtils.NoTagSurvives` | app/text_utils.py:51-65 | For input without `&`, with unescaping the identity there, no tag-shaped span `<[^>]+>` survives in the result. |
| `TextUtils.SpacesCollapsed` | app/text_utils.py:58 | After collapsing space runs no two spaces are adjacent. |
| `TextUtils.NewlinesKeepNoDoubleSpace` | app/text_utils.py:60 | Collapsing newline runs does not create adjacent spaces. |
| `TextUtils.PrunedSub` | app/text_utils.py:58-60 | Collapsing space or newline runs only deletes characters, never angle brackets. |
| `TextUtils.StripLinesJoin` | app/text_utils.py:62 | The line-wise strip is exactly `'\n'.join(line.strip() for line in s.split('\n'))`. |
| `TextUtils.StripLinesClean` | app/text_utils.py:62 | After stripping every line, no line begins or ends with whitespace. |
| `TextUtils.StripLinesKeepsNoDoubleSpace` | app/text_utils.py:62 | Stripping lines does not create adjacent spaces. |
| `TextUtils.PrunedStripLines` | app/text_utils.py:62 | Stripping lines only deletes characters, never angle brackets. |
| `TextUtils.StripKeeps` | app/text_utils.py:65 | The final strip leaves the text trimmed and keeps its lines clean. |
| `TextUtils.PrunedStrip` | app/text_utils.py:65 | The final strip only deletes characters. |
| `TextUtils.LinesCleanSplit` | app/text_utils.py:62-65 | Text with clean lines, split at newlines, gives trimmed lines. |
| `TextUtils.CleanTextShape` | app/text_utils.py:35-67 | Missing or empty input gives empty text. For every input and any unescaping, the result is trimmed, has no two adjacent spaces, and every newline-separated line is trimmed. |
| `TextExamples.StripHtmlTagsHello` | app/text_utils.py:29-30 | `<p>Hello <b>world</b>!</p>` becomes `Hello world!` for any unescaping that is the identity on text without `&`. |
| `TextExamples.StripParagraphs` | app/text_utils.py:35-67 | Two paragraphs of two words each, `<p>a b</p><p>c d</p>`, become `a b`, two newlines, `c d`, for any words that are not blank at either end and hold no space, newline, `<` or `&`, and any unescaping that is the identity on text without `&`. |
| `TextExamples.StripHtmlTagsParagraphs` | app/text_utils.py:32-33 | `<p>First para</p><p>Second para</p>` becomes `First para`, two newlines, `Second para`. |
| `Summarizer.AttemptsBounds` | app/bedrock_summarizer.py:62-113 | From a given attempt on, primary calls never exceed the attempts left, and at most one fallback call happens, only after a primary call. An exception escapes only from the fallback call, and there is at most one sleep per call. |
| `Summarizer.Invoke` | app/bedrock_summarizer.py:54-113 | At most `max_retries` primary-model calls; an escaping exception always comes from the one fallback call. |
| `Summarizer.InvokeNoRetries` | app/bedrock_summarizer.py:62-113 | With `max_retries ≤ 0` the result is `None` with no call and no sleep. |
| `Summarizer.InvokeFirstSummary` | app/bedrock_summarizer.py:62-73 | When every earlier attempt passed, the first non-empty primary summary is returned after k+1 calls, with exactly the earlier attempts' sleeps. |
| `Summarizer.InvokeFallback` | app/bedrock_summarizer.py:84-90 | A ValidationException about on-demand throughput makes exactly one fallback call, whose answer or exception is passed through unguarded. |
| `Summarizer.FallbackReply` | app/bedrock_summarizer.py:90 | The fallback's exceptions propagate, and a summary it returns is its own non-empty text. |
| `Summarizer.InvokeGivesUp` | app/bedrock_summarizer.py:74-111 | A non-retryable client error, or a retryable one or any other exception on the last attempt, returns `None` at once with no fallback. |
| `Summarizer.InvokeRunsOut` | app/bedrock_summarizer.py:62-113 | When every attempt passes, all `max_retries` calls are made and the result is `None`. |
| `Summarizer.SkipPassing` | app/bedrock_summarizer.py:62-111 | Attempts that pass (empty answers and transient errors before the last) only add a call and their sleep each. |
| `Summarizer.PausesDouble` | app/bedrock_summarizer.py:98-111 | After transient errors the sleeps are 2^a, 2^(a+1), …: one per attempt, doubling. |
| `Summarizer.SummarizeArticle` | app/bedrock_summarizer.py:115-140 | A blank body answers with the teaser when it is truthy, else `None`, without any call. Otherwise a prompt containing the body verbatim goes to the retry loop, and every call is made on that prompt. |
| `Summarizer.SummarizeHtml` | app/bedrock_summarizer.py:177-204 | Blank content answers `None` without any call. Otherwise a prompt containing the HTML verbatim goes to the retry loop. |
| `Summarizer.BlankBodyNoCall` | app/bedrock_summarizer.py:135-137 | A whitespace-only body or HTML reaches no model, whatever it would answer. |
| `Summarizer.PromptParts` | app/bedrock_summarizer.py:230-251 | The prompt lines hold the title line, the body and the word-limit line in fixed places. There is one more line exactly when the teaser is non-blank, and that line is `Teaser: ` and the teaser. |
| `Summarizer.BuildPrompt` | app/bedrock_summarizer.py:210-253 | The joined article prompt contains `Title: <title>`, the body verbatim and the word-limit line, and the teaser line when the teaser is non-blank. |
| `Summarizer.BuildHtmlPrompt` | app/bedrock_summarizer.py:255-292 | The HTML prompt contains `Title: <title>`, the HTML verbatim and the word-limit line. |
| `Migration.ParsePath` | migrate_legacy_data.py:318-323 | A path without the `s3://` scheme is refused. Otherwise the bucket has no `/` and the prefix is empty or ends in exactly one `/`. |
| `Migration.ParsePathParts` | migrate_legacy_data.py:318-323 | `s3://b` gives bucket `b` and an empty prefix; `s3://b/k` gives bucket `b` and `k` with trailing slashes replaced by one, so `s3://b/` gives prefix `/`. |
| `Migration.ParseRender` | migrate_legacy_data.py:318-323 | Rendering a bucket and a normal prefix as a path and parsing it gives them back. |
| `Migration.ParsePathStable` | migrate_legacy_data.py:318-323 | Re-parsing the rendering of a parsed path gives the same result. |
| `Migration.Validate` | migrate_legacy_data.py:192-213 | A record passes exactly when `news_id` and `ticker` are present and the body is a non-blank string. It raises exactly when both keys are present and the body is truthy but not a string; it fails otherwise. |
| `Migration.ApologyCheck` | migrate_legacy_data.py:126-132 | Existing content makes the record skip only when truthy. For string content it skips exactly when the text contains the apology, and never raises. |
| `Migration.TransformRecordSpec` | migrate_legacy_data.py:114-190 | The summarizer is called exactly for records that pass the gate. The API counter moves exactly when that call returns. A record comes out exactly when the reply is a non-empty summary and the record validates. It then has action `Created`, that summary as content, and the legacy id and ticker. |
| `Migration.SkipWithoutCall` | migrate_legacy_data.py:114-132 | A record that fails validation, or whose content already holds the apology, is dropped with no summarizer call and no count. |
| `Migration.WordCount` | migrate_legacy_data.py:447 | `len(s.split())` is at most the length, and zero exactly when the text is blank. |
| `Migration.WordCountWord` | migrate_legacy_data.py:447 | A word of non-space characters followed by nothing or by whitespace adds exactly one to the count of what follows. |
| `Migration.WordCountSpace` | migrate_legacy_data.py:447 | A leading whitespace character adds nothing to the count. |
| `Migration.WordCountJoin` | migrate_legacy_data.py:447 | Words without whitespace joined by single spaces count as exactly as many words as there are. |
| `Migration.Tallies` | migrate_legacy_data.py:434-453 | Over a file's records, transformed plus failed is the record count. The output holds one record per transformed record, each counted as an AI summary or an HTML fallback. The HTML-fallback count is the number of output records whose summary has at most 100 words, and the AI-summary count is the rest. API calls never exceed records. |
| `Migration.TalliesAppend` | migrate_legacy_data.py:434-453 | The tally of two runs of records is the sum of their tallies. |
| `Migration.Transforms` | migrate_legacy_data.py:436-440 | The k-th outcome is the transform of the k-th record, at index k. |
| `Migration.TransformAllAppend` | migrate_legacy_data.py:434-453 | Transforming a file in two parts gives the summed counters and the concatenated output, in input order. |
| `Migration.TransformAllOne` | migrate_legacy_data.py:440-453 | One record contributes its new record to the output when there is one, and one API call exactly when counted. |
| `Migration.MigrateFile` | migrate_legacy_data.py:419-470 | Each file adds one to the file count. An empty read changes nothing else and writes nothing. When every line is an object, its record count goes to `records_processed`, each record is counted as transformed or failed, and the transformed records, possibly none, are written over the file in order; a failed write writes nothing and records the file's key. A line that is not an object stops the file: the lines up to it are counted as processed, that line is counted neither as transformed nor as failed, nothing is written and the key is recorded. Of the records transformed, those whose summary has at most 100 words add to `html_fallbacks_used` and the others to `ai_summaries_generated`. The counter bounds are kept. |
| `Migration.Dropped` | migrate_legacy_data.py:436-451 | How far the record loop gets before the word count raises: every line before it is an object whose transform gives no record, and the line it stops at is not one (it is not an object, or it transforms). |
| `Migration.MigrateFileAsWritten` | migrate_legacy_data.py:419-470 | The file as the code runs it against app/models.py's `OutputRecord`: the file count moves by one, the transformed count by at most one, neither summary counter moves, an empty read changes nothing else, and the only write ever made is an empty one. |
| `Migration.AsWrittenLosesRecords` | migrate_legacy_data.py:436-469 | For a readable file of objects with at least one transformed record and a write that would succeed, the model writes those records with no error, while the code as written writes nothing, logs the file's key, and leaves counters that balanced out of balance. |
| `Migration.MigrateEach` | migrate_legacy_data.py:379-380 | Files are migrated one after another; each adds one to the file count and at most one write. Transformed plus failed never exceeds processed, which exceeds it by at most the number of errors. |
| `Migration.MigrateEachAccounted` | migrate_legacy_data.py:379-380 | When no file has a line that is not an object, every processed record stays counted as transformed or failed. |
| `Migration.MigrateEachAppend` | migrate_legacy_data.py:379-380 | Migrating a concatenated list is migrating the first part, then the second. |
| `Migration.Plan` | migrate_legacy_data.py:366-400 | Every batch is non-empty and at most the batch size, every batch but the last is full, and there is a wait after every batch but the last. |
| `Migration.PlanCovers` | migrate_legacy_data.py:366-367 | The batches concatenated are exactly the file list from the start offset: consecutive slices, each file once and in order. |
| `Migration.PlanCount` | migrate_legacy_data.py:366-367 | The number k of batches satisfies (k-1)·size < n ≤ k·size for the n files left. |
| `Migration.CeilDiv` | migrate_legacy_data.py:374 | A k with (k-1)·size < n ≤ k·size is `(n + size - 1) // size`. |
| `Migration.BatchCount` | migrate_legacy_data.py:366-374 | There are `ceil(n / batch_size)` batches, the total the progress log prints. |
| `Migration.RunBatches` | migrate_legacy_data.py:366-380 | Each batch adds one to `batch_count`, and the counter bounds are kept. |
| `Migration.RunBatchesSequential` | migrate_legacy_data.py:366-380 | Running the batches is migrating their concatenated files in order, with the batch count added. |
| `Migration.Migrate` | migrate_legacy_data.py:347-416 | The migration aborts exactly when there are files and the batch size is 0 (`range` with step 0 raises). In every finished run transformed plus failed is at most processed, and processed exceeds it by at most the number of errors. |
| `Migration.MigrateAccounted` | migrate_legacy_data.py:347-470 | When no listed file has a line that is not an object, a finished run counts every processed record as transformed or failed. |
| `Migration.MigrateInOrder` | migrate_legacy_data.py:347-411 | For a positive batch size, the whole migration is migrating every listed file once, in order, with the number of batches in the plan as the batch count. |

## Left out

- FileWriter.Append: the write and the flush are one all-or-nothing step (`Io.writeOk`). In the program a flush that raises after a buffered write leaves bytes that may still reach the file later, and the byte count misses them (app/file_writer.py:76-78). `WriterRuns.Run` and `WsClient.ConsumeMessages` build on this step, so they do not model that case either.
- Summarizer.SummarizeArticle: the body is a `string`, so a `None` body is modelled as the empty string; `not body` (app/bedrock_summarizer.py:135) treats the two alike.
- app/s3_writer.py is not part of this model. The S3 sink is chosen (`WsClient.SelectSink`), but its multipart writer is not modelled.
- The network, SSL and certifi, the asyncio event loop, signal handlers and real sleeping or waiting (app/ws_client.py:63-86, 110-121) are not modelled. A run of the stream loop is a sequence of turns with given outcomes and random draws, and delays are computed values.
- Bedrock request and response handling (app/bedrock_summarizer.py:142-175) is an oracle: the j-th primary call has a given outcome. The `max_tokens` float arithmetic there is not modelled.
- JSON decoding and encoding (orjson, pydantic validation, `model_dump_json`) are parameters. A frame is `BadJson`, `BadSchema` or a decoded message; `dump` gives a record's JSON text; the migration's `conforms` says whether a new record validates.
- `html.unescape` is a parameter. The properties about tags assume only that it is the identity on text without `&`.
- Case-insensitive matching covers ASCII letters and the two special forms of `i`. Other Unicode case folds are not modelled.
- Floating point is not modelled: `MigrationStats` rates and the corrupted-file ratio (migrate_legacy_data.py:62-90), and the adaptive inter-batch delay (migrate_legacy_data.py:382-395). The plan records only whether the loop waits after a batch.
- Legacy JSON numbers are integers in the model, since the migration only copies them.
- The S3 listing, reading and writing of the migration (`list_ndjson_files`, `read_file`, `write_file`) are parameters. A read gives the decoded JSON value of each line, whatever its kind, or none when it fails, and a write succeeds or fails.
- The migration's `errors` list holds the key of each file whose write failed or whose record loop stopped at a line that is not an object, not the exception text. Log messages are not modelled.
- An exception escaping `migrate_files` itself (migrate_legacy_data.py:413-416) is not modelled, beyond the zero batch size. The file listing is a parameter and nothing else in the loop raises in the model.
- Migration.MigrateFile: the record is the model's own `Migration.NewRecord`, which has `action` and `content`. The code builds an `OutputRecord` of app/models.py (migrate_legacy_data.py:169-181), which declares neither field, so pydantic drops both. Then `len(new_record.content.split())` (migrate_legacy_data.py:447) raises AttributeError on a file's first transformed record, after it was counted as processed and as transformed (migrate_legacy_data.py:437, 444). The handler (migrate_legacy_data.py:467-469) logs the error, the write (migrate_legacy_data.py:455-465) never happens and the rest of the file is skipped. `Migration.MigrateFile` does not model that loss; `Migration.MigrateFileAsWritten` does (see "Findings").
- migrate_timestamps.py, test_migration.py, tests/test_message_processing.py, app/config.py, app/logging_setup.py and app/main.py are not part of this model. They are other scripts, tests against functions not in app/models.py, configuration, logging and entry points.
- Date-times in messages are opaque integers: extraction only copies them.
- `WsClient.RunStream`: the loop is modelled over a finite list of turns, so a run that never stops ends as `Pending` when the turns run out.

## Findings

| source | as written | input that shows it | evidently intended | confidence | as-written member | corrected member |
|---|---|---|---|---|---|---|
| migrate_legacy_data.py:447 | The new record built at migrate_legacy_data.py:169-181 is an `OutputRecord` of app/models.py, which declares no `content`, so the word count at line 447 raises AttributeError on the first transformed record and the file's records are never written. | A file with one legacy object whose body has an AI summary and whose write would succeed. | Every transformed record is written back over the file, with no error for the file. | not executed | `Migration.MigrateFileAsWritten`, `Migration.AsWrittenLosesRecords` | `Migration.MigrateFile` |

=== FILE: calendar.dfy ===
/** The proleptic Gregorian calendar from the Unix epoch on, as Python's
    `datetime` uses it for `strftime`. Day numbers count from 1970-01-01.
    `CivilFromDays` walks years and then months; `DaysFromCivil` is its
    inverse, which is what makes partition prefixes injective. */
module Calendar {

  const EpochYear: nat := 1970

  datatype Date = Date(year: nat, month: nat, day: nat)

  predicate IsLeap(y: nat) {
    y % 4 == 0 && (y % 100 != 0 || y % 400 == 0)
  }

  function DaysInYear(y: nat): nat {
    if IsLeap(y) then 366 else 365
  }

  /** Days of year `y` that lie before the first of month `m`; month 13
      stands for the end of the year. */
  function DaysBeforeMonth(y: nat, m: nat): nat
    requires 1 <= m <= 13
  {
    var common :=
      if m == 1 then 0 else if m == 2 then 31 else if m == 3 then 59
      else if m == 4 then 90 else if m == 5 then 120 else if m == 6 then 151
      else if m == 7 then 181 else if m == 8 then 212 else if m == 9 then 243
      else if m == 10 then 273 else if m == 11 then 304 else if m == 12 then 334
      else 365;
    common + (if IsLeap(y) && m > 2 then 1 else 0)
  }

  function DaysInMonth(y: nat, m: nat): nat
    requires 1 <= m <= 12
  {
    DaysBeforeMonth(y, m + 1) - DaysBeforeMonth(y, m)
  }

  predicate ValidDate(d: Date) {
    && d.year >= EpochYear
    && 1 <= d.month <= 12
    && 1 <= d.day <= DaysInMonth(d.year, d.month)
  }

  function DaysBeforeYear(y: nat): nat
    requires y >= EpochYear
    decreases y
  {
    if y == EpochYear then 0 else DaysBeforeYear(y - 1) + DaysInYear(y - 1)
  }

  /** Day number of a calendar date. */
  function DaysFromCivil(d: Date): nat
    requires ValidDate(d)
  {
    DaysBeforeYear(d.year) + DaysBeforeMonth(d.year, d.month) + d.day - 1
  }

  /** The date of day `doy` (0-based) of year `y`, searching from month `m`. */
  function MonthOf(y: nat, m: nat, doy: nat): Date
    requires y >= EpochYear && 1 <= m <= 12
    requires DaysBeforeMonth(y, m) <= doy < DaysInYear(y)
    decreases 12 - m
  {
    if doy < DaysBeforeMonth(y, m + 1) then Date(y, m, doy - DaysBeforeMonth(y, m) + 1)
    else MonthOf(y, m + 1, doy)
  }

  /** The date that lies `d` days after the first of January of year `y`. */
  function YearOf(y: nat, d: nat): Date
    requires y >= EpochYear
    decreases d
  {
    if d < DaysInYear(y) then MonthOf(y, 1, d) else YearOf(y + 1, d - DaysInYear(y))
  }

  /** The calendar date of day number `days`. */
  function CivilFromDays(days: nat): Date {
    YearOf(EpochYear, days)
  }

  lemma {:induction false} MonthOfSound(y: nat, m: nat, doy: nat)
    requires y >= EpochYear && 1 <= m <= 12
    requires DaysBeforeMonth(y, m) <= doy < DaysInYear(y)
    ensures var r := MonthOf(y, m, doy);
      ValidDate(r) && r.year == y && DaysBeforeMonth(y, r.month) + r.day - 1 == doy
    decreases 12 - m
  {
    if doy >= DaysBeforeMonth(y, m + 1) {
      MonthOfSound(y, m + 1, doy);
    }
  }

  lemma {:induction false} YearOfSound(y: nat, d: nat)
    requires y >= EpochYear
    ensures var r := YearOf(y, d);
      ValidDate(r) && r.year >= y && DaysFromCivil(r) == DaysBeforeYear(y) + d
    decreases d
  {
    if d < DaysInYear(y) {
      assert YearOf(y, d) == MonthOf(y, 1, d);
      MonthOfSound(y, 1, d);
    } else {
      var r := YearOf(y + 1, d - DaysInYear(y));
      assert YearOf(y, d) == r;
      YearOfSound(y + 1, d - DaysInYear(y));
      DaysBeforeYearStep(y);
    }
  }

  lemma DaysBeforeYearStep(y: nat)
    requires y >= EpochYear
    ensures DaysBeforeYear(y + 1) == DaysBeforeYear(y) + DaysInYear(y)
  {
  }

  /** `CivilFromDays` yields a valid date, and `DaysFromCivil` inverts it. */
  lemma CivilFromDaysSound(days: nat)
    ensures ValidDate(CivilFromDays(days))
    ensures DaysFromCivil(CivilFromDays(days)) == days
  {
    YearOfSound(EpochYear, days);
  }

  /** Distinct day numbers have distinct dates. */
  lemma CivilInjective(a: nat, b: nat)
    requires CivilFromDays(a) == CivilFromDays(b)
    ensures a == b
  {
    CivilFromDaysSound(a);
    CivilFromDaysSound(b);
  }

  lemma {:induction false} DaysBeforeYearMonotone(a: nat, b: nat)
    requires EpochYear <= a <= b
    ensures DaysBeforeYear(a) <= DaysBeforeYear(b)
    decreases b - a
  {
    if a < b {
      DaysBeforeYearMonotone(a, b - 1);
    }
  }

  /** Later days never fall in earlier years. */
  lemma YearMonotone(a: nat, b: nat)
    requires a <= b
    ensures CivilFromDays(a).year <= CivilFromDays(b).year
  {
    var da, db := CivilFromDays(a), CivilFromDays(b);
    CivilFromDaysSound(a);
    CivilFromDaysSound(b);
    if da.year > db.year {
      assert DaysBeforeMonth(db.year, db.month) + db.day - 1 < DaysInYear(db.year);
      DaysBeforeYearMonotone(db.year + 1, da.year);
    }
  }
}

=== FILE: common.dfy ===
/** Small shared vocabulary: an option type, Python's notion of whitespace,
    stripping, substring search, joining, and decimal formatting with its
    inverse (used by object names, partition prefixes and prompts). */
module Common {

  datatype Option<+T> = None | Some(value: T)

  /** A character for which Python's `str.isspace()` holds; this is also the
      class `\s` matches in a `str` regular expression. */
  predicate IsSpace(c: char) {
    || ('\t' <= c <= '\r')
    || ('\U{1C}' <= c <= '\U{1F}')
    || c == ' '
    || c == '\U{85}'
    || c == '\U{A0}'
    || c == '\U{1680}'
    || ('\U{2000}' <= c <= '\U{200A}')
    || c == '\U{2028}'
    || c == '\U{2029}'
    || c == '\U{202F}'
    || c == '\U{205F}'
    || c == '\U{3000}'
  }

  /** Python's `s.lstrip()`: drops the longest all-whitespace prefix. */
  function LStrip(s: string): (r: string)
    ensures |r| <= |s| && r == s[|s| - |r|..]
    ensures r == [] || !IsSpace(r[0])
    ensures IsBlank(s[..|s| - |r|])
  {
    if |s| > 0 && IsSpace(s[0]) then LStrip(s[1..]) else s
  }

  /** Python's `s.rstrip()`: drops the longest all-whitespace suffix. */
  function RStrip(s: string): (r: string)
    ensures |r| <= |s| && r == s[..|r|]
    ensures r == [] || !IsSpace(r[|r| - 1])
    ensures IsBlank(s[|r|..])
  {
    if |s| > 0 && IsSpace(s[|s| - 1]) then
      var r := RStrip(s[..|s| - 1]);
      assert s[|r|..] == s[..|s| - 1][|r|..] + [s[|s| - 1]];
      r
    else s
  }

  /** Python's `s.strip()`. */
  function Strip(s: string): string {
    RStrip(LStrip(s))
  }

  /** Python's `not s.strip()`: the text is empty or only whitespace. */
  predicate IsBlank(s: string) {
    forall i :: 0 <= i < |s| ==> IsSpace(s[i])
  }

  lemma StripEmptyIffBlank(s: string)
    ensures Strip(s) == [] <==> IsBlank(s)
  {
  }

  /** Python's `s.rstrip(c)` for a single character `c`. */
  function RStripChar(s: string, c: char): (r: string)
    ensures |r| <= |s| && r == s[..|r|]
    ensures r == [] || r[|r| - 1] != c
    ensures forall i :: |r| <= i < |s| ==> s[i] == c
  {
    if |s| > 0 && s[|s| - 1] == c then RStripChar(s[..|s| - 1], c) else s
  }

  /** A text is its part before index `i`, the character there, and the
      part after. */
  lemma CutAt(s: string, i: nat)
    requires i < |s|
    ensures s[..i] + [s[i]] + s[i + 1..] == s
  {
  }

  /** Dropping one character and then `k` drops `k + 1`. */
  lemma DropDrop(s: string, k: nat)
    requires k < |s|
    ensures s[1..][k..] == s[k + 1..]
  {
  }

  /** Dropping the first part of a concatenation leaves the second. */
  lemma DropPrefix(a: string, b: string)
    ensures (a + b)[|a|..] == b
  {
  }

  /** Concatenation is associative. */
  lemma ConcatAssoc(a: string, b: string, c: string)
    ensures a + (b + c) == (a + b) + c
  {
  }

  predicate StartsWith(s: string, p: string) {
    |p| <= |s| && s[..|p|] == p
  }

  predicate EndsWith(s: string, p: string) {
    |p| <= |s| && s[|s| - |p|..] == p
  }

  /** The middle of a three-part concatenation is the slice at its offset. */
  lemma SliceMiddle(a: string, b: string, c: string)
    ensures (a + b + c)[|a|..|a| + |b|] == b
  {
    var s := a + b + c;
    assert forall i :: 0 <= i < |b| ==> s[|a| + i] == b[i];
  }

  /** `sub` occurs in `s` starting at index `i`. */
  predicate InfixAt(s: string, sub: string, i: nat) {
    i + |sub| <= |s| && s[i..i + |sub|] == sub
  }

  /** Python's `sub in s`. */
  predicate Contains(s: string, sub: string) {
    exists i :: 0 <= i <= |s| && InfixAt(s, sub, i)
  }

  lemma ContainsWitness(s: string, sub: string, i: nat)
    requires InfixAt(s, sub, i)
    ensures Contains(s, sub)
  {
  }

  lemma ContainsInfix(a: string, sub: string, b: string)
    ensures Contains(a + sub + b, sub)
  {
    ContainsWitness(a + sub + b, sub, |a|);
  }

  /** The first index of `c` in `s`, if any. */
  function IndexOf(s: string, c: char): (r: Option<nat>)
    ensures r.None? <==> c !in s
    ensures r.Some? ==> r.value < |s| && s[r.value] == c && c !in s[..r.value]
  {
    if |s| == 0 then None
    else if s[0] == c then Some(0)
    else match IndexOf(s[1..], c)
      case None => None
      case Some(i) => assert s[1..][..i] == s[1..i + 1]; Some(i + 1)
  }

  /** Python's `sep.join(parts)`. */
  function JoinWith(sep: string, parts: seq<string>): string
  {
    if |parts| == 0 then ""
    else if |parts| == 1 then parts[0]
    else parts[0] + sep + JoinWith(sep, parts[1..])
  }

  /** Python's `s.split(c)` for a one-character separator: the pieces
      between occurrences of `c`, always at least one. */
  function Split(s: string, c: char): (r: seq<string>)
    ensures |r| >= 1
    decreases |s|
  {
    match IndexOf(s, c)
    case None => [s]
    case Some(i) => [s[..i]] + Split(s[i + 1..], c)
  }

  /** Joining the pieces with the separator gives the text back. */
  lemma {:induction false} JoinSplit(s: string, c: char)
    ensures JoinWith([c], Split(s, c)) == s
    decreases |s|
  {
    match IndexOf(s, c)
    case None =>
    case Some(i) =>
      var rest := Split(s[i + 1..], c);
      JoinSplit(s[i + 1..], c);
      assert Split(s, c)[1..] == rest;
      assert s == s[..i] + [c] + s[i + 1..];
  }

  /** Splitting a join of separator-free pieces gives the pieces back. */
  lemma {:induction false} SplitJoin(parts: seq<string>, c: char)
    requires |parts| >= 1
    requires forall k :: 0 <= k < |parts| ==> c !in parts[k]
    ensures Split(JoinWith([c], parts), c) == parts
    decreases |parts|
  {
    if |parts| > 1 {
      var rest := JoinWith([c], parts[1..]);
      var s := parts[0] + [c] + rest;
      assert JoinWith([c], parts) == s;
      assert s[|parts[0]|] == c;
      assert s[..|parts[0]|] == parts[0];
      assert s[|parts[0]| + 1..] == rest;
      SplitJoin(parts[1..], c);
      assert [parts[0]] + parts[1..] == parts;
    }
  }

  /** Joining a part in front of a non-empty list puts the separator
      between it and the rest. */
  lemma JoinCons(sep: string, x: string, rest: seq<string>)
    requires |rest| >= 1
    ensures JoinWith(sep, [x] + rest) == x + sep + JoinWith(sep, rest)
  {
    assert ([x] + rest)[1..] == rest;
  }

  /** Every joined part occurs in the joined text. */
  lemma {:induction false} JoinWithContainsParts(sep: string, parts: seq<string>, k: nat)
    requires k < |parts|
    ensures Contains(JoinWith(sep, parts), parts[k])
  {
    if |parts| == 1 {
      ContainsWitness(parts[0], parts[0], 0);
    } else if k == 0 {
      ContainsWitness(JoinWith(sep, parts), parts[0], 0);
    } else {
      JoinWithContainsParts(sep, parts[1..], k - 1);
      var rest := JoinWith(sep, parts[1..]);
      var i :| 0 <= i <= |rest| && InfixAt(rest, parts[k], i);
      var pre := parts[0] + sep;
      assert JoinWith(sep, parts) == pre + rest;
      assert (pre + rest)[|pre| + i..|pre| + i + |parts[k]|] == rest[i..i + |parts[k]|];
      ContainsWitness(JoinWith(sep, parts), parts[k], |pre| + i);
    }
  }

  /** ASCII lower-casing of one character. */
  function LowerChar(c: char): char {
    if 'A' <= c <= 'Z' then (c as int + 32) as char else c
  }

  function Lower(s: string): (r: string)
    ensures |r| == |s|
    ensures forall i :: 0 <= i < |s| ==> r[i] == LowerChar(s[i])
  {
    if |s| == 0 then "" else [LowerChar(s[0])] + Lower(s[1..])
  }

  // ---------------------------------------------------------------------
  // Decimal formatting

  predicate IsDigit(c: char) {
    '0' <= c <= '9'
  }

  predicate AllDigits(s: string) {
    forall i :: 0 <= i < |s| ==> IsDigit(s[i])
  }

  lemma AllDigitsConcat(a: string, b: string)
    requires AllDigits(a) && AllDigits(b)
    ensures AllDigits(a + b)
  {
    assert forall i :: 0 <= i < |a + b| ==> (a + b)[i] == if i < |a| then a[i] else b[i - |a|];
  }

  function DigitChar(d: nat): (c: char)
    requires d < 10
    ensures IsDigit(c)
  {
    ('0' as int + d) as char
  }

  /** Shortest decimal representation of `n`, as Python's `str(n)`. */
  function Digits(n: nat): string {
    if n < 10 then [DigitChar(n)] else Digits(n / 10) + [DigitChar(n % 10)]
  }

  lemma {:induction false} DigitsShape(n: nat)
    ensures 1 <= |Digits(n)| && AllDigits(Digits(n))
    ensures n < 10 <==> |Digits(n)| == 1
    ensures 10 <= n < 100 ==> |Digits(n)| == 2
    ensures 100 <= n < 1000 ==> |Digits(n)| == 3
    ensures 1000 <= n < 10000 ==> |Digits(n)| == 4
  {
    if n >= 10 {
      DigitsShape(n / 10);
    }
  }

  function Zeros(k: nat): (r: string)
    ensures |r| == k && forall i :: 0 <= i < k ==> r[i] == '0'
  {
    if k == 0 then "" else "0" + Zeros(k - 1)
  }

  /** Python's `f"{n:0wd}"` for a non-negative `n`: at least `width` digits,
      padded on the left with zeros. */
  function ZeroPad(n: nat, width: nat): string {
    (if |Digits(n)| < width then Zeros(width - |Digits(n)|) else "") + Digits(n)
  }

  lemma ZeroPadShape(n: nat, width: nat)
    ensures AllDigits(ZeroPad(n, width))
    ensures |ZeroPad(n, width)| == if |Digits(n)| < width then width else |Digits(n)|
  {
    DigitsShape(n);
  }

  /** Python's `str(i)` for any integer. */
  function IntToString(i: int): string {
    if i < 0 then "-" + Digits(-i) else Digits(i)
  }

  /** Reads a string of decimal digits back into a number. */
  function ParseDigits(s: string): int {
    if |s| == 0 then 0
    else ParseDigits(s[..|s| - 1]) * 10 + (s[|s| - 1] as int - '0' as int)
  }

  lemma {:induction false} ParseDigitsOf(n: nat)
    ensures ParseDigits(Digits(n)) == n
  {
    if n >= 10 {
      var d := Digits(n);
      assert d[..|d| - 1] == Digits(n / 10);
      ParseDigitsOf(n / 10);
    }
  }

  lemma {:induction false} ParseLeadingZeros(k: nat, s: string)
    ensures ParseDigits(Zeros(k) + s) == ParseDigits(s)
    decreases |s|
  {
    if |s| == 0 {
      assert Zeros(k) + s == Zeros(k);
      ParseZeros(k);
    } else {
      assert (Zeros(k) + s)[..|Zeros(k) + s| - 1] == Zeros(k) + s[..|s| - 1];
      ParseLeadingZeros(k, s[..|s| - 1]);
    }
  }

  lemma {:induction false} ParseZeros(k: nat)
    ensures ParseDigits(Zeros(k)) == 0
  {
    if k > 0 {
      assert Zeros(k)[..k - 1] == Zeros(k - 1);
      ParseZeros(k - 1);
    }
  }

  /** Zero padding loses nothing: the number reads back. */
  lemma ParseZeroPad(n: nat, width: nat)
    ensures ParseDigits(ZeroPad(n, width)) == n
  {
    ParseDigitsOf(n);
    if |Digits(n)| < width {
      ParseLeadingZeros(width - |Digits(n)|, Digits(n));
    } else {
      assert ZeroPad(n, width) == Digits(n);
    }
  }

  lemma ZeroPadInjective(a: nat, b: nat, width: nat)
    requires ZeroPad(a, width) == ZeroPad(b, width)
    ensures a == b
  {
    ParseZeroPad(a, width);
    ParseZeroPad(b, width);
  }
}

=== FILE: file_writer.dfy ===
/** `FileWindowedWriter` of app/file_writer.py as a pure state machine over
    an abstract filesystem. The wall clock reading ("now") is a parameter
    of every write; which filesystem calls fail is a parameter too (`Io`),
    so the error paths of the source are explicit. Every operation returns
    the new writer, the new filesystem and the log of filesystem effects in
    the order they happened. */
module FileWriter {
  import opened Common
  import opened Utf8
  import opened WindowClock

  type Path = string

  /** Constructor arguments, plus the host name the constructor looks up. */
  datatype Config = Config(
    baseDir: Path,
    windowMinutes: nat,
    maxObjectBytes: int,
    useMarker: bool,
    hostname: string)

  /** The writer's fields. `file` is the open handle, named by the path it
      appends to; `filePath` is set before the open is attempted, so after
      a failed open it names a file that is not open. */
  datatype Writer = Writer(
    cfg: Config,
    window: Option<Window>,
    seqCounter: nat,
    filePath: Option<Path>,
    file: Option<Path>,
    bytesWritten: nat)

  /** Regular files with their contents, marker files, and directories. */
  datatype Fs = Fs(files: map<Path, seq<byte>>, markers: set<Path>, dirs: set<Path>)

  /** Which of the filesystem calls made during one operation succeed. */
  datatype Io = Io(mkdirOk: bool, markerOk: bool, openOk: bool, writeOk: bool, removeOk: bool)

  const AllOk: Io := Io(true, true, true, true, true)

  /** Filesystem effects, in the order they take place. */
  datatype Event =
    | MadeDir(dir: Path)
    | PutMarker(marker: Path)
    | Opened(path: Path, n: nat)
    | Appended(path: Path, data: seq<byte>)
    | Closed(path: Path)
    | RemovedMarker(marker: Path)

  /** Why a write raised: `ZeroWindow` is the `ZeroDivisionError` of a zero
      window size, `WindowOverflow` the `OverflowError` of a window whose
      start plus the window size passes the end of year 9999, `NoOpenFile` the `AttributeError` of writing through
      a handle that is `None`. */
  datatype Failure = ZeroWindow | WindowOverflow | MkdirFailed | OpenFailed | NoOpenFile | WriteFailed

  datatype Step = Step(w: Writer, fs: Fs, log: seq<Event>, failure: Option<Failure>)

  /** The phase of the finalize/open/append protocol an event belongs to. */
  function Phase(e: Event): nat {
    match e
    case Closed(_) => 0
    case RemovedMarker(_) => 1
    case MadeDir(_) => 2
    case PutMarker(_) => 3
    case Opened(_, _) => 4
    case Appended(_, _) => 5
  }

  /** The phases of the events of `log` ascend strictly and lie in the
      range (`lo`, `hi`]: each phase occurs at most once, in protocol order
      (close, remove the marker, make the directory, put the marker, open,
      append). */
  predicate InOrder(log: seq<Event>, lo: int, hi: int)
    decreases |log|
  {
    |log| == 0 || (lo < Phase(log[0]) <= hi && InOrder(log[1..], Phase(log[0]), hi))
  }

  /** The pairwise reading of `InOrder`: every earlier event belongs to a
      strictly earlier phase. */
  lemma {:induction false} InOrderPairwise(log: seq<Event>, lo: int, hi: int)
    requires InOrder(log, lo, hi)
    ensures forall i :: 0 <= i < |log| ==> lo < Phase(log[i]) <= hi
    ensures forall i, j :: 0 <= i < j < |log| ==> Phase(log[i]) < Phase(log[j])
    decreases |log|
  {
    if |log| > 0 {
      InOrderPairwise(log[1..], Phase(log[0]), hi);
      assert forall i :: 1 <= i < |log| ==> log[i] == log[1..][i - 1];
    }
  }

  lemma {:induction false} InOrderWeaken(log: seq<Event>, lo: int, hi: int, lo': int, hi': int)
    requires InOrder(log, lo, hi) && lo' <= lo && hi <= hi'
    ensures InOrder(log, lo', hi')
    decreases |log|
  {
    if |log| > 0 {
      InOrderWeaken(log[1..], Phase(log[0]), hi, Phase(log[0]), hi');
    }
  }

  lemma {:induction false} InOrderConcat(a: seq<Event>, b: seq<Event>, lo: int, mid: int, hi: int)
    requires lo <= mid <= hi
    requires InOrder(a, lo, mid) && InOrder(b, mid, hi)
    ensures InOrder(a + b, lo, hi)
    decreases |a|
  {
    if |a| == 0 {
      assert a + b == b;
      InOrderWeaken(b, mid, hi, lo, hi);
    } else {
      assert (a + b)[1..] == a[1..] + b;
      InOrderConcat(a[1..], b, Phase(a[0]), mid, hi);
    }
  }

  lemma InOrderOne(e: Event, lo: int, hi: int)
    requires lo < Phase(e) <= hi
    ensures InOrder([e], lo, hi)
  {
    assert [e][1..] == [];
  }

  lemma InOrderTwo(e1: Event, e2: Event, lo: int, hi: int)
    requires lo < Phase(e1) < Phase(e2) <= hi
    ensures InOrder([e1, e2], lo, hi)
  {
    assert [e1, e2][1..] == [e2];
    InOrderOne(e2, Phase(e1), hi);
  }

  /** The bytes appended by the events of a log, in order. */
  function AppendedBytes(log: seq<Event>): seq<byte>
    decreases |log|
  {
    if |log| == 0 then []
    else (if log[0].Appended? then log[0].data else []) + AppendedBytes(log[1..])
  }

  /** The objects opened by the events of a log, with their numbers, in order. */
  function Openings(log: seq<Event>): seq<(Path, nat)>
    decreases |log|
  {
    if |log| == 0 then []
    else (if log[0].Opened? then [(log[0].path, log[0].n)] else []) + Openings(log[1..])
  }

  lemma {:induction false} ProjectionsConcat(a: seq<Event>, b: seq<Event>)
    ensures AppendedBytes(a + b) == AppendedBytes(a) + AppendedBytes(b)
    ensures Openings(a + b) == Openings(a) + Openings(b)
    decreases |a|
  {
    if |a| == 0 {
      assert a + b == b;
    } else {
      assert (a + b)[1..] == a[1..] + b;
      ProjectionsConcat(a[1..], b);
    }
  }

  /** Events before the open phase neither open nor append. */
  lemma {:induction false} NothingOpened(log: seq<Event>, lo: int, hi: int)
    requires InOrder(log, lo, hi) && hi <= 3
    ensures AppendedBytes(log) == [] && Openings(log) == []
    decreases |log|
  {
    if |log| > 0 {
      NothingOpened(log[1..], Phase(log[0]), hi);
    }
  }

  lemma ProjectionsOne(e: Event)
    ensures AppendedBytes([e]) == (if e.Appended? then e.data else [])
    ensures Openings([e]) == (if e.Opened? then [(e.path, e.n)] else [])
  {
    assert [e][1..] == [];
  }

  function Prefix(w: Writer): Path
    requires w.window.Some?
  {
    PrefixForWindow(w.cfg.baseDir, w.window.value)
  }

  /** The path of object number `n` of window `win`. */
  function ObjectPath(cfg: Config, win: Window, n: nat): Path {
    JoinPath(PrefixForWindow(cfg.baseDir, win), ObjectName(cfg.hostname, n))
  }

  /** The reachable states: an open file is the file named by `filePath`, it
      exists, and the bytes counted for it are in it; a named file belongs
      to a window and has a sequence number; a window exists only for a
      positive window size. (That the window is the bounds of the write
      that opened it and the name is the object path of the window and
      number are postconditions of the operations that set them.) */
  ghost predicate Inv(w: Writer, fs: Fs) {
    && (w.file.Some? ==>
          && w.filePath == w.file
          && w.file.value in fs.files
          && w.bytesWritten <= |fs.files[w.file.value]|)
    && (w.file.None? ==> w.bytesWritten == 0)
    && (w.filePath.Some? ==>
          && w.window.Some?
          && w.seqCounter >= 1)
    && (w.window.Some? ==>
          && w.cfg.windowMinutes >= 1)
  }

  /** The constructor: creates the base directory (`os.makedirs` with
      `exist_ok=True`, which raises on failure) and starts with no window,
      counter 0, no file and no bytes. */
  function Init(cfg: Config, fs: Fs, mkdirOk: bool): (r: Option<(Writer, Fs)>)
    ensures r.None? <==> !mkdirOk
    ensures r.Some? ==> Inv(r.value.0, r.value.1)
    ensures r.Some? ==> r.value.1.dirs == fs.dirs + {cfg.baseDir}
    ensures r.Some? ==> r.value.1.files == fs.files && r.value.1.markers == fs.markers
    ensures r.Some? ==> var w := r.value.0;
      w.cfg == cfg && w.window.None? && w.seqCounter == 0 && w.file.None? && w.filePath.None? && w.bytesWritten == 0
  {
    if !mkdirOk then None
    else Some((Writer(cfg, None, 0, None, None, 0), fs.(dirs := fs.dirs + {cfg.baseDir})))
  }

  /** `_should_rotate`. */
  predicate ShouldRotate(w: Writer, now: Instant) {
    || w.window.None?
    || now > w.window.value.end
    || w.bytesWritten >= w.cfg.maxObjectBytes
  }

  /** `_finalize_current`: with no open file nothing happens; otherwise the
      file is closed, then the marker of the current window is removed if
      it exists (a failed removal is only logged), and the file, path and
      byte count are cleared while the window bounds stay. */
  function Finalize(w: Writer, fs: Fs, removeOk: bool): (r: (Writer, Fs, seq<Event>))
    requires Inv(w, fs)
    ensures w.file.None? ==> r == (w, fs, [])
    ensures Inv(r.0, r.1)
    ensures r.0.file.None? && r.0.bytesWritten == 0
    ensures w.file.Some? ==> r.0.filePath.None?
    ensures r.0.cfg == w.cfg && r.0.window == w.window && r.0.seqCounter == w.seqCounter
    ensures r.1.files == fs.files && r.1.dirs == fs.dirs && r.1.markers <= fs.markers
    ensures w.file.Some? ==>
      && |r.2| >= 1 && r.2[0] == Closed(w.file.value)
      && ((w.cfg.useMarker && MarkerPath(Prefix(w)) in fs.markers && removeOk)
            <==> r.2 == [Closed(w.file.value), RemovedMarker(MarkerPath(Prefix(w)))])
      && r.1.markers == fs.markers - (if |r.2| == 2 then {MarkerPath(Prefix(w))} else {})
    ensures InOrder(r.2, -1, 1)
  {
    if w.file.None? then (w, fs, [])
    else Release(w, fs, MarkerPath(Prefix(w)), removeOk)
  }

  /** Closing the open file and removing `marker` if it exists. */
  function Release(w: Writer, fs: Fs, marker: Path, removeOk: bool): (r: (Writer, Fs, seq<Event>))
    requires Inv(w, fs) && w.file.Some?
    ensures r.0 == w.(file := None, filePath := None, bytesWritten := 0)
    ensures Inv(r.0, r.1)
    ensures r.1.files == fs.files && r.1.dirs == fs.dirs
    ensures |r.2| >= 1 && r.2[0] == Closed(w.file.value)
    ensures (w.cfg.useMarker && marker in fs.markers && removeOk) <==> r.2 == [Closed(w.file.value), RemovedMarker(marker)]
    ensures r.1.markers == fs.markers - (if |r.2| == 2 then {marker} else {})
    ensures InOrder(r.2, -1, 1)
  {
    var closed := w.(file := None, filePath := None, bytesWritten := 0);
    if w.cfg.useMarker && marker in fs.markers && removeOk then
      InOrderTwo(Closed(w.file.value), RemovedMarker(marker), -1, 1);
      (closed, fs.(markers := fs.markers - {marker}), [Closed(w.file.value), RemovedMarker(marker)])
    else
      InOrderOne(Closed(w.file.value), -1, 1);
      (closed, fs, [Closed(w.file.value)])
  }

  /** `close`. */
  function Close(w: Writer, fs: Fs, removeOk: bool): (r: (Writer, Fs, seq<Event>))
    requires Inv(w, fs)
    ensures Inv(r.0, r.1) && r.0.file.None? && r.0.bytesWritten == 0
    ensures r.0.cfg == w.cfg && r.1.files == fs.files
  {
    Finalize(w, fs, removeOk)
  }

  /** Closing twice is closing once: the second close finds no open file
      and has no effect. */
  lemma CloseIdempotent(w: Writer, fs: Fs, removeOk: bool, removeOk': bool)
    requires Inv(w, fs)
    ensures var c := Close(w, fs, removeOk);
            Close(c.0, c.1, removeOk') == (c.0, c.1, [])
  {
  }

  /** `_start_new_window`: computes the bounds for `now`, creates the
      partition directory, takes the next sequence number, records path and
      bounds, creates the marker (a failure there is only logged), and
      opens the object for appending. Any other failure propagates with the
      state changes made so far; a failed open leaves no open file. */
  method StartNewWindow(w: Writer, fs: Fs, now: Instant, io: Io) returns (r: Step)
    requires Inv(w, fs) && w.file.None?
    ensures Inv(r.w, r.fs)
    ensures r.w.cfg == w.cfg
    ensures r.fs.files.Keys >= fs.files.Keys
    ensures forall p :: p in fs.files ==> r.fs.files[p] == fs.files[p]
    ensures r.failure.None? ==>
      && r.w.file.Some? && r.w.bytesWritten == 0
      && r.fs.files[r.w.file.value] == (if r.w.file.value in fs.files then fs.files[r.w.file.value] else [])
    ensures r.failure.Some? && r.failure.value != OpenFailed ==> r.w == w && r.fs == fs && r.log == []
    ensures r.failure.None? || r.failure == Some(OpenFailed) ==>
      && w.cfg.windowMinutes >= 1
      && r.w.seqCounter == w.seqCounter + 1
      && r.w.window == Some(WindowBounds(now, w.cfg.windowMinutes))
      && r.w.filePath == Some(ObjectPath(w.cfg, WindowBounds(now, w.cfg.windowMinutes), w.seqCounter + 1))
    ensures r.failure.Some? ==> r.w.file.None?
    ensures r.failure == Some(ZeroWindow) <==> w.cfg.windowMinutes == 0
    ensures r.failure == Some(WindowOverflow) <==>
      w.cfg.windowMinutes >= 1
      && !Representable(FloorWindow(now, w.cfg.windowMinutes) + w.cfg.windowMinutes * MicrosPerMinute)
    // The directory comes first and the marker precedes the open; the
    // object is opened exactly when the operation succeeds.
    ensures InOrder(r.log, 1, 4)
    ensures AppendedBytes(r.log) == []
    ensures Openings(r.log) == if r.failure.None? then [(r.w.file.value, r.w.seqCounter)] else []
  {
    var wm := w.cfg.windowMinutes;
    if wm == 0 {
      return Step(w, fs, [], Some(ZeroWindow));
    }
    var win := WindowBounds(now, wm);
    if !Representable(win.start + wm * MicrosPerMinute) {
      return Step(w, fs, [], Some(WindowOverflow));
    }
    RepresentableBefore(win.end, win.start + wm * MicrosPerMinute);
    if !io.mkdirOk {
      return Step(w, fs, [], Some(MkdirFailed));
    }
    var prefix := PrefixForWindow(w.cfg.baseDir, win);
    r := EnterWindow(w, fs, win, prefix, ObjectPath(w.cfg, win, w.seqCounter + 1), MarkerPath(prefix), io);
  }

  /** The effects of entering a window: the directory, then the marker if
      it was put, then the open if it succeeded. */
  function OpenLog(prefix: Path, marker: Path, marked: bool, path: Path, n: nat, didOpen: bool): (log: seq<Event>)
    ensures InOrder(log, 1, 4)
    ensures AppendedBytes(log) == []
    ensures Openings(log) == if didOpen then [(path, n)] else []
    ensures |log| >= 1 && log[0] == MadeDir(prefix)
    ensures PutMarker(marker) in log <==> marked
  {
    var made := if marked then [MadeDir(prefix), PutMarker(marker)] else [MadeDir(prefix)];
    assert InOrder(made, 1, 3) by {
      if marked {
        InOrderTwo(MadeDir(prefix), PutMarker(marker), 1, 3);
      } else {
        InOrderOne(MadeDir(prefix), 1, 3);
      }
    }
    NothingOpened(made, 1, 3);
    if !didOpen then made
    else
      InOrderOne(Opened(path, n), 3, 4);
      InOrderConcat(made, [Opened(path, n)], 1, 3, 4);
      ProjectionsOne(Opened(path, n));
      ProjectionsConcat(made, [Opened(path, n)]);
      made + [Opened(path, n)]
  }

  /** The part of `_start_new_window` after the bounds are known and the
      partition directory `prefix` is created, for an object at `path` and
      a marker at `marker`. */
  method EnterWindow(w: Writer, fs: Fs, win: Window, prefix: Path, path: Path, marker: Path, io: Io)
    returns (r: Step)
    requires Inv(w, fs) && w.file.None? && w.cfg.windowMinutes >= 1
    ensures Inv(r.w, r.fs)
    ensures r.w == w.(seqCounter := w.seqCounter + 1, filePath := Some(path), window := Some(win),
                      file := r.w.file)
    ensures r.failure.None? || r.failure == Some(OpenFailed)
    ensures r.failure.None? <==> r.w.file == Some(path)
    ensures r.failure.Some? ==> r.w.file.None?
    ensures r.fs.files.Keys == fs.files.Keys + (if r.failure.None? then {path} else {})
    ensures forall p :: p in fs.files ==> r.fs.files[p] == fs.files[p]
    ensures r.failure.None? && path !in fs.files ==> r.fs.files[path] == []
    ensures r.fs.dirs == fs.dirs + {prefix}
    ensures r.fs.markers == fs.markers + (if w.cfg.useMarker && io.markerOk then {marker} else {})
    ensures InOrder(r.log, 1, 4)
    ensures AppendedBytes(r.log) == []
    ensures Openings(r.log) == if r.failure.None? then [(path, w.seqCounter + 1)] else []
  {
    var n := w.seqCounter + 1;
    var named := w.(seqCounter := n, filePath := Some(path), window := Some(win));
    var dirs := fs.dirs + {prefix};
    var marked := w.cfg.useMarker && io.markerOk;
    var markers := if marked then fs.markers + {marker} else fs.markers;
    var log := OpenLog(prefix, marker, marked, path, n, io.openOk);
    if !io.openOk {
      return Step(named, fs.(dirs := dirs, markers := markers), log, Some(OpenFailed));
    }
    var files := if path in fs.files then fs.files else fs.files[path := []];
    r := Step(named.(file := Some(path), bytesWritten := 0), Fs(files, markers, dirs), log, None);
  }

  /** The rotation phase of `write_line`: when `_should_rotate` holds,
      finalize the current object and open a new one. */
  method Prepare(w: Writer, fs: Fs, now: Instant, io: Io) returns (r: Step)
    requires Inv(w, fs)
    ensures Inv(r.w, r.fs)
    ensures r.w.cfg == w.cfg
    ensures !ShouldRotate(w, now) ==> r == Step(w, fs, [], None)
    ensures ShouldRotate(w, now) ==> r.w.bytesWritten == 0
    ensures ShouldRotate(w, now) && r.w.seqCounter != w.seqCounter ==>
      r.w.seqCounter == w.seqCounter + 1 && w.cfg.windowMinutes >= 1
      && r.w.window == Some(WindowBounds(now, w.cfg.windowMinutes))
    ensures r.w.seqCounter == w.seqCounter || r.w.seqCounter == w.seqCounter + 1
    ensures ShouldRotate(w, now) && r.failure.None? ==> r.w.file.Some?
    ensures r.fs.files.Keys >= fs.files.Keys
    ensures forall p :: p in fs.files ==> r.fs.files[p] == fs.files[p]
    ensures r.w.file.Some? ==>
      r.fs.files[r.w.file.value] == if r.w.file.value in fs.files then fs.files[r.w.file.value] else []
    ensures ShouldRotate(w, now) && r.failure.Some? ==> r.w.file.None?
    ensures ShouldRotate(w, now) && r.failure.None? ==> r.w.seqCounter == w.seqCounter + 1
    ensures InOrder(r.log, -1, 4)
    ensures ShouldRotate(w, now) && w.file.Some? ==> |r.log| >= 1 && r.log[0] == Closed(w.file.value)
    ensures AppendedBytes(r.log) == []
    ensures Openings(r.log) ==
      if ShouldRotate(w, now) && r.failure.None? then [(r.w.file.value, r.w.seqCounter)] else []
  {
    if !ShouldRotate(w, now) {
      return Step(w, fs, [], None);
    }
    var f := Finalize(w, fs, io.removeOk);
    var s := StartNewWindow(f.0, f.1, now, io);
    r := Step(s.w, s.fs, f.2 + s.log, s.failure);
    InOrderConcat(f.2, s.log, -1, 1, 4);
    NothingOpened(f.2, -1, 1);
    ProjectionsConcat(f.2, s.log);
  }

  /** The append phase of `write_line`: write the line's UTF-8 bytes
      through the open handle and count them. */
  function Append(s: Step, line: string, io: Io): (r: Step)
    requires Inv(s.w, s.fs) && s.failure.None?
    ensures Inv(r.w, r.fs)
    ensures r.w.cfg == s.w.cfg && r.w.window == s.w.window && r.w.seqCounter == s.w.seqCounter
    ensures r.w.file == s.w.file && r.w.filePath == s.w.filePath
    ensures s.w.file.None? ==> r == s.(failure := Some(NoOpenFile))
    ensures r.failure.None? <==> s.w.file.Some? && io.writeOk
    ensures r.failure.Some? ==> r.w == s.w && r.fs == s.fs && r.log == s.log
    ensures r.failure.None? ==>
      && r.w.bytesWritten == s.w.bytesWritten + |Encode(line)|
      && r.fs.files == s.fs.files[s.w.file.value := s.fs.files[s.w.file.value] + Encode(line)]
      && r.log == s.log + [Appended(s.w.file.value, Encode(line))]
    ensures forall p :: p in s.fs.files ==> p in r.fs.files && s.fs.files[p] <= r.fs.files[p]
  {
    if s.w.file.None? then s.(failure := Some(NoOpenFile))
    else if !io.writeOk then s.(failure := Some(WriteFailed))
    else
      var p := s.w.file.value;
      var data := Encode(line);
      Step(s.w.(bytesWritten := s.w.bytesWritten + |data|),
           s.fs.(files := s.fs.files[p := s.fs.files[p] + data]),
           s.log + [Appended(p, data)], None)
  }

  /** `write_line`: rotate if needed (finalize, then open a new object),
      then append the UTF-8 bytes of the line and count them. */
  method WriteLine(w: Writer, fs: Fs, now: Instant, line: string, io: Io) returns (r: Step)
    requires Inv(w, fs)
    ensures Inv(r.w, r.fs)
    ensures r.w.cfg == w.cfg
    // Without rotation the window, path, counter and handle stay.
    ensures !ShouldRotate(w, now) ==>
      r.w.window == w.window && r.w.filePath == w.filePath && r.w.seqCounter == w.seqCounter && r.w.file == w.file
    // A rotation that gets as far as naming the object takes the next number
    // and the window of `now`.
    ensures ShouldRotate(w, now) && r.w.seqCounter != w.seqCounter ==>
      r.w.seqCounter == w.seqCounter + 1 && w.cfg.windowMinutes >= 1
      && r.w.window == Some(WindowBounds(now, w.cfg.windowMinutes))
    ensures r.w.seqCounter == w.seqCounter || r.w.seqCounter == w.seqCounter + 1
    ensures ShouldRotate(w, now) && r.w.file.Some? ==> r.w.seqCounter == w.seqCounter + 1
    // Writing without rotation through a handle that is not open fails.
    ensures !ShouldRotate(w, now) && w.file.None? ==> r.failure == Some(NoOpenFile) && r.w == w && r.fs == fs
    // So after a failed open, writes keep failing until the window is over.
    ensures w.file.None? && w.window.Some? && now <= w.window.value.end && 0 < w.cfg.maxObjectBytes ==>
      r.failure == Some(NoOpenFile)
    // A successful write appends exactly the line's bytes and counts them.
    ensures r.failure.None? ==>
      && r.w.file.Some?
      && r.w.bytesWritten == (if ShouldRotate(w, now) then 0 else w.bytesWritten) + |Encode(line)|
      && r.fs.files[r.w.file.value] ==
           (if r.w.file.value in fs.files then fs.files[r.w.file.value] else []) + Encode(line)
      && |r.log| >= 1 && r.log[|r.log| - 1] == Appended(r.w.file.value, Encode(line))
    // The size check precedes the append: an object exceeds the limit by
    // at most its last line.
    ensures r.failure.None? ==>
      r.w.bytesWritten - |Encode(line)| == 0 || r.w.bytesWritten - |Encode(line)| < w.cfg.maxObjectBytes
    // Files are append-only.
    ensures forall p :: p in fs.files ==> p in r.fs.files && fs.files[p] <= r.fs.files[p]
    // The effects follow the protocol: finalize, open, append. Exactly the
    // line's bytes are appended on success and nothing on failure; an
    // object is opened exactly when a rotation gets as far as the open.
    ensures InOrder(r.log, -1, 5)
    ensures ShouldRotate(w, now) && w.file.Some? ==> |r.log| >= 1 && r.log[0] == Closed(w.file.value)
    ensures AppendedBytes(r.log) == if r.failure.None? then Encode(line) else []
    ensures Openings(r.log) ==
      if ShouldRotate(w, now) && r.w.file.Some? then [(r.w.file.value, r.w.seqCounter)] else []
  {
    var s := Prepare(w, fs, now, io);
    if s.failure.Some? {
      InOrderWeaken(s.log, -1, 4, -1, 5);
      return s;
    }
    r := Append(s, line, io);
    if r.failure.Some? {
      InOrderWeaken(s.log, -1, 4, -1, 5);
    } else {
      var e := Appended(s.w.file.value, Encode(line));
      InOrderOne(e, 4, 5);
      InOrderConcat(s.log, [e], -1, 4, 5);
      ProjectionsOne(e);
      ProjectionsConcat(s.log, [e]);
    }
  }

  // ---------------------------------------------------------------------
  // Consequences of the window arithmetic

  /** The end bound is inclusive and one second short of the next window,
      while `now` carries microseconds: a write in the last second of a
      window, after its first microsecond, rotates although its own bounds
      are that very window, so the writer opens another object in the same
      partition. (For a window size that divides the hour.) */
  lemma LastSecondRotation(w: Writer, t0: Instant, now: Instant)
    requires w.cfg.windowMinutes >= 1 && 60 % w.cfg.windowMinutes == 0
    requires w.window == Some(WindowBounds(t0, w.cfg.windowMinutes))
    requires w.window.value.end < now < w.window.value.end + MicrosPerSecond
    ensures ShouldRotate(w, now)
    ensures WindowBounds(now, w.cfg.windowMinutes) == w.window.value
  {
    LastSecondSameBounds(t0, now, w.cfg.windowMinutes);
  }

  /** With a window size that does not divide the hour, windows cross the
      hour and overlap: at 45 minutes, a first write at 00:50 gets the
      window 00:45 to 01:29:59, labelled hour 00, and the write that
      rotates at 01:30 gets the window 01:00 to 01:44:59, which starts
      before the first one ends. */
  lemma NonDivisorWindowsOverlap()
    ensures var a, b := WindowBounds(50 * MicrosPerMinute, 45), WindowBounds(90 * MicrosPerMinute, 45);
      && a == Window(45 * MicrosPerMinute, 90 * MicrosPerMinute - MicrosPerSecond)
      && b == Window(60 * MicrosPerMinute, 105 * MicrosPerMinute - MicrosPerSecond)
      && HourOf(a.start) == 0 && HourOf(a.end) == 1
      && 90 * MicrosPerMinute > a.end
      && a.start < b.start <= a.end
  {
  }
}

=== FILE: migration.dfy ===
/** The legacy-data migration script: parsing the object-store path it is
    given, the decision whether a legacy record becomes a new record (with the
    summarizer as an oracle), the per-file counters, and the batching of the
    file list. */
module Migration {
  import opened Common
  import Summarizer

  // ---------------------------------------------------------------------
  // Decoded JSON values and Python truthiness
  // ---------------------------------------------------------------------

  /** A JSON value as decoded from one legacy line (integral numbers only). */
  datatype Val =
    | VNull
    | VBool(b: bool)
    | VNum(n: int)
    | VStr(s: string)
    | VList(items: seq<Val>)
    | VObj(fields: map<string, Val>)

  /** One decoded legacy record. */
  type Dict = map<string, Val>

  /** Python's `bool(v)`. */
  predicate Truthy(v: Val) {
    match v
    case VNull => false
    case VBool(b) => b
    case VNum(n) => n != 0
    case VStr(s) => s != ""
    case VList(xs) => xs != []
    case VObj(m) => m != map[]
  }

  /** Python's `d.get(key, default)`. */
  function Get(d: Dict, key: string, default: Val): Val {
    if key in d then d[key] else default
  }

  // ---------------------------------------------------------------------
  // Object-store path parsing
  // ---------------------------------------------------------------------

  datatype Location = Location(bucket: string, prefix: string)

  /** The constructor either accepts the path or raises `ValueError`. */
  datatype Parsed = Parsed(loc: Location) | BadScheme

  const Scheme: string := "s3://"

  /** A key prefix as the parser leaves it: empty, or ending in exactly one `/`. */
  predicate NormalPrefix(p: string) {
    p == "" || (p[|p| - 1] == '/' && (|p| == 1 || p[|p| - 2] != '/'))
  }

  /** The bucket is the text after the scheme up to the first `/`; the prefix
      is the rest with its trailing `/`s replaced by one, or empty when there
      is no `/` at all. */
  function ParsePath(p: string): (r: Parsed)
    ensures r.BadScheme? <==> !StartsWith(p, Scheme)
    ensures r.Parsed? ==> '/' !in r.loc.bucket && NormalPrefix(r.loc.prefix)
  {
    if !StartsWith(p, Scheme) then BadScheme
    else
      var rest := p[|Scheme|..];
      match IndexOf(rest, '/')
      case None => Parsed(Location(rest, ""))
      case Some(i) =>
        var kept := RStripChar(rest[i + 1..], '/');
        assert kept == [] || kept[|kept| - 1] != '/';
        Parsed(Location(rest[..i], kept + "/"))
  }

  /** The path that names a location. */
  function Render(l: Location): string {
    if l.prefix == "" then Scheme + l.bucket else Scheme + l.bucket + "/" + l.prefix
  }

  /** Stripping a run of one trailing character from text that ends in
      exactly one of it. */
  lemma RStripOne(d: string, c: char)
    requires d == [] || d[|d| - 1] != c
    ensures RStripChar(d + [c], c) == d
  {
    assert (d + [c])[..|d|] == d;
  }

  /** The path of a bucket alone has an empty prefix; a path with a key after
      the bucket has that key with its trailing slashes normalised. */
  lemma ParsePathParts(b: string, key: string)
    requires '/' !in b
    ensures ParsePath(Scheme + b) == Parsed(Location(b, ""))
    ensures ParsePath(Scheme + b + "/" + key) == Parsed(Location(b, RStripChar(key, '/') + "/"))
  {
    assert (Scheme + b)[..|Scheme|] == Scheme;
    assert (Scheme + b)[|Scheme|..] == b;
    var p := Scheme + b + "/" + key;
    assert p == Scheme + (b + "/" + key);
    assert p[..|Scheme|] == Scheme;
    var rest := b + "/" + key;
    assert p[|Scheme|..] == rest;
    assert rest[|b|] == '/' && rest[..|b|] == b;
    assert IndexOf(rest, '/') == Some(|b|);
    assert rest[|b| + 1..] == key;
  }

  /** Parsing the rendering of a location gives the location back. */
  lemma ParseRender(l: Location)
    requires '/' !in l.bucket && NormalPrefix(l.prefix)
    ensures ParsePath(Render(l)) == Parsed(l)
  {
    ParsePathParts(l.bucket, l.prefix);
    if l.prefix != "" {
      var d := l.prefix[..|l.prefix| - 1];
      assert l.prefix == d + "/";
      RStripOne(d, '/');
    }
  }

  /** Re-parsing a parsed path's rendering changes nothing. */
  lemma ParsePathStable(p: string)
    requires ParsePath(p).Parsed?
    ensures ParsePath(Render(ParsePath(p).loc)) == ParsePath(p)
  {
    ParseRender(ParsePath(p).loc);
  }

  // ---------------------------------------------------------------------
  // Record validation and the transform gate
  // ---------------------------------------------------------------------

  /** How a check inside the transform ends; `Raise` is an exception, which
      the transform catches. */
  datatype Check = Pass | Fail | Raise

  /** The validation of a legacy record. A body that is truthy but not text
      makes its `.strip()` raise. */
  function Validate(d: Dict): (r: Check)
    ensures r == Pass <==>
      "news_id" in d && "ticker" in d && "body" in d && d["body"].VStr? && !IsBlank(d["body"].s)
    ensures r == Raise <==>
      "news_id" in d && "ticker" in d && "body" in d && Truthy(d["body"]) && !d["body"].VStr?
  {
    if "news_id" !in d || "ticker" !in d then Fail
    else
      var body := Get(d, "body", VStr(""));
      if !Truthy(body) then Fail
      else if !body.VStr? then Raise
      else if IsBlank(body.s) then Fail
      else Pass
  }

  /** Cleaning a teaser that is truthy but not text raises. */
  predicate TeaserRaises(d: Dict) {
    var t := Get(d, "teaser", VStr(""));
    Truthy(t) && !t.VStr?
  }

  /** The text that marks a record already migrated to the fallback reply. */
  const Apology: string := "I apologize, but I don't see any article"

  /** Python's `existing and APOLOGY in existing` on a record's `content`:
      `Fail` skips the record; `in` on a number or a boolean raises. */
  function ApologyCheck(v: Val): (r: Check)
    ensures r == Fail ==> Truthy(v)
    ensures v.VStr? ==> (r == Fail <==> Contains(v.s, Apology)) && r != Raise
  {
    if !Truthy(v) then Pass
    else
      match v
      case VStr(s) => if Contains(s, Apology) then Fail else Pass
      case VList(xs) => if VStr(Apology) in xs then Fail else Pass
      case VObj(m) => if Apology in m then Fail else Pass
      case _ => Raise
  }

  /** The record reaches the summarizer call. */
  predicate Gate(d: Dict) {
    Validate(d) == Pass && !TeaserRaises(d) && ApologyCheck(Get(d, "content", VStr(""))) == Pass
  }

  /** The record the migration writes: the legacy fields carried over, plus
      the action and the summary as content. */
  datatype NewRecord = NewRecord(
    timestamp: Val, ticker: Val, newsId: Val, action: string, title: Val,
    content: string, authors: Val, url: Val, channels: Val, createdAt: Val, updatedAt: Val)

  function Carry(d: Dict, summary: string): NewRecord {
    NewRecord(
      Get(d, "timestamp", VNull), Get(d, "ticker", VStr("")), Get(d, "news_id", VNull), "Created",
      Get(d, "title", VNull), summary, Get(d, "authors", VList([])), Get(d, "url", VNull),
      Get(d, "channels", VList([])), Get(d, "created_at", VNull), Get(d, "updated_at", VNull))
  }

  /** What the migration cannot compute: the summarizer's reply to the call
      for record `i` of file `key` (given ticker, title and HTML), and whether
      a record passes the output model's field validation. */
  datatype Oracle = Oracle(
    summarize: (string, nat, Val, Val, string) -> Summarizer.Reply,
    conforms: NewRecord -> bool)

  /** The outcome of transforming one record: the new record if any, whether
      the summarizer was called, and whether the API-call counter moved. */
  datatype Transform = Transform(record: Option<NewRecord>, called: bool, counted: bool)

  /** The summarizer's reply for a record that passed the gate. */
  function ReplyFor(d: Dict, key: string, i: nat, o: Oracle): Summarizer.Reply
    requires Validate(d) == Pass
  {
    o.summarize(key, i, Get(d, "ticker", VStr("")), Get(d, "title", VStr("")), d["body"].s)
  }

  function TransformRecord(d: Dict, key: string, i: nat, o: Oracle): Transform
  {
    if Validate(d) != Pass then Transform(None, false, false)
    else if TeaserRaises(d) then Transform(None, false, false)
    else if ApologyCheck(Get(d, "content", VStr(""))) != Pass then Transform(None, false, false)
    else
      match ReplyFor(d, key, i, o)
      case Raised => Transform(None, true, false)
      case Returned(s) =>
        if s.None? || s.value == "" then Transform(None, true, true)
        else if o.conforms(Carry(d, s.value)) then Transform(Some(Carry(d, s.value)), true, true)
        else Transform(None, true, true)
  }

  /** The summarizer is called exactly for records that pass the gate; the
      API-call counter moves exactly when that call returns; a record comes
      out exactly when the reply is a non-empty summary and the carried fields
      pass the output model's validation, and then it is that summary under
      the action `Created`, with the legacy id and ticker. */
  lemma TransformRecordSpec(d: Dict, key: string, i: nat, o: Oracle)
    ensures TransformRecord(d, key, i, o).called <==> Gate(d)
    ensures TransformRecord(d, key, i, o).counted <==> Gate(d) && ReplyFor(d, key, i, o).Returned?
    ensures TransformRecord(d, key, i, o).record.Some? <==>
      Gate(d) && ReplyFor(d, key, i, o).Returned? && ReplyFor(d, key, i, o).summary.Some?
      && ReplyFor(d, key, i, o).summary.value != ""
      && o.conforms(Carry(d, ReplyFor(d, key, i, o).summary.value))
    ensures TransformRecord(d, key, i, o).record.Some? ==>
      var n := TransformRecord(d, key, i, o).record.value;
      n.action == "Created" && n.content == ReplyFor(d, key, i, o).summary.value
      && n.newsId == d["news_id"] && n.ticker == d["ticker"]
  {
  }

  /** A record that fails validation, or already holds the fallback reply,
      is dropped before any summarizer call. */
  lemma SkipWithoutCall(d: Dict, key: string, i: nat, o: Oracle)
    requires Validate(d) != Pass || ("content" in d && d["content"].VStr? && Contains(d["content"].s, Apology))
    ensures TransformRecord(d, key, i, o) == Transform(None, false, false)
  {
  }

  // ---------------------------------------------------------------------
  // Word count of a summary
  // ---------------------------------------------------------------------

  /** Drops the rest of the word `s` starts in. */
  function SkipWord(s: string): (r: string)
    ensures |r| <= |s| && r == s[|s| - |r|..]
    ensures r == [] || IsSpace(r[0])
  {
    if s == [] || IsSpace(s[0]) then s else SkipWord(s[1..])
  }

  /** Python's `len(s.split())`: the number of maximal runs of non-space
      characters. */
  function WordCount(s: string): (n: nat)
    ensures n <= |s|
    ensures n == 0 <==> IsBlank(s)
    decreases |s|
  {
    if s == [] then 0
    else if IsSpace(s[0]) then
      var n := WordCount(s[1..]);
      assert IsBlank(s) <==> IsBlank(s[1..]) by {
        if IsBlank(s[1..]) {
          assert forall i :: 1 <= i < |s| ==> s[i] == s[1..][i - 1];
        }
      }
      n
    else 1 + WordCount(SkipWord(s[1..]))
  }

  /** A word: a non-empty run of non-space characters. */
  predicate IsWord(w: string) {
    |w| > 0 && forall i :: 0 <= i < |w| ==> !IsSpace(w[i])
  }

  lemma {:induction false} SkipWordAcross(w: string, t: string)
    requires forall i :: 0 <= i < |w| ==> !IsSpace(w[i])
    requires t == [] || IsSpace(t[0])
    ensures SkipWord(w + t) == t
    decreases |w|
  {
    if w == [] {
      assert w + t == t;
    } else {
      assert (w + t)[0] == w[0];
      assert (w + t)[1..] == w[1..] + t;
      SkipWordAcross(w[1..], t);
    }
  }

  /** A word followed by nothing or by whitespace counts once. */
  lemma WordCountWord(w: string, t: string)
    requires IsWord(w) && (t == [] || IsSpace(t[0]))
    ensures WordCount(w + t) == 1 + WordCount(t)
  {
    var s := w + t;
    assert s[0] == w[0] && !IsSpace(s[0]);
    assert s[1..] == w[1..] + t;
    SkipWordAcross(w[1..], t);
    assert SkipWord(s[1..]) == t;
  }

  /** Leading whitespace does not count. */
  lemma WordCountSpace(c: char, t: string)
    requires IsSpace(c)
    ensures WordCount([c] + t) == WordCount(t)
  {
    assert ([c] + t)[1..] == t;
  }

  /** `len(" ".join(words).split()) == len(words)` for words without
      whitespace. */
  lemma {:induction false} WordCountJoin(words: seq<string>)
    requires forall k :: 0 <= k < |words| ==> IsWord(words[k])
    ensures WordCount(JoinWith(" ", words)) == |words|
    decreases |words|
  {
    if |words| == 1 {
      assert words[0] + [] == words[0];
      WordCountWord(words[0], []);
    } else if |words| > 1 {
      var rest := JoinWith(" ", words[1..]);
      assert JoinWith(" ", words) == words[0] + ([' '] + rest);
      WordCountWord(words[0], [' '] + rest);
      WordCountSpace(' ', rest);
      WordCountJoin(words[1..]);
    }
  }

  /** A summary of at most this many words counts as a fallback. */
  const ShortSummaryWords: nat := 100

  /** How many of the records have a summary of at most
      `ShortSummaryWords` words. */
  function ShortCount(recs: seq<NewRecord>): (n: nat)
    ensures n <= |recs|
  {
    if recs == [] then 0
    else (if WordCount(recs[0].content) <= ShortSummaryWords then 1 else 0) + ShortCount(recs[1..])
  }

  lemma ShortCountCons(r: NewRecord, rs: seq<NewRecord>)
    ensures ShortCount([r] + rs)
         == (if WordCount(r.content) <= ShortSummaryWords then 1 else 0) + ShortCount(rs)
  {
    assert ([r] + rs)[1..] == rs;
  }

  // ---------------------------------------------------------------------
  // Per-file counters
  // ---------------------------------------------------------------------

  /** The records of one file after the transform, with the counters they
      move. */
  datatype Tally = Tally(
    out: seq<NewRecord>, transformed: nat, failed: nat,
    aiSummaries: nat, htmlFallbacks: nat, apiCalls: nat)

  /** Adds one record's transform in front of the tally of the records after it. */
  function Count(x: Transform, t: Tally): Tally {
    var calls := t.apiCalls + (if x.counted then 1 else 0);
    match x.record
    case None => t.(failed := t.failed + 1, apiCalls := calls)
    case Some(rec) =>
      if WordCount(rec.content) <= ShortSummaryWords then
        Tally([rec] + t.out, t.transformed + 1, t.failed, t.aiSummaries, t.htmlFallbacks + 1, calls)
      else
        Tally([rec] + t.out, t.transformed + 1, t.failed, t.aiSummaries + 1, t.htmlFallbacks, calls)
  }

  /** The tally of a run of transforms. */
  function Tallies(xs: seq<Transform>): (t: Tally)
    ensures t.transformed + t.failed == |xs|
    ensures |t.out| == t.transformed == t.aiSummaries + t.htmlFallbacks
    ensures t.htmlFallbacks == ShortCount(t.out)
    ensures t.aiSummaries == |t.out| - ShortCount(t.out)
    ensures t.apiCalls <= |xs|
  {
    if xs == [] then Tally([], 0, 0, 0, 0, 0)
    else
      var t := Tallies(xs[1..]);
      if xs[0].record.Some? then ShortCountCons(xs[0].record.value, t.out); Count(xs[0], t)
      else Count(xs[0], t)
  }

  /** Two tallies of consecutive runs of records, combined. */
  function AddTally(a: Tally, b: Tally): Tally {
    Tally(a.out + b.out, a.transformed + b.transformed, a.failed + b.failed,
          a.aiSummaries + b.aiSummaries, a.htmlFallbacks + b.htmlFallbacks, a.apiCalls + b.apiCalls)
  }

  lemma CountAdd(x: Transform, t: Tally, u: Tally)
    ensures Count(x, AddTally(t, u)) == AddTally(Count(x, t), u)
  {
    match x.record
    case None =>
    case Some(rec) =>
      assert [rec] + (t.out + u.out) == ([rec] + t.out) + u.out;
  }

  /** Tallying is additive over consecutive runs. */
  lemma {:induction false} TalliesAppend(xs: seq<Transform>, ys: seq<Transform>)
    ensures Tallies(xs + ys) == AddTally(Tallies(xs), Tallies(ys))
  {
    if xs == [] {
      assert xs + ys == ys;
    } else {
      assert (xs + ys)[0] == xs[0];
      assert (xs + ys)[1..] == xs[1..] + ys;
      TalliesAppend(xs[1..], ys);
      CountAdd(xs[0], Tallies(xs[1..]), Tallies(ys));
    }
  }

  /** The transforms of the records of file `key`, the first of them being
      record number `from`, in order. */
  function Transforms(recs: seq<Dict>, key: string, from: nat, o: Oracle): (xs: seq<Transform>)
    ensures |xs| == |recs|
    ensures forall k :: 0 <= k < |recs| ==> xs[k] == TransformRecord(recs[k], key, from + k, o)
    decreases |recs|
  {
    if recs == [] then [] else [TransformRecord(recs[0], key, from, o)] + Transforms(recs[1..], key, from + 1, o)
  }

  /** The loop over one file's records. */
  function TransformAll(recs: seq<Dict>, key: string, from: nat, o: Oracle): Tally {
    Tallies(Transforms(recs, key, from, o))
  }

  /** Transforming a file is transforming its parts in order: the output
      keeps the input order and the counters add up. */
  lemma TransformAllAppend(a: seq<Dict>, b: seq<Dict>, key: string, from: nat, o: Oracle)
    ensures TransformAll(a + b, key, from, o)
         == AddTally(TransformAll(a, key, from, o), TransformAll(b, key, from + |a|, o))
  {
    var xs := Transforms(a, key, from, o);
    var ys := Transforms(b, key, from + |a|, o);
    assert Transforms(a + b, key, from, o) == xs + ys by {
      var zs := Transforms(a + b, key, from, o);
      forall k | 0 <= k < |a + b|
        ensures zs[k] == (xs + ys)[k]
      {
        if k < |a| {
          assert (a + b)[k] == a[k];
        } else {
          assert (a + b)[k] == b[k - |a|];
        }
      }
    }
    TalliesAppend(xs, ys);
  }

  /** A single record yields its own transform and nothing else. */
  lemma TransformAllOne(d: Dict, key: string, i: nat, o: Oracle)
    ensures TransformAll([d], key, i, o).out
         == (if TransformRecord(d, key, i, o).record.Some? then [TransformRecord(d, key, i, o).record.value] else [])
    ensures TransformAll([d], key, i, o).apiCalls == (if TransformRecord(d, key, i, o).counted then 1 else 0)
  {
    assert [d][1..] == [];
  }

  /** The migration's counters; `errors` holds the keys of the files whose
      write failed or whose record loop stopped at a line that is not an
      object. */
  datatype Stats = Stats(
    files: nat, processed: nat, transformed: nat, skipped: nat, failed: nat,
    aiSummaries: nat, htmlFallbacks: nat, apiCalls: nat, batches: nat, errors: seq<string>)

  const Fresh: Stats := Stats(0, 0, 0, 0, 0, 0, 0, 0, 0, [])

  /** The relations between the counters that every run keeps. A file that
      stops at a line that is not an object has counted that line as
      processed, but neither as transformed nor as failed, and has logged an
      error; so the processed records exceed the transformed and failed ones
      by at most the number of errors. */
  predicate Balanced(s: Stats) {
    && s.transformed + s.failed <= s.processed <= s.transformed + s.failed + |s.errors|
    && s.aiSummaries + s.htmlFallbacks == s.transformed
    && s.apiCalls <= s.processed
    && s.skipped == 0
    && |s.errors| <= s.files
  }

  /** Every processed record was counted as transformed or as failed. */
  predicate Accounted(s: Stats) {
    s.transformed + s.failed == s.processed
  }

  /** A write of the transformed records over the original file that took
      place. */
  datatype Put = Put(key: string, records: seq<NewRecord>)

  /** The file store as the migration sees it: the decoded lines of a file,
      each any JSON value (none when reading fails), and whether a write of
      it succeeds. */
  datatype Store = Store(read: string -> seq<Val>, writeOk: string -> bool)

  datatype Progress = Progress(stats: Stats, puts: seq<Put>)

  /** Some line of the file decodes to a value that is not an object. The
      transform then raises from its own error handler (a `.get` on a value
      that has none) and the exception leaves the record loop. */
  predicate Escapes(lines: seq<Val>) {
    exists i :: 0 <= i < |lines| && !lines[i].VObj?
  }

  /** How many lines in front decode to objects. */
  function ObjectRun(lines: seq<Val>): (n: nat)
    ensures n <= |lines|
    ensures forall i :: 0 <= i < n ==> lines[i].VObj?
    ensures n < |lines| ==> !lines[n].VObj?
    decreases |lines|
  {
    if lines == [] || !lines[0].VObj? then 0
    else
      var n := ObjectRun(lines[1..]);
      assert forall i :: 1 <= i < n + 1 ==> lines[i] == lines[1..][i - 1];
      1 + n
  }

  /** The records of lines that all decode to objects. */
  function Fields(lines: seq<Val>): (ds: seq<Dict>)
    requires forall i :: 0 <= i < |lines| ==> lines[i].VObj?
    ensures |ds| == |lines|
  {
    seq(|lines|, k requires 0 <= k < |lines| => lines[k].fields)
  }

  /** The records the loop transforms before it stops or runs out. */
  function Reached(lines: seq<Val>): seq<Dict> {
    Fields(lines[..ObjectRun(lines)])
  }

  /** Migrates one file: count it, transform its records, and write the
      result over the original when anything was read. A line that is not
      an object stops the file: it is counted as processed, the records
      before it keep their counts, nothing is written and an error is
      logged. A failed write is logged as an error too. */
  function MigrateFile(p: Progress, key: string, st: Store, o: Oracle): (r: Progress)
    ensures r.stats.files == p.stats.files + 1
    ensures r.stats.batches == p.stats.batches
    ensures Balanced(p.stats) ==> Balanced(r.stats)
    ensures st.read(key) == [] ==> r == Progress(p.stats.(files := p.stats.files + 1), p.puts)
    ensures st.read(key) != [] && !Escapes(st.read(key)) ==>
      && r.stats.processed == p.stats.processed + |st.read(key)|
      && r.stats.transformed == p.stats.transformed + |TransformAll(Fields(st.read(key)), key, 0, o).out|
      && Accounted(p.stats) == Accounted(r.stats)
      && r.puts == p.puts + (if st.writeOk(key) then [Put(key, TransformAll(Fields(st.read(key)), key, 0, o).out)] else [])
    ensures Escapes(st.read(key)) ==>
      && r.stats.processed == p.stats.processed + |Reached(st.read(key))| + 1
      && r.stats.transformed == p.stats.transformed + |TransformAll(Reached(st.read(key)), key, 0, o).out|
      && r.stats.processed - r.stats.transformed - r.stats.failed
         == p.stats.processed - p.stats.transformed - p.stats.failed + 1
      && r.puts == p.puts
    ensures r.stats.errors == p.stats.errors +
      (if st.read(key) != [] && (Escapes(st.read(key)) || !st.writeOk(key)) then [key] else [])
    ensures st.read(key) != [] ==>
      var out := TransformAll(Reached(st.read(key)), key, 0, o).out;
      && r.stats.htmlFallbacks == p.stats.htmlFallbacks + ShortCount(out)
      && r.stats.aiSummaries == p.stats.aiSummaries + |out| - ShortCount(out)
  {
    var s := p.stats.(files := p.stats.files + 1);
    var lines := st.read(key);
    if lines == [] then Progress(s, p.puts)
    else
      var n := ObjectRun(lines);
      var stops := n < |lines|;
      assert !stops ==> lines[..n] == lines;
      var t := TransformAll(Reached(lines), key, 0, o);
      var s2 := s.(processed := s.processed + n + (if stops then 1 else 0),
                   transformed := s.transformed + t.transformed,
                   failed := s.failed + t.failed,
                   aiSummaries := s.aiSummaries + t.aiSummaries,
                   htmlFallbacks := s.htmlFallbacks + t.htmlFallbacks,
                   apiCalls := s.apiCalls + t.apiCalls,
                   errors := s.errors + (if !stops && st.writeOk(key) then [] else [key]));
      Progress(s2, p.puts + (if !stops && st.writeOk(key) then [Put(key, t.out)] else []))
  }

  /** Migrates files one after another. */
  function MigrateEach(files: seq<string>, p: Progress, st: Store, o: Oracle): (r: Progress)
    ensures r.stats.files == p.stats.files + |files|
    ensures r.stats.batches == p.stats.batches
    ensures Balanced(p.stats) ==> Balanced(r.stats)
    ensures |r.puts| <= |p.puts| + |files|
    decreases |files|
  {
    if files == [] then p else MigrateEach(files[1..], MigrateFile(p, files[0], st, o), st, o)
  }

  /** When no file has a line that is not an object, every processed record
      stays counted as transformed or failed. */
  lemma {:induction false} MigrateEachAccounted(files: seq<string>, p: Progress, st: Store, o: Oracle)
    requires forall k :: 0 <= k < |files| ==> !Escapes(st.read(files[k]))
    requires Accounted(p.stats)
    ensures Accounted(MigrateEach(files, p, st, o).stats)
    decreases |files|
  {
    if files != [] {
      MigrateEachAccounted(files[1..], MigrateFile(p, files[0], st, o), st, o);
    }
  }

  lemma {:induction false} MigrateEachAppend(a: seq<string>, b: seq<string>, p: Progress, st: Store, o: Oracle)
    ensures MigrateEach(a + b, p, st, o) == MigrateEach(b, MigrateEach(a, p, st, o), st, o)
    decreases |a|
  {
    if a == [] {
      assert a + b == b;
    } else {
      assert (a + b)[0] == a[0];
      assert (a + b)[1..] == a[1..] + b;
      MigrateEachAppend(a[1..], b, MigrateFile(p, a[0], st, o), st, o);
    }
  }

  // ---------------------------------------------------------------------
  // The per-file loop against the record type of app/models.py

  /** A run of transforms that gives no record has no record to tally. */
  lemma {:induction false} TalliesNone(xs: seq<Transform>)
    requires forall k :: 0 <= k < |xs| ==> xs[k].record.None?
    ensures Tallies(xs).out == [] && Tallies(xs).failed == |xs|
    decreases |xs|
  {
    if xs != [] {
      TalliesNone(xs[1..]);
    }
  }

  /** The line is an object whose transform gives no record. */
  predicate Kept(v: Val, key: string, i: nat, o: Oracle) {
    v.VObj? && TransformRecord(v.fields, key, i, o).record.None?
  }

  /** How many lines in front the loop gets through when the transformed
      record has no `content`: lines that decode to objects whose transform
      gives no record. It stops at a line that is not an object, and at the
      first record that transforms. */
  function Dropped(lines: seq<Val>, key: string, from: nat, o: Oracle): (n: nat)
    ensures n <= |lines|
    ensures forall i :: 0 <= i < n ==> Kept(lines[i], key, from + i, o)
    ensures n < |lines| ==> !Kept(lines[n], key, from + n, o)
    decreases |lines|
  {
    if lines == [] || !Kept(lines[0], key, from, o) then 0
    else
      var n := Dropped(lines[1..], key, from + 1, o);
      DroppedShift(lines, key, from, o, n);
      1 + n
  }

  lemma DroppedShift(lines: seq<Val>, key: string, from: nat, o: Oracle, n: nat)
    requires n < |lines|
    requires forall i :: 0 <= i < n ==> Kept(lines[1..][i], key, from + 1 + i, o)
    ensures forall i :: 1 <= i < n + 1 ==> Kept(lines[i], key, from + i, o)
  {
    forall i | 1 <= i < n + 1
      ensures Kept(lines[i], key, from + i, o)
    {
      assert lines[i] == lines[1..][i - 1];
    }
  }

  /** `_migrate_file` as written against the `OutputRecord` of
      app/models.py. That model declares neither `action` nor `content`, so
      the record built at migrate_legacy_data.py:169-181 has no `content`,
      and the word count at migrate_legacy_data.py:447 raises on the first
      record that transforms, after it was counted as processed and as
      transformed. The file then ends as one with a line that is not an
      object: an error is logged and nothing is written. Only a file whose
      every record is dropped is written, and then empty. */
  function MigrateFileAsWritten(p: Progress, key: string, st: Store, o: Oracle): (r: Progress)
    ensures r.stats.files == p.stats.files + 1
    ensures r.stats.transformed <= p.stats.transformed + 1
    ensures r.stats.aiSummaries == p.stats.aiSummaries && r.stats.htmlFallbacks == p.stats.htmlFallbacks
    ensures r.puts == p.puts || r.puts == p.puts + [Put(key, [])]
    ensures st.read(key) == [] ==> r == Progress(p.stats.(files := p.stats.files + 1), p.puts)
  {
    var s := p.stats.(files := p.stats.files + 1);
    var lines := st.read(key);
    if lines == [] then Progress(s, p.puts)
    else
      var n := Dropped(lines, key, 0, o);
      var stops := n < |lines|;
      var hit := stops && lines[n].VObj?;
      var xs := Transforms(Fields(lines[..n]), key, 0, o);
      TalliesNone(xs);
      var t := Tallies(xs);
      var s2 := s.(processed := s.processed + n + (if stops then 1 else 0),
                   transformed := s.transformed + (if hit then 1 else 0),
                   failed := s.failed + t.failed,
                   apiCalls := s.apiCalls + t.apiCalls + (if hit then 1 else 0),
                   errors := s.errors + (if !stops && st.writeOk(key) then [] else [key]));
      Progress(s2, p.puts + (if !stops && st.writeOk(key) then [Put(key, [])] else []))
  }

  /** Where the two differ: a file of objects with a record to write, whose
      write succeeds, is written with its records by `MigrateFile`. As
      written, it is written with nothing, its key is logged as an error, and
      the transformed count moves without either summary counter, so the
      counters no longer balance. */
  lemma AsWrittenLosesRecords(p: Progress, key: string, st: Store, o: Oracle)
    requires st.read(key) != [] && !Escapes(st.read(key)) && st.writeOk(key)
    requires TransformAll(Fields(st.read(key)), key, 0, o).out != []
    ensures MigrateFile(p, key, st, o).puts
         == p.puts + [Put(key, TransformAll(Fields(st.read(key)), key, 0, o).out)]
    ensures MigrateFile(p, key, st, o).stats.errors == p.stats.errors
    ensures MigrateFileAsWritten(p, key, st, o).puts == p.puts
    ensures MigrateFileAsWritten(p, key, st, o).stats.errors == p.stats.errors + [key]
    ensures Balanced(p.stats) ==> !Balanced(MigrateFileAsWritten(p, key, st, o).stats)
  {
    var lines := st.read(key);
    var n := Dropped(lines, key, 0, o);
    if n == |lines| {
      var xs := Transforms(Fields(lines), key, 0, o);
      assert lines[..n] == lines;
      TalliesNone(xs);
      assert false;
    }
  }

  // ---------------------------------------------------------------------
  // Batches
  // ---------------------------------------------------------------------

  /** One batch of files, and whether the migration waits after it. */
  datatype Batch = Batch(files: seq<string>, waitAfter: bool)

  function Min(a: int, b: int): int {
    if a <= b then a else b
  }

  /** The batches the loop forms from offset `from` on: `files[i:i + size]`
      for `i = from, from + size, …` below `|files|`, with a wait after each
      batch whose successor starts below `|files|`. */
  function Plan(files: seq<string>, size: nat, from: nat): (r: seq<Batch>)
    requires size > 0
    ensures from < |files| ==> |r| >= 1
    ensures forall k :: 0 <= k < |r| ==> 0 < |r[k].files| <= size
    ensures forall k :: 0 <= k < |r| ==> (r[k].waitAfter <==> k < |r| - 1)
    ensures forall k :: 0 <= k < |r| - 1 ==> |r[k].files| == size
    decreases |files| - from
  {
    if from >= |files| then []
    else
      var rest := Plan(files, size, from + size);
      [Batch(files[from..Min(from + size, |files|)], from + size < |files|)] + rest
  }

  /** The files of a run of batches, in order. */
  function Flatten(bs: seq<Batch>): seq<string> {
    if bs == [] then [] else bs[0].files + Flatten(bs[1..])
  }

  /** The batches cover the files after the offset exactly once, in order. */
  lemma {:induction false} PlanCovers(files: seq<string>, size: nat, from: nat)
    requires size > 0 && from <= |files|
    ensures Flatten(Plan(files, size, from)) == files[from..]
    decreases |files| - from
  {
    if from < |files| {
      var r := Plan(files, size, from);
      assert r[1..] == Plan(files, size, from + size);
      var m := Min(from + size, |files|);
      if from + size < |files| {
        PlanCovers(files, size, from + size);
        assert files[from..m] + files[m..] == files[from..];
      } else {
        assert Plan(files, size, from + size) == [];
        assert files[from..m] == files[from..];
      }
    }
  }

  /** There are `ceil((|files| - from) / size)` batches: the fewest whose
      total capacity holds the files. */
  lemma {:induction false} PlanCount(files: seq<string>, size: nat, from: nat)
    requires size > 0 && from <= |files|
    ensures from == |files| ==> |Plan(files, size, from)| == 0
    ensures from < |files| ==>
      (|Plan(files, size, from)| - 1) * size < |files| - from <= |Plan(files, size, from)| * size
    decreases |files| - from
  {
    if from + size < |files| {
      PlanCount(files, size, from + size);
      var k := |Plan(files, size, from + size)|;
      assert |Plan(files, size, from)| == k + 1;
      assert (k + 1) * size == k * size + size;
    }
  }

  /** The batch count in the loop's own terms, `(n + size - 1) // size`. */
  lemma CeilDiv(n: nat, size: nat, k: nat)
    requires size > 0 && n > 0 && (k - 1) * size < n <= k * size
    ensures k == (n + size - 1) / size
  {
    var m := n + size - 1;
    var q := m / size;
    assert q * size <= m < q * size + size;
    assert k * size <= m < k * size + size;
    if q < k {
      assert (q + 1) * size <= k * size by {
        MulMono(q + 1, k, size);
      }
    } else if q > k {
      assert (k + 1) * size <= q * size by {
        MulMono(k + 1, q, size);
      }
    }
  }

  lemma MulMono(a: nat, b: nat, c: nat)
    requires a <= b
    ensures a * c <= b * c
  {
  }

  /** The result of the whole migration: the loop either finishes, or `range`
      rejects a zero batch size and the error is recorded and re-raised. */
  datatype Migration = Finished(run: Progress) | Aborted

  /** Runs the batches in order, counting each. */
  function RunBatches(bs: seq<Batch>, p: Progress, st: Store, o: Oracle): (r: Progress)
    ensures r.stats.batches == p.stats.batches + |bs|
    ensures Balanced(p.stats) ==> Balanced(r.stats)
    decreases |bs|
  {
    if bs == [] then p
    else
      var counted := p.(stats := p.stats.(batches := p.stats.batches + 1));
      RunBatches(bs[1..], MigrateEach(bs[0].files, counted, st, o), st, o)
  }

  /** The migration of a listed, sorted set of keys with a given batch size. */
  function Migrate(files: seq<string>, size: int, st: Store, o: Oracle): (r: Migration)
    ensures r.Aborted? <==> files != [] && size == 0
    ensures r.Finished? ==> Balanced(r.run.stats)
  {
    if files == [] then Finished(Progress(Fresh, []))
    else if size == 0 then Aborted
    else if size < 0 then Finished(Progress(Fresh, []))
    else Finished(RunBatches(Plan(files, size, 0), Progress(Fresh, []), st, o))
  }

  /** Counting a batch commutes with migrating files. */
  lemma {:induction false} MigrateEachBatchCount(files: seq<string>, p: Progress, n: nat, st: Store, o: Oracle)
    ensures MigrateEach(files, p.(stats := p.stats.(batches := n)), st, o)
         == var q := MigrateEach(files, p, st, o); q.(stats := q.stats.(batches := n))
    decreases |files|
  {
    if files != [] {
      var p' := p.(stats := p.stats.(batches := n));
      assert MigrateFile(p', files[0], st, o)
          == var q := MigrateFile(p, files[0], st, o); q.(stats := q.stats.(batches := n));
      MigrateEachBatchCount(files[1..], MigrateFile(p, files[0], st, o), n, st, o);
    }
  }

  /** Running batches is migrating their files one after another, with the
      batch counter raised by the number of batches. */
  lemma {:induction false} RunBatchesSequential(bs: seq<Batch>, p: Progress, st: Store, o: Oracle)
    ensures RunBatches(bs, p, st, o)
         == var q := MigrateEach(Flatten(bs), p, st, o);
            q.(stats := q.stats.(batches := p.stats.batches + |bs|))
    decreases |bs|
  {
    if bs != [] {
      var n := p.stats.batches + 1;
      var counted := p.(stats := p.stats.(batches := n));
      MigrateEachBatchCount(bs[0].files, p, n, st, o);
      RunBatchesSequential(bs[1..], MigrateEach(bs[0].files, counted, st, o), st, o);
      MigrateEachAppend(bs[0].files, Flatten(bs[1..]), p, st, o);
      var q0 := MigrateEach(bs[0].files, p, st, o);
      MigrateEachBatchCount(Flatten(bs[1..]), q0, n, st, o);
    }
  }

  /** Batching changes nothing but the batch counter: every listed file is
      migrated once, in list order. */
  lemma MigrateInOrder(files: seq<string>, size: int, st: Store, o: Oracle)
    requires files != [] && size > 0
    ensures Migrate(files, size, st, o).Finished?
    ensures var q := MigrateEach(files, Progress(Fresh, []), st, o);
            Migrate(files, size, st, o).run == q.(stats := q.stats.(batches := |Plan(files, size, 0)|))
  {
    PlanCovers(files, size, 0);
    assert files[0..] == files;
    RunBatchesSequential(Plan(files, size, 0), Progress(Fresh, []), st, o);
  }

  /** When no listed file has a line that is not an object, a finished
      migration has counted every processed record as transformed or
      failed. */
  lemma MigrateAccounted(files: seq<string>, size: int, st: Store, o: Oracle)
    requires forall k :: 0 <= k < |files| ==> !Escapes(st.read(files[k]))
    ensures Migrate(files, size, st, o).Finished? ==> Accounted(Migrate(files, size, st, o).run.stats)
  {
    if files != [] && size > 0 {
      MigrateInOrder(files, size, st, o);
      MigrateEachAccounted(files, Progress(Fresh, []), st, o);
    }
  }

  /** The loop forms `(n + size - 1) // size` batches of a non-empty list. */
  lemma BatchCount(files: seq<string>, size: int)
    requires files != [] && size > 0
    ensures |Plan(files, size, 0)| == (|files| + size - 1) / size
  {
    PlanCount(files, size, 0);
    CeilDiv(|files|, size, |Plan(files, size, 0)|);
  }
}

=== FILE: models.dfy ===
/** The message shapes the stream delivers and the flat record the service
    stores, with the extraction that turns one into at most one of the
    other. Date-times are carried as opaque integers (microseconds since
    the epoch): extraction only copies them. */
module Models {
  import opened Common

  type DateTime = int

  datatype Security = Security(symbol: Option<string>, exchange: Option<string>, primary: Option<bool>)

  datatype Content = Content(
    id: Option<int>,
    revisionId: Option<int>,
    kind: Option<string>,
    title: Option<string>,
    body: Option<string>,
    authors: seq<string>,
    teaser: Option<string>,
    url: Option<string>,
    channels: seq<string>,
    securities: seq<Security>,
    createdAt: Option<DateTime>,
    updatedAt: Option<DateTime>)

  datatype DataMessage = DataMessage(action: Option<string>, id: int, timestamp: DateTime, content: Content)

  datatype StreamMessage = StreamMessage(apiVersion: Option<string>, kind: Option<string>, data: DataMessage)

  datatype OutputRecord = OutputRecord(
    timestamp: DateTime,
    ticker: string,
    newsId: int,
    title: Option<string>,
    body: Option<string>,
    authors: seq<string>,
    url: Option<string>,
    teaser: Option<string>,
    channels: seq<string>,
    createdAt: Option<DateTime>,
    updatedAt: Option<DateTime>)

  /** Python truthiness of an optional symbol: present and non-empty.
      A symbol of spaces is truthy. */
  predicate HasSymbol(s: Security) {
    s.symbol.Some? && s.symbol.value != ""
  }

  /** The position of the first security with a truthy symbol, the one
      `next(...)` over the list stops at. */
  function FirstSymbolAt(secs: seq<Security>): (r: Option<nat>)
    ensures r.None? <==> forall i :: 0 <= i < |secs| ==> !HasSymbol(secs[i])
    ensures r.Some? ==> r.value < |secs| && HasSymbol(secs[r.value])
    ensures r.Some? ==> forall j :: 0 <= j < r.value ==> !HasSymbol(secs[j])
    decreases |secs|
  {
    if |secs| == 0 then None
    else if HasSymbol(secs[0]) then Some(0)
    else match FirstSymbolAt(secs[1..])
      case None => None
      case Some(i) => Some(i + 1)
  }

  /** The record for one stream message, or none when no security carries
      a usable symbol (an empty list included). */
  function TryExtractOutput(msg: StreamMessage): (r: Option<OutputRecord>)
    ensures r.None? <==> forall i :: 0 <= i < |msg.data.content.securities| ==> !HasSymbol(msg.data.content.securities[i])
    ensures |msg.data.content.securities| == 0 ==> r.None?
    ensures r.Some? ==> exists i :: FirstSymbolAt(msg.data.content.securities) == Some(i)
                                    && r.value.ticker == msg.data.content.securities[i].symbol.value
    ensures r.Some? ==> r.value.ticker != ""
    ensures r.Some? ==> Copied(msg, r.value)
  {
    var content := msg.data.content;
    if |content.securities| == 0 then None
    else match FirstSymbolAt(content.securities)
      case None => None
      case Some(i) =>
        var c := content;
        Some(OutputRecord(msg.data.timestamp, c.securities[i].symbol.value, msg.data.id, c.title, c.body,
                          c.authors, c.url, c.teaser, c.channels, c.createdAt, c.updatedAt))
  }

  /** Every field of the record other than the ticker is the message's own. */
  predicate Copied(msg: StreamMessage, rec: OutputRecord) {
    var c := msg.data.content;
    && rec.timestamp == msg.data.timestamp
    && rec.newsId == msg.data.id
    && rec.title == c.title && rec.body == c.body && rec.authors == c.authors
    && rec.url == c.url && rec.teaser == c.teaser && rec.channels == c.channels
    && rec.createdAt == c.createdAt && rec.updatedAt == c.updatedAt
  }

  /** Extraction depends on the securities only through the first usable
      symbol: adding securities after it, or unusable ones before it, does
      not change the record. */
  lemma ExtractIgnoresUnusablePrefix(msg: StreamMessage, junk: seq<Security>)
    requires forall i :: 0 <= i < |junk| ==> !HasSymbol(junk[i])
    ensures var c := msg.data.content;
      var msg' := msg.(data := msg.data.(content := c.(securities := junk + c.securities)));
      TryExtractOutput(msg') == TryExtractOutput(msg)
  {
    var c := msg.data.content;
    var secs := junk + c.securities;
    var msg' := msg.(data := msg.data.(content := c.(securities := secs)));
    match FirstSymbolAt(c.securities)
    case None =>
      assert forall i :: 0 <= i < |secs| ==> !HasSymbol(secs[i]) by {
        forall i | 0 <= i < |secs| ensures !HasSymbol(secs[i]) {
          if i >= |junk| { assert secs[i] == c.securities[i - |junk|]; }
        }
      }
    case Some(k) =>
      var k' := |junk| + k;
      assert secs[k'] == c.securities[k];
      assert forall j :: 0 <= j < k' ==> !HasSymbol(secs[j]) by {
        forall j | 0 <= j < k' ensures !HasSymbol(secs[j]) {
          if j >= |junk| { assert secs[j] == c.securities[j - |junk|]; }
        }
      }
      FirstSymbolUnique(secs, k');
  }

  /** The first usable position is determined by the list. */
  lemma FirstSymbolUnique(secs: seq<Security>, k: nat)
    requires k < |secs| && HasSymbol(secs[k])
    requires forall j :: 0 <= j < k ==> !HasSymbol(secs[j])
    ensures FirstSymbolAt(secs) == Some(k)
  {
  }

  /** One NDJSON line: the record's JSON text and a newline. */
  function ToNdjson(json: string): (line: string)
    ensures |line| == |json| + 1 && line[..|json|] == json && line[|json|] == '\n'
    ensures '\n' !in json ==> forall i :: 0 <= i < |line| && line[i] == '\n' ==> i == |json|
  {
    json + "\n"
  }

  /** The text a sequence of records' lines makes when written one after
      the other. */
  function NdjsonText(jsons: seq<string>): string
    decreases |jsons|
  {
    if |jsons| == 0 then "" else ToNdjson(jsons[0]) + NdjsonText(jsons[1..])
  }

  /** Single-line JSON texts survive being written as NDJSON: splitting the
      text at newlines gives them back, followed by the empty piece after
      the last newline. */
  lemma {:induction false} NdjsonSplit(jsons: seq<string>)
    requires forall k :: 0 <= k < |jsons| ==> '\n' !in jsons[k]
    ensures Split(NdjsonText(jsons), '\n') == jsons + [""]
    decreases |jsons|
  {
    NdjsonJoin(jsons);
    SplitJoin(jsons + [""], '\n');
  }

  lemma {:induction false} NdjsonJoin(jsons: seq<string>)
    ensures NdjsonText(jsons) == JoinWith("\n", jsons + [""])
    decreases |jsons|
  {
    if |jsons| > 0 {
      NdjsonJoin(jsons[1..]);
      assert (jsons + [""])[1..] == jsons[1..] + [""];
    }
  }
}

=== FILE: summarizer.dfy ===
/** The summarizer's decisions: the retry loop around the model call, the
    empty-input short cuts of the two public entry points, and the prompt
    text. Model calls are oracles: the `j`-th call of the primary model
    (counting from 0) has outcome `primary(j)`, and the one fallback call
    has outcome `fallback`. Sleeping is recorded, not performed. */
module Summarizer {
  import opened Common

  /** What one model call does: returns a stripped summary (`Ok`), returns
      nothing (`Empty`), raises a service error with a code and a message,
      or raises anything else. */
  datatype Outcome = Ok(summary: string) | Empty | ClientErr(code: string, message: string) | OtherErr

  /** How a call of the retry loop ends: with a value, or with the exception
      the fallback call raised, which nothing catches. */
  datatype Reply = Returned(summary: Option<string>) | Raised

  /** The reply, the number of primary-model calls, the sleeps taken (in
      seconds, in order), and the number of fallback-model calls. */
  datatype Run = Run(reply: Reply, calls: nat, sleeps: seq<nat>, fallbackCalls: nat)

  function Pow2(k: nat): (r: nat)
    ensures r >= 1
  {
    if k == 0 then 1 else 2 * Pow2(k - 1)
  }

  /** Throttling-type error codes, the only ones retried. */
  predicate Retryable(code: string) {
    && (code == "ThrottlingException" || code == "ServiceUnavailableException" || code == "TooManyRequestsException")
    && !Contains(code, "ValidationException")
  }

  /** The primary model is not offered on demand: switch to the fallback. */
  predicate WantsFallback(code: string, message: string) {
    code == "ValidationException" && Contains(message, "on-demand throughput")
  }

  /** A summary is usable when it is non-empty (Python truthiness). */
  predicate Usable(o: Outcome) {
    o.Ok? && o.summary != ""
  }

  /** Outcomes after which the loop sleeps and tries again, unless it was
      the last attempt. */
  predicate Transient(o: Outcome) {
    o.OtherErr? || (o.ClientErr? && Retryable(o.code))
  }

  /** The fallback call's result is handed back as it is; its exceptions
      propagate. */
  function FallbackReply(o: Outcome): (r: Reply)
    ensures r.Raised? <==> o.ClientErr? || o.OtherErr?
    ensures r.Returned? && r.summary.Some? ==> Usable(o) && r.summary.value == o.summary
  {
    match o
    case Ok(s) => Returned(if s != "" then Some(s) else None)
    case Empty => Returned(None)
    case _ => Raised
  }

  /** The attempt goes on to the next one: an empty answer, or a transient
      error before the last attempt. */
  predicate Passes(o: Outcome, attempt: nat, maxRetries: int) {
    (o.Ok? && o.summary == "") || o.Empty? || (Transient(o) && attempt < maxRetries - 1)
  }

  /** The sleep an attempt that passes takes: `2 ** attempt` seconds after a
      transient error, none after an empty answer. */
  function Pause(o: Outcome, attempt: nat): seq<nat> {
    if Transient(o) then [Pow2(attempt)] else []
  }

  /** The sleeps of attempts `from` up to (not including) `to`. */
  function Pauses(primary: nat -> Outcome, from: nat, to: nat): seq<nat>
    requires from <= to
    decreases (to as int) - (from as int)
  {
    if from == to then [] else Pause(primary(from), from) + Pauses(primary, from + 1, to)
  }

  /** One more primary call, with an optional sleep after it. */
  function Again(rest: Run, pause: seq<nat>): Run {
    rest.(calls := rest.calls + 1, sleeps := pause + rest.sleeps)
  }

  /** `_invoke_with_retry` from attempt `attempt` on. */
  function Attempts(maxRetries: int, attempt: nat, primary: nat -> Outcome, fallback: Outcome): Run
    decreases maxRetries - attempt
  {
    if attempt >= maxRetries then Run(Returned(None), 0, [], 0)
    else
      var o := primary(attempt);
      var last := attempt == maxRetries - 1;
      match o
      case Ok(s) =>
        if s != "" then Run(Returned(Some(s)), 1, [], 0)
        else Again(Attempts(maxRetries, attempt + 1, primary, fallback), [])
      case Empty =>
        Again(Attempts(maxRetries, attempt + 1, primary, fallback), [])
      case ClientErr(code, message) =>
        if !Retryable(code) || last then
          if WantsFallback(code, message) then Run(FallbackReply(fallback), 1, [], 1)
          else Run(Returned(None), 1, [], 0)
        else Again(Attempts(maxRetries, attempt + 1, primary, fallback), [Pow2(attempt)])
      case OtherErr =>
        if last then Run(Returned(None), 1, [], 0)
        else Again(Attempts(maxRetries, attempt + 1, primary, fallback), [Pow2(attempt)])
  }

  /** From a given attempt on, primary calls never exceed the attempts
      left; at most one fallback call happens, and only after a primary
      call; an exception escapes only from the fallback call; and there is
      at most one sleep per call. */
  lemma {:induction false} AttemptsBounds(maxRetries: int, attempt: nat, primary: nat -> Outcome, fallback: Outcome)
    ensures var r := Attempts(maxRetries, attempt, primary, fallback);
      && r.calls <= (if attempt < maxRetries then maxRetries - attempt else 0)
      && r.fallbackCalls <= 1
      && (r.reply.Raised? ==> r.fallbackCalls == 1)
      && (r.fallbackCalls == 1 ==> r.calls >= 1)
      && |r.sleeps| <= r.calls
    decreases maxRetries - attempt
  {
    if attempt < maxRetries {
      AttemptsBounds(maxRetries, attempt + 1, primary, fallback);
    }
  }

  /** `_invoke_with_retry`: `max_retries` attempts of the primary model. */
  function Invoke(maxRetries: int, primary: nat -> Outcome, fallback: Outcome): (r: Run)
    ensures r.calls <= (if maxRetries > 0 then maxRetries else 0)
    ensures r.reply.Raised? ==> r.fallbackCalls == 1
  {
    AttemptsBounds(maxRetries, 0, primary, fallback);
    Attempts(maxRetries, 0, primary, fallback)
  }

  /** With no attempts allowed nothing is called and the result is `None`. */
  lemma InvokeNoRetries(maxRetries: int, primary: nat -> Outcome, fallback: Outcome)
    requires maxRetries <= 0
    ensures Invoke(maxRetries, primary, fallback) == Run(Returned(None), 0, [], 0)
  {
  }

  /** Attempts that pass add one call each and their sleeps, and change
      nothing else. */
  lemma {:induction false} SkipPassing(maxRetries: int, primary: nat -> Outcome, fallback: Outcome, a: nat, k: nat)
    requires a <= k < maxRetries
    requires forall j :: a <= j < k ==> Passes(primary(j), j, maxRetries)
    ensures var rest := Attempts(maxRetries, k, primary, fallback);
      Attempts(maxRetries, a, primary, fallback)
        == rest.(calls := rest.calls + (k - a), sleeps := Pauses(primary, a, k) + rest.sleeps)
    decreases k - a
  {
    if a < k {
      var rest := Attempts(maxRetries, k, primary, fallback);
      var p := Pause(primary(a), a);
      calc {
        Attempts(maxRetries, a, primary, fallback);
        { PassStep(maxRetries, primary, fallback, a); }
        Again(Attempts(maxRetries, a + 1, primary, fallback), p);
        { SkipPassing(maxRetries, primary, fallback, a + 1, k); }
        Again(rest.(calls := rest.calls + (k - a - 1), sleeps := Pauses(primary, a + 1, k) + rest.sleeps), p);
        { assert p + (Pauses(primary, a + 1, k) + rest.sleeps) == Pauses(primary, a, k) + rest.sleeps; }
        rest.(calls := rest.calls + (k - a), sleeps := Pauses(primary, a, k) + rest.sleeps);
      }
    }
  }

  /** An attempt that passes costs one call and its pause, then the next
      attempt runs. */
  lemma PassStep(maxRetries: int, primary: nat -> Outcome, fallback: Outcome, a: nat)
    requires a < maxRetries && Passes(primary(a), a, maxRetries)
    ensures Attempts(maxRetries, a, primary, fallback)
         == Again(Attempts(maxRetries, a + 1, primary, fallback), Pause(primary(a), a))
  {
  }

  /** The first usable summary is returned, after the attempts before it
      passed. */
  lemma InvokeFirstSummary(maxRetries: int, primary: nat -> Outcome, fallback: Outcome, k: nat)
    requires k < maxRetries && Usable(primary(k))
    requires forall j :: 0 <= j < k ==> Passes(primary(j), j, maxRetries)
    ensures Invoke(maxRetries, primary, fallback)
      == Run(Returned(Some(primary(k).summary)), k + 1, Pauses(primary, 0, k), 0)
  {
    SkipPassing(maxRetries, primary, fallback, 0, k);
  }

  /** An on-demand-throughput validation error makes exactly one fallback
      call, whose result is the reply. */
  lemma InvokeFallback(maxRetries: int, primary: nat -> Outcome, fallback: Outcome, k: nat)
    requires k < maxRetries && primary(k).ClientErr? && WantsFallback(primary(k).code, primary(k).message)
    requires forall j :: 0 <= j < k ==> Passes(primary(j), j, maxRetries)
    ensures Invoke(maxRetries, primary, fallback)
      == Run(FallbackReply(fallback), k + 1, Pauses(primary, 0, k), 1)
  {
    SkipPassing(maxRetries, primary, fallback, 0, k);
  }

  /** Any other service error that is not retried, or any error on the last
      attempt, gives `None` at once. */
  lemma InvokeGivesUp(maxRetries: int, primary: nat -> Outcome, fallback: Outcome, k: nat)
    requires k < maxRetries
    requires var o := primary(k);
      || (o.ClientErr? && (!Retryable(o.code) || k == maxRetries - 1) && !WantsFallback(o.code, o.message))
      || (o.OtherErr? && k == maxRetries - 1)
    requires forall j :: 0 <= j < k ==> Passes(primary(j), j, maxRetries)
    ensures Invoke(maxRetries, primary, fallback) == Run(Returned(None), k + 1, Pauses(primary, 0, k), 0)
  {
    SkipPassing(maxRetries, primary, fallback, 0, k);
  }

  /** When every attempt passes, the loop runs out and returns `None` after
      `max_retries` calls. */
  lemma InvokeRunsOut(maxRetries: int, primary: nat -> Outcome, fallback: Outcome)
    requires maxRetries > 0
    requires forall j :: 0 <= j < maxRetries ==> Passes(primary(j), j, maxRetries)
    ensures Invoke(maxRetries, primary, fallback)
      == Run(Returned(None), maxRetries, Pauses(primary, 0, maxRetries), 0)
  {
    var k := maxRetries - 1;
    SkipPassing(maxRetries, primary, fallback, 0, k);
    assert Pauses(primary, k, maxRetries) == Pause(primary(k), k);
    assert Pause(primary(k), k) == [];
    PausesSplit(primary, 0, k, maxRetries);
  }

  lemma {:induction false} PausesSplit(primary: nat -> Outcome, a: nat, b: nat, c: nat)
    requires a <= b <= c
    ensures Pauses(primary, a, c) == Pauses(primary, a, b) + Pauses(primary, b, c)
    decreases b - a
  {
    if a < b {
      PausesSplit(primary, a + 1, b, c);
    }
  }

  /** Errors throughout make the waits double: 1, 2, 4, ... seconds. */
  lemma {:induction false} PausesDouble(primary: nat -> Outcome, a: nat, b: nat)
    requires a <= b
    requires forall j :: a <= j < b ==> Transient(primary(j))
    ensures |Pauses(primary, a, b)| == b - a
    ensures forall i :: 0 <= i < b - a ==> Pauses(primary, a, b)[i] == Pow2(a + i)
    decreases b - a
  {
    if a < b {
      PausesDouble(primary, a + 1, b);
      var rest := Pauses(primary, a + 1, b);
      assert Pauses(primary, a, b) == [Pow2(a)] + rest;
    }
  }

  // ---------------------------------------------------------------------
  // Entry points

  /** Python's `not s or not s.strip()`. */
  predicate Blank(s: string) {
    s == "" || Strip(s) == ""
  }

  /** The teaser is shown when it is present and not blank. */
  predicate ShowsTeaser(teaser: Option<string>) {
    teaser.Some? && !Blank(teaser.value)
  }

  /** `summarize_article`: a blank body returns the teaser when it is
      truthy and calls nothing; otherwise the prompt goes to the retry loop.
      Calls are oracles on the prompt and the attempt. */
  function SummarizeArticle(ticker: string, title: string, body: string, teaser: Option<string>, maxWords: int,
                            maxRetries: int, primary: (string, nat) -> Outcome, fallback: string -> Outcome): (r: Run)
    ensures Blank(body) ==>
      r == Run(Returned(if teaser.Some? && teaser.value != "" then teaser else None), 0, [], 0)
    ensures !Blank(body) ==>
      var prompt := BuildPrompt(ticker, title, body, teaser, maxWords);
      Contains(prompt, body) && r == Invoke(maxRetries, (j: nat) => primary(prompt, j), fallback(prompt))
  {
    if Blank(body) then Run(Returned(if teaser.Some? && teaser.value != "" then teaser else None), 0, [], 0)
    else
      var prompt := BuildPrompt(ticker, title, body, teaser, maxWords);
      Invoke(maxRetries, (j: nat) => primary(prompt, j), fallback(prompt))
  }

  /** `summarize_html_content`: blank content gives `None` with no call. */
  function SummarizeHtml(ticker: string, title: string, html: string, maxWords: int,
                         maxRetries: int, primary: (string, nat) -> Outcome, fallback: string -> Outcome): (r: Run)
    ensures Blank(html) ==> r == Run(Returned(None), 0, [], 0)
    ensures !Blank(html) ==>
      var prompt := BuildHtmlPrompt(ticker, title, html, maxWords);
      Contains(prompt, html) && r == Invoke(maxRetries, (j: nat) => primary(prompt, j), fallback(prompt))
  {
    if Blank(html) then Run(Returned(None), 0, [], 0)
    else
      var prompt := BuildHtmlPrompt(ticker, title, html, maxWords);
      Invoke(maxRetries, (j: nat) => primary(prompt, j), fallback(prompt))
  }

  /** A blank body never reaches the model, whatever it would answer. */
  lemma BlankBodyNoCall(ticker: string, title: string, body: string, teaser: Option<string>, maxWords: int,
                        maxRetries: int, primary: (string, nat) -> Outcome, fallback: string -> Outcome)
    requires IsBlank(body)
    ensures SummarizeArticle(ticker, title, body, teaser, maxWords, maxRetries, primary, fallback).calls == 0
    ensures SummarizeHtml(ticker, title, body, maxWords, maxRetries, primary, fallback).calls == 0
  {
    StripEmptyIffBlank(body);
  }

  // ---------------------------------------------------------------------
  // Prompts

  /** The opening words of both prompts, before the ticker. */
  const Opening := "Summarize this financial news article about "

  function MaxWordsLine(maxWords: int): string {
    "- Maximum " + IntToString(maxWords) + WordsNote
  }

  const WordsNote := " words (shorter is fine if content is brief)"

  /** The lines of the article prompt, in order. */
  function PromptParts(ticker: string, title: string, body: string, teaser: Option<string>, maxWords: int): (r: seq<string>)
    ensures var t := if ShowsTeaser(teaser) then 1 else 0;
      && |r| == 14 + t
      && r[2] == "Title: " + title
      && (ShowsTeaser(teaser) ==> r[3] == "Teaser: " + teaser.value)
      && r[3 + t] == ""
      && r[5 + t] == body
      && r[8 + t] == MaxWordsLine(maxWords)
  {
    var head := [Opening + ticker + ".", "", "Title: " + title];
    var teaserLine := if ShowsTeaser(teaser) then ["Teaser: " + teaser.value] else [];
    var front := head + teaserLine;
    front + (["", "Article:", body, "", "Requirements:", MaxWordsLine(maxWords)] + ArticleRules)
  }

  /** The fixed instructions that close the article prompt. */
  const ArticleRules: seq<string> := [
    "- Focus on key facts, financial impact, and stock implications",
    "- Include specific numbers, percentages, and dates when relevant",
    "- Write in clear, professional financial journalism style",
    "- Start directly with the news content (no meta-commentary)",
    "- Prioritize actionable information for investors"
  ]

  /** `_build_prompt`: the lines joined with newlines. */
  function BuildPrompt(ticker: string, title: string, body: string, teaser: Option<string>, maxWords: int): (r: string)
    ensures Contains(r, "Title: " + title)
    ensures Contains(r, body)
    ensures Contains(r, MaxWordsLine(maxWords))
    ensures ShowsTeaser(teaser) ==> Contains(r, "Teaser: " + teaser.value)
  {
    var parts := PromptParts(ticker, title, body, teaser, maxWords);
    var t := if ShowsTeaser(teaser) then 1 else 0;
    var r := JoinWith("\n", parts);
    assert Contains(r, "Title: " + title) by { JoinWithContainsParts("\n", parts, 2); }
    assert Contains(r, body) by { JoinWithContainsParts("\n", parts, 5 + t); }
    assert Contains(r, MaxWordsLine(maxWords)) by { JoinWithContainsParts("\n", parts, 8 + t); }
    assert ShowsTeaser(teaser) ==> Contains(r, "Teaser: " + teaser.value) by {
      if ShowsTeaser(teaser) {
        JoinWithContainsParts("\n", parts, 3);
      }
    }
    r
  }

  /** The fixed instructions that close the HTML prompt. */
  const HtmlRules: seq<string> := [
    "- Extract and summarize the main article content from the HTML",
    "- Focus on key facts, financial impact, and stock implications",
    "- Include specific numbers, percentages, and dates when relevant",
    "- Write in clear, professional financial journalism style",
    "- Start directly with the news content (no meta-commentary)",
    "- Prioritize actionable information for investors",
    "- Ignore any HTML tags, formatting, or navigation elements"
  ]

  const HtmlNote := " that is provided in raw HTML format."

  /** `_build_html_summary_prompt`. */
  function BuildHtmlPrompt(ticker: string, title: string, html: string, maxWords: int): (r: string)
    ensures Contains(r, "Title: " + title)
    ensures Contains(r, html)
    ensures Contains(r, MaxWordsLine(maxWords))
  {
    var parts := [
      Opening + ticker + HtmlNote,
      "",
      "Title: " + title,
      "",
      "HTML Content:",
      html,
      "",
      "Requirements:",
      MaxWordsLine(maxWords)
    ] + HtmlRules;
    var r := JoinWith("\n", parts);
    assert Contains(r, "Title: " + title) by { JoinWithContainsParts("\n", parts, 2); }
    assert Contains(r, html) by { JoinWithContainsParts("\n", parts, 5); }
    assert Contains(r, MaxWordsLine(maxWords)) by { JoinWithContainsParts("\n", parts, 8); }
    r
  }
}

=== FILE: text_examples.dfy ===
/** The two examples in the documentation of `strip_html_tags`, worked
    through the pipeline rewrite by rewrite. */
module TextExamples {
  import opened Common
  import opened TextUtils

  /** A piece of text that no match starts in passes through a rewrite. */
  lemma {:induction false} SubKeepsFront(re: Rewrite, a: string, b: string)
    requires Lead(re) !in a
    ensures Sub(re, a + b) == a + Sub(re, b)
    decreases |a|
  {
    if |a| > 0 {
      var s := a + b;
      calc {
        Sub(re, s);
        { assert s[0] == a[0]; assert MatchLen(re, s) == 0; }
        [s[0]] + Sub(re, s[1..]);
        { assert s[1..] == a[1..] + b; SubKeepsFront(re, a[1..], b); }
        [a[0]] + (a[1..] + Sub(re, b));
        { assert a == [a[0]] + a[1..]; }
        a + Sub(re, b);
      }
    } else {
      assert a + b == b;
    }
  }

  /** A piece that only starts with a match's lead character, where no
      match starts, passes through a rewrite. */
  lemma SubPasses(re: Rewrite, p: string, b: string)
    requires |p| > 0 && MatchLen(re, p + b) == 0 && Lead(re) !in p[1..]
    ensures Sub(re, p + b) == p + Sub(re, b)
  {
    var s := p + b;
    assert s[1..] == p[1..] + b;
    SubKeepsFront(re, p[1..], b);
    assert p == [p[0]] + p[1..];
  }

  /** The five rewrites that turn markup into line breaks and bullets. */
  predicate BreakRewrite(re: Rewrite) {
    re.ParaBreak? || re.LineBreak? || re.DivBreak? || re.ListOpen? || re.ListClose?
  }

  /** No break rewrite matches at an opening `<p>` or `<b>` tag. */
  lemma OpenTagInert(re: Rewrite, c: char, rest: string)
    requires BreakRewrite(re) && (c == 'p' || c == 'b')
    ensures MatchLen(re, ['<', c, '>'] + rest) == 0
  {
    var s := ['<', c, '>'] + rest;
    assert s[0] == '<' && s[1] == c && s[2] == '>';
  }

  /** No break rewrite matches at a closing `</b>` tag, nor at a closing
      `</p>` that ends the text. */
  lemma CloseTagInert(re: Rewrite, c: char, rest: string)
    requires BreakRewrite(re) && (c == 'b' || (c == 'p' && rest == ""))
    ensures MatchLen(re, ['<', '/', c, '>'] + rest) == 0
  {
    var s := ['<', '/', c, '>'] + rest;
    assert s[0] == '<' && s[1] == '/' && s[2] == c && s[3] == '>';
    if re.ParaBreak? && c == 'p' {
      assert s[4..] == "";
    }
  }

  /** A tag with no `>` inside is removed whole. */
  lemma TagRemoved(tag: string, rest: string)
    requires |tag| >= 3 && tag[0] == '<' && tag[1] != '>' && tag[|tag| - 1] == '>'
    requires '>' !in tag[1..|tag| - 1]
    ensures Sub(AnyTag, tag + rest) == Sub(AnyTag, rest)
  {
    var s := tag + rest;
    var k := |tag| - 2;
    assert s[1..][k] == '>';
    SubAtMatch(AnyTag, tag, rest);
  }

  const HelloHtml := "<p>" + ("Hello " + ("<b>" + ("world" + ("</b>" + ("!" + "</p>")))))
  const HelloText := "Hello " + ("world" + "!")

  /** The break rewrites find nothing in the first example. */
  lemma HelloBreaksKept(re: Rewrite)
    requires BreakRewrite(re)
    ensures Sub(re, HelloHtml) == HelloHtml
  {
    OpenTagInert(re, 'p', "Hello " + ("<b>" + ("world" + ("</b>" + ("!" + "</p>")))));
    OpenTagInert(re, 'b', "world" + ("</b>" + ("!" + "</p>")));
    CloseTagInert(re, 'b', "!" + "</p>");
    CloseTagInert(re, 'p', "");
    assert "</p>" == "</p>" + "";
    SubPasses(re, "</p>", "");
    SubKeepsFront(re, "!", "</p>");
    SubPasses(re, "</b>", "!" + "</p>");
    SubKeepsFront(re, "world", "</b>" + ("!" + "</p>"));
    SubPasses(re, "<b>", "world" + ("</b>" + ("!" + "</p>")));
    SubKeepsFront(re, "Hello ", "<b>" + ("world" + ("</b>" + ("!" + "</p>"))));
    SubPasses(re, "<p>", "Hello " + ("<b>" + ("world" + ("</b>" + ("!" + "</p>")))));
  }

  /** Tag removal leaves the words of the first example. */
  lemma HelloTagsRemoved()
    ensures Sub(AnyTag, HelloHtml) == HelloText
  {
    var r4 := "</b>" + ("!" + "</p>");
    var r2 := "<b>" + ("world" + r4);
    calc {
      Sub(AnyTag, HelloHtml);
      { TagRemoved("<p>", "Hello " + r2); }
      Sub(AnyTag, "Hello " + r2);
      { SubKeepsFront(AnyTag, "Hello ", r2); }
      "Hello " + Sub(AnyTag, r2);
      { TagRemoved("<b>", "world" + r4); SubKeepsFront(AnyTag, "world", r4); }
      "Hello " + ("world" + Sub(AnyTag, r4));
      { TagRemoved("</b>", "!" + "</p>"); SubKeepsFront(AnyTag, "!", "</p>"); }
      "Hello " + ("world" + ("!" + Sub(AnyTag, "</p>")));
      { TagRemoved("</p>", ""); assert "</p>" + "" == "</p>"; }
      "Hello " + ("world" + ("!" + ""));
      { assert "!" + "" == "!"; }
      HelloText;
    }
  }

  /** A text with no line break is stripped as one line. */
  lemma StripLinesOneLine(s: string)
    requires '\n' !in s
    ensures StripLines(s) == Strip(s)
  {
  }

  /** A text that neither starts nor ends with whitespace is its own strip. */
  lemma StripKeepsEnds(s: string)
    requires |s| > 0 && !IsSpace(s[0]) && !IsSpace(s[|s| - 1])
    ensures Strip(s) == s
  {
    assert LStrip(s) == s;
  }

  /** Single spaces between words survive the space rewrite. */
  lemma HelloSpaces()
    ensures Sub(Spaces, HelloText) == HelloText
  {
    var w := "world" + "!";
    assert HelloText == "Hello" + (" " + w);
    assert ' ' !in w;
    assert (" " + w)[0] == ' ' && (" " + w)[1..] == w && w[0] == 'w';
    assert MatchLen(Spaces, " " + w) == 1;
    SubWithoutLead(Spaces, w);
    SubAtMatch(Spaces, " ", w);
    SubKeepsFront(Spaces, "Hello", " " + w);
  }

  /** The first example's words hold no entity and no line break. */
  lemma HelloPlain()
    ensures '&' !in HelloText && '\n' !in HelloText
  {
  }

  lemma HelloEnds()
    ensures |HelloText| > 0 && !IsSpace(HelloText[0]) && !IsSpace(HelloText[|HelloText| - 1])
  {
    assert HelloText[0] == 'H' && HelloText[|HelloText| - 1] == '!';
  }

  /** The whitespace tidying leaves the first example's words alone. */
  lemma HelloTidy()
    ensures TidyWhitespace(HelloText) == HelloText
  {
    var t := HelloText;
    calc {
      TidyWhitespace(t);
      Strip(StripLines(Sub(Newlines, Sub(Spaces, t))));
      { HelloSpaces(); }
      Strip(StripLines(Sub(Newlines, t)));
      { HelloPlain(); SubWithoutLead(Newlines, t); }
      Strip(StripLines(t));
      { HelloPlain(); StripLinesOneLine(t); }
      Strip(Strip(t));
      { HelloEnds(); StripKeepsEnds(t); }
      t;
    }
  }

  /** The markup rewrites reduce the first example to its words. */
  lemma HelloMarkup()
    ensures RemoveMarkup(HelloHtml) == HelloText
  {
    HelloBreaksKept(ParaBreak);
    HelloBreaksKept(LineBreak);
    HelloBreaksKept(DivBreak);
    HelloBreaksKept(ListOpen);
    HelloBreaksKept(ListClose);
    HelloTagsRemoved();
  }

  /** The first documented example: paragraph and bold tags are dropped and
      the words kept. */
  lemma StripHtmlTagsHello(unescape: string -> string)
    requires forall s :: '&' !in s ==> unescape(s) == s
    ensures StripHtmlTags(Some("<p>Hello <b>world</b>!</p>"), unescape) == "Hello world!"
  {
    assert "<p>Hello <b>world</b>!</p>" == HelloHtml;
    assert "Hello world!" == HelloText;
    assert unescape(RemoveMarkup(HelloHtml)) == HelloText by {
      HelloMarkup();
      HelloPlain();
    }
    HelloTidy();
  }

  /** A word of plain text: no whitespace, no markup, no entity. */
  predicate Word(w: string) {
    && |w| > 0 && !IsSpace(w[0]) && !IsSpace(w[|w| - 1])
    && ' ' !in w && '\n' !in w && '<' !in w && '&' !in w
  }

  /** Two words with one space between them. */
  function Phrase(a: string, b: string): string {
    a + (" " + b)
  }

  lemma PhrasePlain(a: string, b: string)
    requires Word(a) && Word(b)
    ensures var p := Phrase(a, b);
      && |p| > 0 && !IsSpace(p[0]) && !IsSpace(p[|p| - 1])
      && '\n' !in p && '<' !in p && '&' !in p
  {
    var p := Phrase(a, b);
    assert p[0] == a[0] && p[|p| - 1] == b[|b| - 1];
  }

  /** Two paragraphs of the form of the second example. */
  function Paragraphs(x: string, y: string): string {
    "<p>" + (x + ("</p>" + ("<p>" + (y + "</p>"))))
  }

  /** The same once the paragraph break is rewritten. */
  function Broken(x: string, y: string): string {
    "<p>" + (x + ("\n\n" + (y + "</p>")))
  }

  /** The text the two paragraphs become. */
  function Blocks(x: string, y: string): string {
    x + ("\n\n" + y)
  }

  /** The paragraph break between two paragraphs becomes two newlines. */
  lemma ParaBreakStep(x: string, y: string)
    requires '<' !in x && '<' !in y
    ensures Sub(ParaBreak, Paragraphs(x, y)) == Broken(x, y)
  {
    CloseTagInert(ParaBreak, 'p', "");
    assert "</p>" + "" == "</p>";
    SubPasses(ParaBreak, "</p>", "");
    SubKeepsFront(ParaBreak, y, "</p>");
    var rest := y + "</p>";
    ParaBreakAt(rest);
    SubKeepsFront(ParaBreak, x, "</p>" + ("<p>" + rest));
    OpenTagInert(ParaBreak, 'p', x + ("</p>" + ("<p>" + rest)));
    SubPasses(ParaBreak, "<p>", x + ("</p>" + ("<p>" + rest)));
  }

  /** A closing and an opening paragraph tag next to each other. */
  lemma ParagraphTagsSpelled()
    ensures PrefixI("</p>", "</p>") && PrefixI("<p>", "<p>")
  {
  }

  lemma ParaBreakAt(rest: string)
    ensures Sub(ParaBreak, "</p>" + ("<p>" + rest)) == "\n\n" + Sub(ParaBreak, rest)
  {
    var e: string := [];
    var close, open := "</p>", "<p>";
    calc {
      Sub(ParaBreak, close + (open + rest));
      { assert close + e == close; ConcatAssoc(close, open, rest); }
      Sub(ParaBreak, close + e + open + rest);
      { ParagraphTagsSpelled(); ParaBreakRewrite(close, e, open, rest); }
      "\n\n" + Sub(ParaBreak, rest);
    }
  }

  /** The other break rewrites find nothing once the break is rewritten. */
  lemma ParaBreaksKept(re: Rewrite, x: string, y: string)
    requires BreakRewrite(re) && !re.ParaBreak?
    requires '<' !in x && '<' !in y
    ensures Sub(re, Broken(x, y)) == Broken(x, y)
  {
    CloseTagInert(re, 'p', "");
    assert "</p>" + "" == "</p>";
    SubPasses(re, "</p>", "");
    SubKeepsFront(re, y, "</p>");
    SubKeepsFront(re, "\n\n", y + "</p>");
    SubKeepsFront(re, x, "\n\n" + (y + "</p>"));
    OpenTagInert(re, 'p', x + ("\n\n" + (y + "</p>")));
    SubPasses(re, "<p>", x + ("\n\n" + (y + "</p>")));
  }

  /** Tag removal leaves the two blocks of text. */
  lemma ParaTagsRemoved(x: string, y: string)
    requires '<' !in x && '<' !in y
    ensures Sub(AnyTag, Broken(x, y)) == Blocks(x, y)
  {
    TagRemoved("</p>", "");
    assert "</p>" + "" == "</p>";
    SubKeepsFront(AnyTag, y, "</p>");
    SubKeepsFront(AnyTag, "\n\n", y + "</p>");
    SubKeepsFront(AnyTag, x, "\n\n" + (y + "</p>"));
    TagRemoved("<p>", x + ("\n\n" + (y + "</p>")));
    assert y + "" == y;
  }

  /** The markup rewrites reduce two paragraphs to two blocks of text. */
  lemma ParaMarkup(x: string, y: string)
    requires '<' !in x && '<' !in y
    ensures RemoveMarkup(Paragraphs(x, y)) == Blocks(x, y)
  {
    ParaBreakStep(x, y);
    ParaBreaksKept(LineBreak, x, y);
    ParaBreaksKept(DivBreak, x, y);
    ParaBreaksKept(ListOpen, x, y);
    ParaBreaksKept(ListClose, x, y);
    ParaTagsRemoved(x, y);
  }

  /** One space between two words survives the space rewrite. */
  lemma SpacesKeepPair(a: string, b: string, rest: string)
    requires ' ' !in a && ' ' !in b && |b| > 0
    ensures Sub(Spaces, Phrase(a, b) + rest) == Phrase(a, b) + Sub(Spaces, rest)
  {
    var t := " " + (b + rest);
    assert t[0] == ' ' && t[1..] == b + rest && t[1] == b[0];
    assert MatchLen(Spaces, t) == 1;
    SubAtMatch(Spaces, " ", b + rest);
    SubKeepsFront(Spaces, b, rest);
    SubKeepsFront(Spaces, a, t);
    assert Phrase(a, b) + rest == a + t;
  }

  /** The space rewrite leaves two blocks of two words alone. */
  lemma BlocksSpaces(a1: string, a2: string, b1: string, b2: string)
    requires Word(a1) && Word(a2) && Word(b1) && Word(b2)
    ensures Sub(Spaces, Blocks(Phrase(a1, a2), Phrase(b1, b2))) == Blocks(Phrase(a1, a2), Phrase(b1, b2))
  {
    var y := Phrase(b1, b2);
    SpacesKeepPair(b1, b2, "");
    assert y + "" == y;
    SubKeepsFront(Spaces, "\n\n", y + "");
    SpacesKeepPair(a1, a2, "\n\n" + y);
  }

  /** The newline rewrite leaves a single empty line alone. */
  lemma BlocksNewlines(x: string, y: string)
    requires '\n' !in x && '\n' !in y && |y| > 0
    ensures Sub(Newlines, Blocks(x, y)) == Blocks(x, y)
  {
    var t := "\n" + y;
    assert y[0] != '\n' && CharRun(y, '\n') == 0;
    assert t[0] == '\n' && t[1..] == y && t + "" == t;
    assert CharRun(t, '\n') == 1;
    SubPasses(Newlines, t, "");
    var u := "\n" + t;
    assert u[0] == '\n' && u[1..] == t;
    assert CharRun(u, '\n') == 2;
    SubPasses(Newlines, "\n", t);
    SubKeepsFront(Newlines, x, u);
    assert "\n\n" + y == u;
  }

  /** A line without a break is stripped and the rest handled after it. */
  lemma StripLinesCons(a: string, b: string)
    requires '\n' !in a
    ensures StripLines(a + "\n" + b) == Strip(a) + "\n" + StripLines(b)
  {
    var s := a + "\n" + b;
    assert s[|a|] == '\n' && s[..|a|] == a && s[|a| + 1..] == b;
    assert '\n' !in s[..|a|];
  }

  lemma BlocksSplit(x: string, y: string)
    ensures Blocks(x, y) == x + "\n" + ("\n" + y)
  {
    var u := "\n" + y;
    assert "\n\n" + y == "\n" + u by {
      assert "\n\n" == "\n" + "\n";
    }
    ConcatAssoc(x, "\n", u);
  }

  /** An empty first line stays empty. */
  lemma StripLinesEmptyFirst(y: string)
    ensures StripLines("\n" + y) == "\n" + StripLines(y)
  {
    var e: string := [];
    StripLinesCons(e, y);
    assert LStrip(e) == e && RStrip(e) == e;
    assert e + "\n" + y == "\n" + y;
    assert e + "\n" + StripLines(y) == "\n" + StripLines(y);
  }

  /** Stripping each line and the whole leaves two trimmed blocks alone. */
  lemma BlocksStrips(x: string, y: string)
    requires |x| > 0 && !IsSpace(x[0]) && !IsSpace(x[|x| - 1]) && '\n' !in x
    requires |y| > 0 && !IsSpace(y[0]) && !IsSpace(y[|y| - 1]) && '\n' !in y
    ensures Strip(StripLines(Blocks(x, y))) == Blocks(x, y)
  {
    var s := Blocks(x, y);
    var t := x + "\n" + ("\n" + y);
    calc {
      Strip(StripLines(s));
      { BlocksSplit(x, y); }
      Strip(StripLines(t));
      { StripLinesCons(x, "\n" + y); }
      Strip(Strip(x) + "\n" + StripLines("\n" + y));
      { StripKeepsEnds(x); StripLinesEmptyFirst(y); StripLinesOneLine(y); StripKeepsEnds(y); }
      Strip(t);
      { BlocksSplit(x, y); }
      Strip(s);
      { assert s[0] == x[0] && s[|s| - 1] == y[|y| - 1]; StripKeepsEnds(s); }
      s;
    }
  }

  /** `strip_html_tags` on two paragraphs of two words each gives the two
      phrases with an empty line between them. */
  lemma StripParagraphs(a1: string, a2: string, b1: string, b2: string, unescape: string -> string)
    requires Word(a1) && Word(a2) && Word(b1) && Word(b2)
    requires forall s :: '&' !in s ==> unescape(s) == s
    ensures StripHtmlTags(Some(Paragraphs(Phrase(a1, a2), Phrase(b1, b2))), unescape)
         == Blocks(Phrase(a1, a2), Phrase(b1, b2))
  {
    var x := Phrase(a1, a2);
    var y := Phrase(b1, b2);
    PhrasePlain(a1, a2);
    PhrasePlain(b1, b2);
    assert Paragraphs(x, y)[0] == '<';
    ParaUnescaped(x, y, unescape);
    ParaTidy(a1, a2, b1, b2);
  }

  lemma ParaUnescaped(x: string, y: string, unescape: string -> string)
    requires '<' !in x && '<' !in y && '&' !in x && '&' !in y
    requires forall s :: '&' !in s ==> unescape(s) == s
    ensures unescape(RemoveMarkup(Paragraphs(x, y))) == Blocks(x, y)
  {
    ParaMarkup(x, y);
    assert '&' !in Blocks(x, y);
  }

  lemma ParaTidy(a1: string, a2: string, b1: string, b2: string)
    requires Word(a1) && Word(a2) && Word(b1) && Word(b2)
    ensures TidyWhitespace(Blocks(Phrase(a1, a2), Phrase(b1, b2))) == Blocks(Phrase(a1, a2), Phrase(b1, b2))
  {
    var x := Phrase(a1, a2);
    var y := Phrase(b1, b2);
    PhrasePlain(a1, a2);
    PhrasePlain(b1, b2);
    BlocksSpaces(a1, a2, b1, b2);
    BlocksNewlines(x, y);
    BlocksStrips(x, y);
  }

  /** The second documented example: two paragraphs become two blocks of
      text with an empty line between them. */
  lemma StripHtmlTagsParagraphs(unescape: string -> string)
    requires forall s :: '&' !in s ==> unescape(s) == s
    ensures StripHtmlTags(Some("<p>First para</p><p>Second para</p>"), unescape) == "First para\n\nSecond para"
  {
    ExampleWords();
    StripParagraphs("First", "para", "Second", "para", unescape);
    ParagraphsSpelled();
    BlocksSpelled();
  }

  lemma ExampleWords()
    ensures Word("First") && Word("para") && Word("Second")
  {
  }

  lemma PhrasesSpelled()
    ensures Phrase("First", "para") == "First para"
    ensures Phrase("Second", "para") == "Second para"
  {
  }

  /** The second example, spelled out. */
  lemma ParagraphsSpelled()
    ensures "<p>First para</p><p>Second para</p>" == Paragraphs(Phrase("First", "para"), Phrase("Second", "para"))
  {
    PhrasesSpelled();
  }

  lemma BlocksSpelled()
    ensures "First para\n\nSecond para" == Blocks(Phrase("First", "para"), Phrase("Second", "para"))
  {
    PhrasesSpelled();
  }

}

=== FILE: text_utils.dfy ===
/** `strip_html_tags`: turns an article body in HTML into plain text by a
    fixed pipeline of regular-expression rewrites, entity unescaping and
    whitespace tidying. Each rewrite is Python's `re.sub` with one of the
    eight patterns the function uses; `html.unescape` is a parameter. */
module TextUtils {
  import opened Common

  // ---------------------------------------------------------------------
  // The patterns

  /** A pattern letter matched under `re.IGNORECASE`: itself, its ASCII
      capital, and for `i` also the dotted capital I and the dotless small i,
      which Python's case-insensitive matching treats as equivalent. */
  predicate SameLetter(c: char, p: char) {
    || c == p
    || ('a' <= p <= 'z' && c as int == p as int - 32)
    || (p == 'i' && (c == '\U{130}' || c == '\U{131}'))
  }

  /** `s` starts with `p`, ignoring case as above. */
  predicate PrefixI(s: string, p: string)
    decreases |p|
  {
    |p| == 0 || (|s| > 0 && SameLetter(s[0], p[0]) && PrefixI(s[1..], p[1..]))
  }

  lemma {:induction false} PrefixILength(s: string, p: string)
    requires PrefixI(s, p)
    ensures |p| <= |s|
    decreases |p|
  {
    if |p| > 0 {
      PrefixILength(s[1..], p[1..]);
    }
  }

  /** The length of the run of whitespace (`\s*`) at the head of `s`. */
  function SpaceRun(s: string): (n: nat)
    ensures n <= |s|
    decreases |s|
  {
    if |s| > 0 && IsSpace(s[0]) then 1 + SpaceRun(s[1..]) else 0
  }

  /** The length of the run of `c` at the head of `s`. */
  function CharRun(s: string, c: char): (n: nat)
    ensures n <= |s|
    ensures forall i :: 0 <= i < n ==> s[i] == c
    ensures n < |s| ==> s[n] != c
    decreases |s|
  {
    if |s| > 0 && s[0] == c then 1 + CharRun(s[1..], c) else 0
  }

  /** `open\s*close`, case-insensitively: the match length, or 0. */
  function Bracketed(s: string, open: string, close: string): (n: nat)
    ensures n <= |s|
    ensures n > 0 ==> PrefixI(s, open)
  {
    if PrefixI(s, open) then
      PrefixILength(s, open);
      var j := |open| + SpaceRun(s[|open|..]);
      if PrefixI(s[j..], close) then PrefixILength(s[j..], close); j + |close| else 0
    else 0
  }

  /** The eight rewrites, in the order the pipeline applies them. */
  datatype Rewrite =
    | ParaBreak   // </p>\s*<p>     -> two newlines
    | LineBreak   // <br\s*/?>      -> newline
    | DivBreak    // </div>\s*<div> -> two newlines
    | ListOpen    // <li>           -> bullet
    | ListClose   // </li>          -> newline
    | AnyTag      // <[^>]+>        -> nothing
    | Spaces      // ' +'           -> one space
    | Newlines    // \n{3,}         -> two newlines

  /** The replacement text. The bullet is the three characters the source
      file spells there (a UTF-8 bullet misread as Windows-1252), then a
      space. */
  function Replacement(re: Rewrite): string {
    match re
    case ParaBreak => "\n\n"
    case LineBreak => "\n"
    case DivBreak => "\n\n"
    case ListOpen => "\U{E2}\U{20AC}\U{A2} "
    case ListClose => "\n"
    case AnyTag => ""
    case Spaces => " "
    case Newlines => "\n\n"
  }

  /** The character every match starts with. */
  function Lead(re: Rewrite): char {
    match re
    case Spaces => ' '
    case Newlines => '\n'
    case _ => '<'
  }

  /** The length of the match of `re` at the head of `s`, or 0 when there
      is none. None of the patterns matches the empty string. Taking the
      longest whitespace run and the optional slash eagerly gives the
      regular-expression engine's match: in every pattern the item after a
      repeated one cannot match the character the repetition stopped at,
      so backtracking never finds a different match. */
  function MatchLen(re: Rewrite, s: string): (n: nat)
    ensures n <= |s|
    ensures n > 0 ==> s[0] == Lead(re)
  {
    match re
    case ParaBreak => Bracketed(s, "</p>", "<p>")
    case LineBreak =>
      if PrefixI(s, "<br") then
        var j := 3 + SpaceRun(s[3..]);
        if j + 1 < |s| && s[j] == '/' && s[j + 1] == '>' then j + 2
        else if j < |s| && s[j] == '>' then j + 1
        else 0
      else 0
    case DivBreak => Bracketed(s, "</div>", "<div>")
    case ListOpen => if PrefixI(s, "<li>") then 4 else 0
    case ListClose => if PrefixI(s, "</li>") then 5 else 0
    case AnyTag =>
      if |s| >= 2 && s[0] == '<' && s[1] != '>' then
        var close := IndexOf(s[1..], '>');
        if close.Some? then close.value + 2 else 0
      else 0
    case Spaces => CharRun(s, ' ')
    case Newlines => var k := CharRun(s, '\n'); if k >= 3 then k else 0
  }

  /** `re.sub` for a pattern given by its match length at the head of a
      text (0, or a length past the text, when it does not match there):
      scanning from the left, each match is replaced and the scan resumes
      after it; where nothing matches, the character is kept and the scan
      moves one on. */
  function Scan(m: string -> nat, repl: string, s: string): string
    decreases |s|
  {
    if |s| == 0 then ""
    else
      var n := m(s);
      if 0 < n <= |s| then repl + Scan(m, repl, s[n..])
      else [s[0]] + Scan(m, repl, s[1..])
  }

  /** `m` matches at the head of `s`. */
  predicate MatchesAt(m: string -> nat, s: string) {
    0 < m(s) <= |s|
  }

  /** Where the leftmost match in `s` starts, or `|s|` when there is none. */
  function FirstMatch(m: string -> nat, s: string): (i: nat)
    ensures i <= |s|
    ensures i < |s| ==> MatchesAt(m, s[i..])
    decreases |s|
  {
    if |s| == 0 then 0
    else if MatchesAt(m, s) then 0
    else
      var i := FirstMatch(m, s[1..]);
      assert i < |s| - 1 ==> s[1..][i..] == s[i + 1..];
      1 + i
  }

  /** No match starts before the leftmost one. */
  lemma {:induction false} FirstMatchLeftmost(m: string -> nat, s: string, j: nat)
    requires j < FirstMatch(m, s)
    ensures !MatchesAt(m, s[j..])
    decreases j
  {
    if j == 0 {
      assert s[0..] == s;
    } else {
      FirstMatchLeftmost(m, s[1..], j - 1);
      assert s[1..][j - 1..] == s[j..];
    }
  }

  /** What the scan gives from the leftmost match on: the replacement and
      the rewritten remainder, or nothing when there is no match. */
  function AfterFirst(m: string -> nat, repl: string, s: string): string {
    var i := FirstMatch(m, s);
    if i == |s| then "" else repl + Scan(m, repl, s[i + m(s[i..])..])
  }

  /** Python's description of `re.sub`: the text before the leftmost match
      is kept as it is, the match is replaced, and the rest of the text is
      rewritten in the same way. */
  lemma ScanLeftmost(m: string -> nat, repl: string, s: string)
    ensures Scan(m, repl, s) == s[..FirstMatch(m, s)] + AfterFirst(m, repl, s)
  {
    var i := FirstMatch(m, s);
    ScanKeeps(m, repl, s, i);
    if i < |s| {
      var n := m(s[i..]);
      assert s[i..][n..] == s[i + n..];
    } else {
      assert s[i..] == [];
    }
  }

  /** Up to the leftmost match the scan copies the text unchanged. */
  lemma {:induction false} ScanKeeps(m: string -> nat, repl: string, s: string, j: nat)
    requires j <= FirstMatch(m, s)
    ensures Scan(m, repl, s) == s[..j] + Scan(m, repl, s[j..])
    decreases j
  {
    if j == 0 {
      assert s[..0] == [] && s[0..] == s;
    } else {
      ScanKeeps(m, repl, s, j - 1);
      FirstMatchLeftmost(m, s, j - 1);
      var u := s[j - 1..];
      assert u[1..] == s[j..];
      assert Scan(m, repl, u) == [s[j - 1]] + Scan(m, repl, s[j..]);
      assert s[..j - 1] + [s[j - 1]] == s[..j];
      assert s[..j - 1] + ([s[j - 1]] + Scan(m, repl, s[j..])) == s[..j] + Scan(m, repl, s[j..]);
    }
  }

  /** Text with no match anywhere is left as it is. */
  lemma ScanNoMatch(m: string -> nat, repl: string, s: string)
    requires FirstMatch(m, s) == |s|
    ensures Scan(m, repl, s) == s
  {
    ScanLeftmost(m, repl, s);
  }

  function Matcher(re: Rewrite): string -> nat {
    s => MatchLen(re, s)
  }

  /** `re.sub(pattern, replacement, s)` for one of the eight rewrites. */
  function Sub(re: Rewrite, s: string): string {
    Scan(Matcher(re), Replacement(re), s)
  }

  /** A character absent from the text and from the replacement is absent
      from the result. */
  lemma {:induction false} SubAvoids(re: Rewrite, s: string, c: char)
    requires c !in s && c !in Replacement(re)
    ensures c !in Sub(re, s)
    decreases |s|
  {
    if |s| > 0 {
      var n := MatchLen(re, s);
      if n > 0 {
        SubAvoids(re, s[n..], c);
      } else {
        SubAvoids(re, s[1..], c);
      }
    }
  }

  /** Text without the character every match starts with is left as it
      is. */
  lemma {:induction false} SubWithoutLead(re: Rewrite, s: string)
    requires Lead(re) !in s
    ensures Sub(re, s) == s
    decreases |s|
  {
    if |s| > 0 {
      SubWithoutLead(re, s[1..]);
      assert [s[0]] + s[1..] == s;
    }
  }

  /** One step of the scan at a match: the replacement, then the scan of
      what follows the match. */
  lemma SubAtMatch(re: Rewrite, m: string, rest: string)
    requires 0 < MatchLen(re, m + rest) == |m|
    ensures Sub(re, m + rest) == Replacement(re) + Sub(re, rest)
  {
    assert (m + rest)[|m|..] == rest;
  }

  lemma {:induction false} PrefixIAppend(x: string, p: string, rest: string)
    requires |x| == |p| && PrefixI(x, p)
    ensures PrefixI(x + rest, p)
    decreases |p|
  {
    if |p| > 0 {
      PrefixIAppend(x[1..], p[1..], rest);
      assert (x + rest)[1..] == x[1..] + rest;
    }
  }

  lemma {:induction false} SpaceRunBlank(ws: string, t: string)
    requires IsBlank(ws) && |t| > 0 && !IsSpace(t[0])
    ensures SpaceRun(ws + t) == |ws|
    decreases |ws|
  {
    if |ws| == 0 {
      assert ws + t == t;
    } else {
      assert (ws + t)[1..] == ws[1..] + t;
      SpaceRunBlank(ws[1..], t);
    }
  }

  /** `open\s*close` matches a spelling of `open`, any whitespace, and a
      spelling of `close`, whatever follows. */
  lemma BracketedMatch(open: string, close: string, x: string, ws: string, y: string, rest: string)
    requires |x| == |open| && PrefixI(x, open)
    requires |y| == |close| > 0 && PrefixI(y, close) && !IsSpace(y[0])
    requires IsBlank(ws)
    ensures Bracketed(x + ws + y + rest, open, close) == |x| + |ws| + |y|
  {
    var u := y + rest;
    var t := ws + u;
    var s := x + t;
    ConcatAssoc(x, ws, y);
    ConcatAssoc(x + ws, y, rest);
    ConcatAssoc(x, ws, u);
    ConcatAssoc(ws, y, rest);
    PrefixIAppend(x, open, t);
    DropPrefix(x, t);
    SpaceRunBlank(ws, u);
    DropPrefix(x + ws, u);
    PrefixIAppend(y, close, rest);
  }

  /** Paragraph and block breaks: a closing tag, blanks and an opening tag,
      in any letter case, become two newlines. */
  lemma ParaBreakRewrite(x: string, ws: string, y: string, rest: string)
    requires |x| == 4 && PrefixI(x, "</p>") && |y| == 3 && PrefixI(y, "<p>") && IsBlank(ws)
    ensures Sub(ParaBreak, x + ws + y + rest) == "\n\n" + Sub(ParaBreak, rest)
  {
    BracketedMatch("</p>", "<p>", x, ws, y, rest);
    assert x + ws + y + rest == (x + ws + y) + rest;
    SubAtMatch(ParaBreak, x + ws + y, rest);
  }

  lemma DivBreakRewrite(x: string, ws: string, y: string, rest: string)
    requires |x| == 6 && PrefixI(x, "</div>") && |y| == 5 && PrefixI(y, "<div>") && IsBlank(ws)
    ensures Sub(DivBreak, x + ws + y + rest) == "\n\n" + Sub(DivBreak, rest)
  {
    BracketedMatch("</div>", "<div>", x, ws, y, rest);
    assert x + ws + y + rest == (x + ws + y) + rest;
    SubAtMatch(DivBreak, x + ws + y, rest);
  }

  /** Line breaks: `<br`, in any letter case, blanks, an optional slash and
      `>` become one newline. */
  lemma LineBreakRewrite(x: string, ws: string, slash: bool, rest: string)
    requires |x| == 3 && PrefixI(x, "<br") && IsBlank(ws)
    ensures var tail := if slash then "/>" else ">";
      Sub(LineBreak, x + ws + tail + rest) == "\n" + Sub(LineBreak, rest)
  {
    var tail := if slash then "/>" else ">";
    var m := x + ws + tail;
    var s := m + rest;
    assert s == x + (ws + tail + rest);
    PrefixIAppend(x, "<br", ws + tail + rest);
    assert s[3..] == ws + (tail + rest);
    SpaceRunBlank(ws, tail + rest);
    var j := 3 + |ws|;
    assert s[j] == tail[0];
    if slash {
      assert s[j + 1] == '>';
    }
    assert MatchLen(LineBreak, s) == |m|;
    SubAtMatch(LineBreak, m, rest);
  }

  // ---------------------------------------------------------------------
  // The pipeline

  /** The rewrites before unescaping: paragraph, line and block breaks,
      list items, then every remaining tag. */
  function RemoveMarkup(s: string): string {
    var s1 := Sub(ParaBreak, s);
    var s2 := Sub(LineBreak, s1);
    var s3 := Sub(DivBreak, s2);
    var s4 := Sub(ListOpen, s3);
    var s5 := Sub(ListClose, s4);
    Sub(AnyTag, s5)
  }

  /** Strips every line, one line at a time. */
  function StripLines(s: string): string
    decreases |s|
  {
    match IndexOf(s, '\n')
    case None => Strip(s)
    case Some(i) => Strip(s[..i]) + "\n" + StripLines(s[i + 1..])
  }

  function StripEach(lines: seq<string>): (r: seq<string>)
    ensures |r| == |lines|
    decreases |lines|
  {
    if |lines| == 0 then [] else [Strip(lines[0])] + StripEach(lines[1..])
  }

  /** `StripLines` is `'\n'.join(line.strip() for line in s.split('\n'))`. */
  lemma {:induction false} StripLinesJoin(s: string)
    ensures StripLines(s) == JoinWith("\n", StripEach(Split(s, '\n')))
    decreases |s|
  {
    match IndexOf(s, '\n')
    case None =>
      assert Split(s, '\n') == [s];
      assert StripEach([s]) == [Strip(s)] by {
        assert [s][1..] == [];
      }
    case Some(i) =>
      var rest := Split(s[i + 1..], '\n');
      var e := StripEach(rest);
      StripLinesJoin(s[i + 1..]);
      assert Split(s, '\n') == [s[..i]] + rest;
      assert StripEach([s[..i]] + rest) == [Strip(s[..i])] + e by {
        StripEachCons(s[..i], rest);
      }
      JoinCons("\n", Strip(s[..i]), e);
  }

  lemma StripEachCons(x: string, rest: seq<string>)
    ensures StripEach([x] + rest) == [Strip(x)] + StripEach(rest)
  {
    assert ([x] + rest)[1..] == rest;
  }

  /** The rewrites after unescaping: runs of spaces to one, runs of three or
      more newlines to two, every line stripped, then the whole text. */
  function TidyWhitespace(s: string): string {
    Strip(StripLines(Sub(Newlines, Sub(Spaces, s))))
  }

  /** `strip_html_tags`, with `unescape` standing for `html.unescape`. */
  function StripHtmlTags(html: Option<string>, unescape: string -> string): string {
    if html.None? || html.value == "" then ""
    else TidyWhitespace(unescape(RemoveMarkup(html.value)))
  }

  // ---------------------------------------------------------------------
  // Properties of the result

  /** No two ASCII spaces in a row. */
  predicate NoDoubleSpace(s: string) {
    forall k :: 0 <= k < |s| - 1 ==> !(s[k] == ' ' && s[k + 1] == ' ')
  }

  /** Neither end of `s` is whitespace. */
  predicate Trimmed(s: string) {
    s == [] || (!IsSpace(s[0]) && !IsSpace(s[|s| - 1]))
  }

  /** No tag-shaped span `<[^>]+>`: every `<` is followed at once by `>`,
      or by no `>` at all. */
  predicate NoTag(s: string) {
    forall i :: 0 <= i < |s| && s[i] == '<' ==> (i + 1 < |s| && s[i + 1] == '>') || NoCloseAfter(s, i)
  }

  /** No `>` follows position `i`. */
  predicate NoCloseAfter(s: string, i: nat) {
    forall j :: i < j < |s| ==> s[j] != '>'
  }

  /** Every whitespace character other than a newline has a neighbour on
      each side within its line: no line begins or ends with whitespace. */
  predicate LinesClean(s: string) {
    forall k :: 0 <= k < |s| && s[k] != '\n' && IsSpace(s[k]) ==>
      0 < k && s[k - 1] != '\n' && k + 1 < |s| && s[k + 1] != '\n'
  }

  /** The text is trimmed, has no doubled spaces, and no line of it begins
      or ends with whitespace; empty or missing input gives empty text. This
      holds whatever `unescape` does. */
  lemma CleanTextShape(html: Option<string>, unescape: string -> string)
    ensures html.None? || html.value == "" ==> StripHtmlTags(html, unescape) == ""
    ensures var r := StripHtmlTags(html, unescape);
      && Trimmed(r)
      && NoDoubleSpace(r)
      && forall k :: 0 <= k < |Split(r, '\n')| ==> Trimmed(Split(r, '\n')[k])
  {
    if html.Some? && html.value != "" {
      var s := unescape(RemoveMarkup(html.value));
      var a := Sub(Spaces, s);
      var b := Sub(Newlines, a);
      var c := StripLines(b);
      var r := Strip(c);
      SpacesCollapsed(s);
      NewlinesKeepNoDoubleSpace(a);
      StripLinesKeepsNoDoubleSpace(b);
      StripLinesClean(b);
      StripKeeps(c);
      StripKeepsNoDoubleSpace(c);
      LinesCleanSplit(r);
    } else {
      assert Split("", '\n') == [""];
    }
  }

  /** When the input has no `&` (so unescaping changes nothing), no
      tag-shaped span is left. */
  lemma NoTagSurvives(html: Option<string>, unescape: string -> string)
    requires html.Some? ==> '&' !in html.value
    requires forall s :: '&' !in s ==> unescape(s) == s
    ensures NoTag(StripHtmlTags(html, unescape))
  {
    if html.Some? && html.value != "" {
      var s := html.value;
      var m := RemoveMarkup(s);
      MarkupAvoidsAmp(s);
      AnyTagLeavesNoTag(Sub(ListClose, Sub(ListOpen, Sub(DivBreak, Sub(LineBreak, Sub(ParaBreak, s))))));
      assert unescape(m) == m;
      var a := Sub(Spaces, m);
      var b := Sub(Newlines, a);
      var c := StripLines(b);
      PrunedSub(Spaces, m);
      PrunedKeepsNoTag(m, a);
      PrunedSub(Newlines, a);
      PrunedKeepsNoTag(a, b);
      PrunedStripLines(b);
      PrunedKeepsNoTag(b, c);
      PrunedStrip(c);
      PrunedKeepsNoTag(c, Strip(c));
    }
  }

  lemma MarkupAvoidsAmp(s: string)
    requires '&' !in s
    ensures '&' !in RemoveMarkup(s)
  {
    var s1 := Sub(ParaBreak, s);
    SubAvoids(ParaBreak, s, '&');
    var s2 := Sub(LineBreak, s1);
    SubAvoids(LineBreak, s1, '&');
    var s3 := Sub(DivBreak, s2);
    SubAvoids(DivBreak, s2, '&');
    var s4 := Sub(ListOpen, s3);
    SubAvoids(ListOpen, s3, '&');
    var s5 := Sub(ListClose, s4);
    SubAvoids(ListClose, s4, '&');
    SubAvoids(AnyTag, s5, '&');
  }

  // ---------------------------------------------------------------------
  // Tag removal

  lemma NoTagCons(c: char, t: string)
    requires NoTag(t)
    requires c == '<' ==> (|t| > 0 && t[0] == '>') || '>' !in t
    ensures NoTag([c] + t)
  {
    var s := [c] + t;
    forall i | 0 <= i < |s| && s[i] == '<'
      ensures (i + 1 < |s| && s[i + 1] == '>') || NoCloseAfter(s, i)
    {
      if i > 0 {
        assert s[i] == t[i - 1];
        if !(i < |t| && t[i] == '>') {
          assert forall j :: i - 1 < j < |t| ==> t[j] != '>';
        }
      } else if '>' !in t {
        assert forall j :: 0 < j < |s| ==> s[j] == t[j - 1];
      }
    }
  }

  /** After `<[^>]+>` is removed everywhere, none is left. */
  lemma {:induction false} AnyTagLeavesNoTag(s: string)
    ensures NoTag(Sub(AnyTag, s))
    decreases |s|
  {
    if |s| > 0 {
      var n := MatchLen(AnyTag, s);
      if n > 0 {
        AnyTagLeavesNoTag(s[n..]);
        assert Sub(AnyTag, s) == Sub(AnyTag, s[n..]);
      } else {
        var t := Sub(AnyTag, s[1..]);
        AnyTagLeavesNoTag(s[1..]);
        if s[0] == '<' {
          if |s| >= 2 && s[1] == '>' {
            assert MatchLen(AnyTag, s[1..]) == 0;
            assert t == [s[1]] + Sub(AnyTag, s[2..]) by {
              assert s[1..][1..] == s[2..];
            }
          } else if |s| >= 2 {
            assert IndexOf(s[1..], '>').None?;
            SubAvoids(AnyTag, s[1..], '>');
          }
        }
        NoTagCons(s[0], t);
      }
    }
  }

  // ---------------------------------------------------------------------
  // Deleting characters other than angle brackets

  /** An angle bracket: the only characters the tidying steps never delete. */
  predicate Angle(c: char) {
    c == '<' || c == '>'
  }

  /** `t` is `s` with some characters other than angle brackets deleted. */
  predicate Pruned(s: string, t: string)
    decreases |s|
  {
    if |s| == 0 then |t| == 0
    else
      || (|t| > 0 && t[0] == s[0] && Pruned(s[1..], t[1..]))
      || (!Angle(s[0]) && Pruned(s[1..], t))
  }

  lemma {:induction false} PrunedRefl(s: string)
    ensures Pruned(s, s)
    decreases |s|
  {
    if |s| > 0 {
      PrunedRefl(s[1..]);
    }
  }

  lemma {:induction false} PrunedBlank(w: string)
    requires IsBlank(w)
    ensures Pruned(w, "")
    decreases |w|
  {
    if |w| > 0 {
      PrunedBlank(w[1..]);
    }
  }

  lemma {:induction false} PrunedAppend(s1: string, t1: string, s2: string, t2: string)
    requires Pruned(s1, t1) && Pruned(s2, t2)
    ensures Pruned(s1 + s2, t1 + t2)
    decreases |s1|
  {
    if |s1| == 0 {
      assert s1 + s2 == s2 && t1 + t2 == t2;
    } else {
      assert (s1 + s2)[1..] == s1[1..] + s2;
      if |t1| > 0 && t1[0] == s1[0] && Pruned(s1[1..], t1[1..]) {
        PrunedAppend(s1[1..], t1[1..], s2, t2);
        assert (t1 + t2)[1..] == t1[1..] + t2;
      } else {
        PrunedAppend(s1[1..], t1, s2, t2);
      }
    }
  }

  /** Pruning keeps a leading angle bracket. */
  lemma PrunedHead(s: string, t: string)
    requires Pruned(s, t) && |s| > 0 && Angle(s[0])
    ensures |t| > 0 && t[0] == s[0]
  {
  }

  lemma {:induction false} PrunedAvoids(s: string, t: string, c: char)
    requires Pruned(s, t) && c !in s
    ensures c !in t
    decreases |s|
  {
    if |s| > 0 {
      if |t| > 0 && t[0] == s[0] && Pruned(s[1..], t[1..]) {
        PrunedAvoids(s[1..], t[1..], c);
        assert t == [t[0]] + t[1..];
      } else {
        PrunedAvoids(s[1..], t, c);
      }
    }
  }

  lemma NoTagTail(s: string)
    requires |s| > 0 && NoTag(s)
    ensures NoTag(s[1..])
  {
    var u := s[1..];
    forall i | 0 <= i < |u| && u[i] == '<'
      ensures (i + 1 < |u| && u[i + 1] == '>') || NoCloseAfter(u, i)
    {
      assert s[i + 1] == '<';
      if i + 2 < |s| && s[i + 2] == '>' {
        assert u[i + 1] == s[i + 2];
      } else {
        assert NoCloseAfter(s, i + 1);
        forall j | i < j < |u|
          ensures u[j] != '>'
        {
          assert u[j] == s[j + 1];
        }
        assert NoCloseAfter(u, i);
      }
    }
    assert NoTag(u);
  }

  lemma {:induction false} PrunedKeepsNoTag(s: string, t: string)
    requires Pruned(s, t) && NoTag(s)
    ensures NoTag(t)
    decreases |s|
  {
    if |s| > 0 {
      NoTagTail(s);
      if |t| > 0 && t[0] == s[0] && Pruned(s[1..], t[1..]) {
        PrunedKeepsNoTag(s[1..], t[1..]);
        if s[0] == '<' {
          if |s| > 1 && s[1] == '>' {
            PrunedHead(s[1..], t[1..]);
          } else {
            assert '>' !in s[1..] by {
              assert forall j :: 0 < j < |s| ==> s[j] != '>';
            }
            PrunedAvoids(s[1..], t[1..], '>');
          }
        }
        NoTagCons(t[0], t[1..]);
        assert t == [t[0]] + t[1..];
      } else {
        PrunedKeepsNoTag(s[1..], t);
      }
    }
  }

  /** Collapsing space runs and newline runs only deletes characters. */
  lemma {:induction false} PrunedSub(re: Rewrite, s: string)
    requires re == Spaces || re == Newlines
    ensures Pruned(s, Sub(re, s))
    decreases |s|
  {
    if |s| > 0 {
      var n := MatchLen(re, s);
      if n > 0 {
        PrunedSub(re, s[n..]);
        PrunedRun(re, s, n);
        PrunedAppend(s[..n], Replacement(re), s[n..], Sub(re, s[n..]));
        assert s[..n] + s[n..] == s;
      } else {
        PrunedSub(re, s[1..]);
        PrunedRefl([s[0]]);
        PrunedAppend([s[0]], [s[0]], s[1..], Sub(re, s[1..]));
        assert [s[0]] + s[1..] == s;
      }
    }
  }

  /** A collapsed run is pruned to its replacement. */
  lemma PrunedRun(re: Rewrite, s: string, n: nat)
    requires re == Spaces || re == Newlines
    requires 0 < n == MatchLen(re, s)
    ensures Pruned(s[..n], Replacement(re))
  {
    var r := Replacement(re);
    assert s[..|r|] == r;
    assert IsBlank(s[|r|..n]);
    PrunedBlank(s[|r|..n]);
    PrunedRefl(r);
    PrunedAppend(r, r, s[|r|..n], "");
    assert s[..|r|] + s[|r|..n] == s[..n];
    assert r + "" == r;
  }

  /** Python's `strip` cuts out a slice. */
  lemma StripSlice(s: string)
    ensures var a := |s| - |LStrip(s)|;
      a + |Strip(s)| <= |s| && Strip(s) == s[a..a + |Strip(s)|]
  {
    var l := LStrip(s);
    var r := RStrip(l);
    var a := |s| - |l|;
    assert l == s[a..];
    assert r == l[..|r|];
  }

  lemma StripTrimmed(s: string)
    ensures Trimmed(Strip(s))
  {
    var l := LStrip(s);
    var r := RStrip(l);
    if |r| > 0 {
      assert r[0] == l[0];
      assert !IsSpace(l[0]);
      assert !IsSpace(r[|r| - 1]);
    }
  }

  lemma PrunedStrip(s: string)
    ensures Pruned(s, Strip(s))
  {
    var l := LStrip(s);
    PrunedLStrip(s);
    PrunedRStrip(l);
    PrunedTrans(s, l, RStrip(l));
  }

  lemma {:induction false} PrunedLStrip(s: string)
    ensures Pruned(s, LStrip(s))
    decreases |s|
  {
    if |s| > 0 && IsSpace(s[0]) {
      PrunedLStrip(s[1..]);
    } else {
      PrunedRefl(s);
    }
  }

  lemma {:induction false} PrunedRStrip(s: string)
    ensures Pruned(s, RStrip(s))
    decreases |s|
  {
    if |s| > 0 && IsSpace(s[|s| - 1]) {
      var init := s[..|s| - 1];
      PrunedRStrip(init);
      PrunedBlank([s[|s| - 1]]);
      PrunedAppend(init, RStrip(init), [s[|s| - 1]], "");
      assert init + [s[|s| - 1]] == s;
      assert RStrip(init) + "" == RStrip(s);
    } else {
      PrunedRefl(s);
    }
  }

  lemma {:induction false} PrunedTrans(s: string, t: string, u: string)
    requires Pruned(s, t) && Pruned(t, u)
    ensures Pruned(s, u)
    decreases |s|
  {
    if |s| > 0 {
      if |t| > 0 && t[0] == s[0] && Pruned(s[1..], t[1..]) {
        if |u| > 0 && u[0] == t[0] && Pruned(t[1..], u[1..]) {
          PrunedTrans(s[1..], t[1..], u[1..]);
        } else {
          PrunedTrans(s[1..], t[1..], u);
        }
      } else {
        PrunedTrans(s[1..], t, u);
      }
    }
  }

  // ---------------------------------------------------------------------
  // Stripping every line

  lemma {:induction false} PrunedStripLines(s: string)
    ensures Pruned(s, StripLines(s))
    decreases |s|
  {
    match IndexOf(s, '\n')
    case None =>
      PrunedStrip(s);
    case Some(i) =>
      var line, rest := s[..i], s[i + 1..];
      var a, b := Strip(line), StripLines(rest);
      PrunedStrip(line);
      PrunedStripLines(rest);
      PrunedRefl("\n");
      PrunedAppend(line, a, "\n", "\n");
      PrunedAppend(line + "\n", a + "\n", rest, b);
      CutAt(s, i);
  }

  lemma {:induction false} StripLinesAvoids(s: string, c: char)
    requires c !in s && c != '\n'
    ensures c !in StripLines(s)
    decreases |s|
  {
    PrunedStripLines(s);
    PrunedAvoids(s, StripLines(s), c);
  }

  /** Each line of the result is trimmed, in the character-level form. */
  lemma {:induction false} StripLinesClean(s: string)
    ensures LinesClean(StripLines(s))
    decreases |s|
  {
    match IndexOf(s, '\n')
    case None =>
      StripTrimmed(s);
      PrunedStrip(s);
      PrunedAvoids(s, Strip(s), '\n');
      LinesCleanLine(Strip(s));
    case Some(i) =>
      var line := s[..i];
      var a := Strip(line);
      StripTrimmed(line);
      PrunedStrip(line);
      PrunedAvoids(line, a, '\n');
      StripLinesClean(s[i + 1..]);
      LinesCleanJoin(a, StripLines(s[i + 1..]));
  }

  /** A single trimmed line is clean. */
  lemma LinesCleanLine(a: string)
    requires '\n' !in a && Trimmed(a)
    ensures LinesClean(a)
  {
  }

  lemma LinesCleanJoin(a: string, b: string)
    requires '\n' !in a && Trimmed(a) && LinesClean(b)
    ensures LinesClean(a + "\n" + b)
  {
    var s := a + "\n" + b;
    forall k | 0 <= k < |s| && s[k] != '\n' && IsSpace(s[k])
      ensures 0 < k && s[k - 1] != '\n' && k + 1 < |s| && s[k + 1] != '\n'
    {
      if k < |a| {
        assert s[k] == a[k];
        assert 0 < k < |a| - 1;
        assert s[k - 1] == a[k - 1] && s[k + 1] == a[k + 1];
      } else {
        assert k > |a|;
        assert s[k] == b[k - |a| - 1];
        if k - 1 > |a| { assert s[k - 1] == b[k - |a| - 2]; }
        assert s[k + 1] == b[k - |a|];
      }
    }
  }

  /** Trimming the whole text keeps lines clean and leaves no whitespace at
      either end. */
  lemma StripKeeps(s: string)
    ensures LinesClean(s) ==> LinesClean(Strip(s))
    ensures Trimmed(Strip(s))
  {
    StripSlice(s);
    StripTrimmed(s);
    var a := |s| - |LStrip(s)|;
    var r := Strip(s);
    if LinesClean(s) {
      forall k | 0 <= k < |r| && r[k] != '\n' && IsSpace(r[k])
        ensures 0 < k && r[k - 1] != '\n' && k + 1 < |r| && r[k + 1] != '\n'
      {
        assert r[k] == s[a + k];
        assert s[a + k - 1] != '\n' && s[a + k + 1] != '\n';
        assert r[k - 1] == s[a + k - 1] && r[k + 1] == s[a + k + 1];
      }
    }
  }

  /** Trimming keeps text free of doubled spaces. */
  lemma StripKeepsNoDoubleSpace(s: string)
    requires NoDoubleSpace(s)
    ensures NoDoubleSpace(Strip(s))
  {
    StripSlice(s);
    var a := |s| - |LStrip(s)|;
    NoDoubleSpaceSlice(s, a, a + |Strip(s)|);
  }

  /** Clean text, split at newlines, gives trimmed lines. */
  lemma {:induction false} LinesCleanSplit(s: string)
    requires LinesClean(s)
    ensures forall k :: 0 <= k < |Split(s, '\n')| ==> Trimmed(Split(s, '\n')[k])
    decreases |s|
  {
    match IndexOf(s, '\n')
    case None =>
      assert Split(s, '\n') == [s];
      LinesCleanTrimmed(s);
    case Some(i) =>
      LinesCleanParts(s, i);
      LinesCleanSplit(s[i + 1..]);
      var r, rest := Split(s, '\n'), Split(s[i + 1..], '\n');
      assert r == [s[..i]] + rest;
      forall k | 0 <= k < |r|
        ensures Trimmed(r[k])
      {
        if k > 0 {
          assert r[k] == rest[k - 1];
        }
      }
  }

  /** Cutting clean text at a newline gives a trimmed line and clean text. */
  lemma LinesCleanParts(s: string, i: nat)
    requires i < |s| && s[i] == '\n' && '\n' !in s[..i] && LinesClean(s)
    ensures Trimmed(s[..i]) && LinesClean(s[i + 1..])
  {
    var line := s[..i];
    var rest := s[i + 1..];
    forall k | 0 <= k < |rest| && rest[k] != '\n' && IsSpace(rest[k])
      ensures 0 < k && rest[k - 1] != '\n' && k + 1 < |rest| && rest[k + 1] != '\n'
    {
      assert s[i + 1 + k] == rest[k];
    }
    if |line| > 0 {
      assert line[0] == s[0] && line[|line| - 1] == s[i - 1];
    }
  }

  lemma LinesCleanTrimmed(s: string)
    requires LinesClean(s) && '\n' !in s
    ensures Trimmed(s)
  {
  }

  // ---------------------------------------------------------------------
  // Doubled spaces

  lemma NoDoubleSpaceCons(c: char, t: string)
    requires NoDoubleSpace(t)
    requires c == ' ' ==> t == [] || t[0] != ' '
    ensures NoDoubleSpace([c] + t)
  {
    var s := [c] + t;
    assert forall k :: 1 <= k < |s| ==> s[k] == t[k - 1];
  }

  /** Sub keeps a head character that starts no match. */
  lemma SubHead(re: Rewrite, s: string)
    requires |s| > 0 && s[0] != Lead(re)
    ensures |Sub(re, s)| > 0 && Sub(re, s)[0] == s[0]
  {
  }

  /** After collapsing, no space run is longer than one. */
  lemma {:induction false} SpacesCollapsed(s: string)
    ensures NoDoubleSpace(Sub(Spaces, s))
    decreases |s|
  {
    if |s| > 0 {
      var n := MatchLen(Spaces, s);
      if n > 0 {
        SpacesCollapsed(s[n..]);
        if n < |s| {
          SubHead(Spaces, s[n..]);
        }
        NoDoubleSpaceCons(' ', Sub(Spaces, s[n..]));
      } else {
        SpacesCollapsed(s[1..]);
        NoDoubleSpaceCons(s[0], Sub(Spaces, s[1..]));
      }
    }
  }

  lemma {:induction false} NewlinesKeepNoDoubleSpace(s: string)
    requires NoDoubleSpace(s)
    ensures NoDoubleSpace(Sub(Newlines, s))
    decreases |s|
  {
    if |s| > 0 {
      var n := MatchLen(Newlines, s);
      if n > 0 {
        assert NoDoubleSpace(s[n..]) by {
          assert forall k :: 0 <= k < |s[n..]| ==> s[n..][k] == s[n + k];
        }
        NewlinesKeepNoDoubleSpace(s[n..]);
        var t := Sub(Newlines, s[n..]);
        NoDoubleSpaceCons('\n', t);
        NoDoubleSpaceCons('\n', "\n" + t);
        assert "\n\n" + t == ['\n'] + (['\n'] + t);
      } else {
        assert NoDoubleSpace(s[1..]) by {
          assert forall k :: 0 <= k < |s[1..]| ==> s[1..][k] == s[1 + k];
        }
        NewlinesKeepNoDoubleSpace(s[1..]);
        var t := Sub(Newlines, s[1..]);
        if |s| > 1 && s[0] == ' ' {
          if s[1] != '\n' {
            SubHead(Newlines, s[1..]);
          } else {
            NewlineHead(s[1..]);
          }
        }
        NoDoubleSpaceCons(s[0], t);
      }
    }
  }

  lemma NewlineHead(s: string)
    requires |s| > 0 && s[0] == '\n'
    ensures |Sub(Newlines, s)| > 0 && Sub(Newlines, s)[0] == '\n'
  {
  }

  lemma NoDoubleSpaceSlice(s: string, a: nat, b: nat)
    requires a <= b <= |s| && NoDoubleSpace(s)
    ensures NoDoubleSpace(s[a..b])
  {
    assert forall k :: 0 <= k < b - a ==> s[a..b][k] == s[a + k];
  }

  lemma {:induction false} StripLinesKeepsNoDoubleSpace(s: string)
    requires NoDoubleSpace(s)
    ensures NoDoubleSpace(StripLines(s))
    decreases |s|
  {
    match IndexOf(s, '\n')
    case None =>
      StripKeepsNoDoubleSpace(s);
    case Some(i) =>
      NoDoubleSpaceParts(s, i);
      StripLinesKeepsNoDoubleSpace(s[i + 1..]);
      StripLinesStep(s, i);
  }

  lemma NoDoubleSpaceParts(s: string, i: nat)
    requires i < |s| && NoDoubleSpace(s)
    ensures NoDoubleSpace(Strip(s[..i])) && NoDoubleSpace(s[i + 1..])
  {
    NoDoubleSpaceSlice(s, 0, i);
    NoDoubleSpaceSlice(s, i + 1, |s|);
    assert s[0..i] == s[..i];
    assert s[i + 1..|s|] == s[i + 1..];
    StripKeepsNoDoubleSpace(s[..i]);
  }

  lemma StripLinesStep(s: string, i: nat)
    requires IndexOf(s, '\n') == Some(i)
    requires NoDoubleSpace(Strip(s[..i])) && NoDoubleSpace(StripLines(s[i + 1..]))
    ensures NoDoubleSpace(StripLines(s))
  {
    NoDoubleSpaceJoin(Strip(s[..i]), StripLines(s[i + 1..]));
  }

  lemma NoDoubleSpaceJoin(a: string, b: string)
    requires NoDoubleSpace(a) && NoDoubleSpace(b)
    ensures NoDoubleSpace(a + "\n" + b)
  {
    var s := a + "\n" + b;
    assert forall k :: 0 <= k < |a| ==> s[k] == a[k];
    assert forall k :: |a| < k < |s| ==> s[k] == b[k - |a| - 1];
  }
}

=== FILE: utf8.dfy ===
/** UTF-8, the encoding the file writer applies to every line before it
    appends it (`line.encode("utf-8")`) and whose byte count drives the
    size-based rotation. Dafny's `char` is a Unicode scalar value, so, like
    Python's encoder on text without lone surrogates, encoding cannot fail. */
module Utf8 {
  import opened Common

  newtype byte = b: int | 0 <= b < 256

  function EncodeChar(c: char): (r: seq<byte>)
    ensures 1 <= |r| <= 4
    ensures (c as int < 0x80) <==> |r| == 1
    ensures |r| == 1 ==> r[0] as int == c as int
  {
    var cp := c as int;
    if cp < 0x80 then
      [cp as byte]
    else if cp < 0x800 then
      [(0xC0 + cp / 64) as byte, (0x80 + cp % 64) as byte]
    else if cp < 0x10000 then
      [(0xE0 + cp / 4096) as byte, (0x80 + (cp / 64) % 64) as byte, (0x80 + cp % 64) as byte]
    else
      [(0xF0 + cp / 262144) as byte, (0x80 + (cp / 4096) % 64) as byte,
       (0x80 + (cp / 64) % 64) as byte, (0x80 + cp % 64) as byte]
  }

  function Encode(s: string): (r: seq<byte>)
    ensures |s| <= |r| <= 4 * |s|
  {
    if |s| == 0 then [] else EncodeChar(s[0]) + Encode(s[1..])
  }

  predicate IsContinuation(b: byte) {
    0x80 <= b < 0xC0
  }

  /** Decodes one well-formed UTF-8 sequence at the head of `bs`, returning
      the character and the number of bytes it took; overlong forms,
      surrogates and values past U+10FFFF are rejected. */
  function DecodeChar(bs: seq<byte>): (r: Option<(char, nat)>)
    ensures r.Some? ==> 1 <= r.value.1 <= |bs|
  {
    if |bs| == 0 then None
    else
      var b0 := bs[0] as int;
      if b0 < 0x80 then
        Some((b0 as char, 1))
      else if 0xC0 <= b0 < 0xE0 && |bs| >= 2 && IsContinuation(bs[1]) then
        var cp := (b0 - 0xC0) * 64 + (bs[1] as int - 0x80);
        if cp >= 0x80 then Some((cp as char, 2)) else None
      else if 0xE0 <= b0 < 0xF0 && |bs| >= 3 && IsContinuation(bs[1]) && IsContinuation(bs[2]) then
        var cp := (b0 - 0xE0) * 4096 + (bs[1] as int - 0x80) * 64 + (bs[2] as int - 0x80);
        if cp >= 0x800 && !(0xD800 <= cp < 0xE000) then Some((cp as char, 3)) else None
      else if 0xF0 <= b0 < 0xF8 && |bs| >= 4 && IsContinuation(bs[1]) && IsContinuation(bs[2])
              && IsContinuation(bs[3]) then
        var cp := (b0 - 0xF0) * 262144 + (bs[1] as int - 0x80) * 4096
                  + (bs[2] as int - 0x80) * 64 + (bs[3] as int - 0x80);
        if 0x10000 <= cp < 0x110000 then Some((cp as char, 4)) else None
      else None
  }

  /** Decodes a whole byte string, failing on any malformed sequence. */
  function Decode(bs: seq<byte>): Option<string>
    decreases |bs|
  {
    if |bs| == 0 then Some("")
    else match DecodeChar(bs)
      case None => None
      case Some((c, n)) =>
        match Decode(bs[n..])
        case None => None
        case Some(rest) => Some([c] + rest)
  }

  lemma DecodeEncodeChar(c: char, rest: seq<byte>)
    ensures DecodeChar(EncodeChar(c) + rest) == Some((c, |EncodeChar(c)|))
  {
    var cp := c as int;
    if cp < 0x80 {
    } else if cp < 0x800 {
      DecodeTwo(c, rest);
    } else if cp < 0x10000 {
      DecodeThree(c, rest);
    } else {
      DecodeFour(c, rest);
    }
  }

  lemma DecodeTwo(c: char, rest: seq<byte>)
    requires 0x80 <= c as int < 0x800
    ensures DecodeChar(EncodeChar(c) + rest) == Some((c, 2))
  {
    var cp := c as int;
    var hi, lo := cp / 64, cp % 64;
    assert cp == hi * 64 + lo && 2 <= hi < 32 && 0 <= lo < 64;
    var e := EncodeChar(c) + rest;
    assert e[0] as int == 0xC0 + hi && e[1] as int == 0x80 + lo;
  }

  lemma DecodeThree(c: char, rest: seq<byte>)
    requires 0x800 <= c as int < 0x10000
    ensures DecodeChar(EncodeChar(c) + rest) == Some((c, 3))
  {
    var cp := c as int;
    var q := cp / 64;
    var b2 := cp % 64;
    var b0, b1 := q / 64, q % 64;
    assert cp == q * 64 + b2 && q == b0 * 64 + b1;
    assert cp / 4096 == b0;
    assert cp == b0 * 4096 + b1 * 64 + b2;
    var e := EncodeChar(c) + rest;
    assert e[0] as int == 0xE0 + b0 && e[1] as int == 0x80 + b1 && e[2] as int == 0x80 + b2;
  }

  lemma DecodeFour(c: char, rest: seq<byte>)
    requires 0x10000 <= c as int
    ensures DecodeChar(EncodeChar(c) + rest) == Some((c, 4))
  {
    var cp := c as int;
    var q1 := cp / 64;
    var b3 := cp % 64;
    var q2 := q1 / 64;
    var b2 := q1 % 64;
    var b0, b1 := q2 / 64, q2 % 64;
    assert cp == q1 * 64 + b3 && q1 == q2 * 64 + b2 && q2 == b0 * 64 + b1;
    assert cp / 4096 == q2;
    assert cp / 262144 == b0;
    assert cp == b0 * 262144 + b1 * 4096 + b2 * 64 + b3;
    var e := EncodeChar(c) + rest;
    assert e[0] as int == 0xF0 + b0 && e[1] as int == 0x80 + b1;
    assert e[2] as int == 0x80 + b2 && e[3] as int == 0x80 + b3;
  }

  /** Decoding inverts encoding: the bytes of a line identify the line. */
  lemma {:induction false} DecodeEncode(s: string)
    ensures Decode(Encode(s)) == Some(s)
  {
    if |s| > 0 {
      var e := Encode(s);
      DecodeEncodeChar(s[0], Encode(s[1..]));
      assert e[|EncodeChar(s[0])|..] == Encode(s[1..]);
      DecodeEncode(s[1..]);
      assert [s[0]] + s[1..] == s;
    }
  }

  lemma EncodeInjective(a: string, b: string)
    requires Encode(a) == Encode(b)
    ensures a == b
  {
    DecodeEncode(a);
    DecodeEncode(b);
  }

  /** Encoding is a homomorphism: the bytes of a concatenation are the
      concatenation of the bytes. */
  lemma {:induction false} EncodeAppend(a: string, b: string)
    ensures Encode(a + b) == Encode(a) + Encode(b)
  {
    if |a| > 0 {
      assert (a + b)[1..] == a[1..] + b;
      EncodeAppend(a[1..], b);
    } else {
      assert a + b == b;
    }
  }

  /** Pure ASCII text takes exactly one byte per character. */
  lemma {:induction false} EncodeAsciiLength(s: string)
    requires forall i :: 0 <= i < |s| ==> s[i] as int < 0x80
    ensures |Encode(s)| == |s|
  {
    if |s| > 0 {
      EncodeAsciiLength(s[1..]);
    }
  }
}

=== FILE: window_clock.dfy ===
/** Time buckets and the names derived from them: `_floor_window`,
    `_window_bounds`, `_prefix_for_window` and `_object_name` of
    app/file_writer.py. Instants are UTC microseconds since the Unix epoch,
    the precision of Python's `datetime`. */
module WindowClock {
  import opened Common
  import opened Calendar

  /** Microseconds since 1970-01-01T00:00:00Z. */
  type Instant = nat

  const MicrosPerSecond: nat := 1_000_000
  const MicrosPerMinute: nat := 60_000_000
  const MicrosPerHour: nat := 3_600_000_000
  const MicrosPerDay: nat := 86_400_000_000

  // ---------------------------------------------------------------------
  // Calendar fields of an instant

  function DayNumber(t: Instant): nat { t / MicrosPerDay }
  function DateOf(t: Instant): Date { CivilFromDays(DayNumber(t)) }
  function HourOf(t: Instant): nat { (t % MicrosPerDay) / MicrosPerHour }
  function MinuteOf(t: Instant): nat { (t % MicrosPerDay % MicrosPerHour) / MicrosPerMinute }
  function SecondOf(t: Instant): nat { (t % MicrosPerDay % MicrosPerHour % MicrosPerMinute) / MicrosPerSecond }
  function MicrosecondOf(t: Instant): nat { t % MicrosPerDay % MicrosPerHour % MicrosPerMinute % MicrosPerSecond }

  /** Python's `datetime` stops at the end of year 9999; adding a `timedelta`
      past it raises `OverflowError`. */
  predicate Representable(t: Instant) {
    DateOf(t).year <= 9999
  }

  /** Later instants never fall in earlier years. */
  lemma RepresentableBefore(a: Instant, b: Instant)
    requires a <= b && Representable(b)
    ensures Representable(a)
  {
    assert DayNumber(a) <= DayNumber(b);
    YearMonotone(DayNumber(a), DayNumber(b));
  }

  /** An instant is its fields put back together. */
  lemma Decompose(t: Instant)
    ensures HourOf(t) < 24 && MinuteOf(t) < 60 && SecondOf(t) < 60 && MicrosecondOf(t) < MicrosPerSecond
    ensures t == DayNumber(t) * MicrosPerDay + HourOf(t) * MicrosPerHour + MinuteOf(t) * MicrosPerMinute
                 + SecondOf(t) * MicrosPerSecond + MicrosecondOf(t)
  {
  }

  /** Fields determine the instant: the instant with these fields. */
  lemma Compose(t: Instant, d: nat, h: nat, m: nat, s: nat, us: nat)
    requires h < 24 && m < 60 && s < 60 && us < MicrosPerSecond
    requires t == d * MicrosPerDay + h * MicrosPerHour + m * MicrosPerMinute + s * MicrosPerSecond + us
    ensures DayNumber(t) == d && HourOf(t) == h && MinuteOf(t) == m
    ensures SecondOf(t) == s && MicrosecondOf(t) == us
  {
    var inDay := h * MicrosPerHour + m * MicrosPerMinute + s * MicrosPerSecond + us;
    assert inDay < MicrosPerDay;
    assert t / MicrosPerDay == d && t % MicrosPerDay == inDay;
    var inHour := m * MicrosPerMinute + s * MicrosPerSecond + us;
    assert inDay / MicrosPerHour == h && inDay % MicrosPerHour == inHour;
    var inMinute := s * MicrosPerSecond + us;
    assert inHour / MicrosPerMinute == m && inHour % MicrosPerMinute == inMinute;
    assert inMinute / MicrosPerSecond == s && inMinute % MicrosPerSecond == us;
  }

  // ---------------------------------------------------------------------
  // Windows

  /** `_floor_window`: zero the seconds and microseconds and round the minute
      down to a multiple of `w` within the same hour (for a non-negative
      minute, `(minute // w) * w` is `minute - minute % w`). The start is at
      most `t` and less than `w` minutes before it; its calendar fields are
      stated by `FloorWindowShape`, and `FloorWindowUnique` shows these
      facts determine it. */
  function FloorWindow(t: Instant, w: nat): (start: Instant)
    requires w >= 1
    ensures start <= t < start + w * MicrosPerMinute
  {
    var k := MinuteOf(t) - MinuteOf(t) % w;
    var start := DayNumber(t) * MicrosPerDay + HourOf(t) * MicrosPerHour + k * MicrosPerMinute;
    FloorFacts(t, w, k, start);
    start
  }

  /** The floored start has second and microsecond 0, the date and hour of
      `t`, and a minute that is a multiple of `w` no later than `t`'s. */
  lemma FloorWindowShape(t: Instant, w: nat)
    requires w >= 1
    ensures var start := FloorWindow(t, w);
      && SecondOf(start) == 0 && MicrosecondOf(start) == 0
      && DayNumber(start) == DayNumber(t) && HourOf(start) == HourOf(t)
      && MinuteOf(start) % w == 0 && MinuteOf(start) <= MinuteOf(t)
  {
    var k := MinuteOf(t) - MinuteOf(t) % w;
    FloorFacts(t, w, k, FloorWindow(t, w));
  }

  lemma FloorFacts(t: Instant, w: nat, k: nat, start: Instant)
    requires w >= 1 && k == MinuteOf(t) - MinuteOf(t) % w
    requires start == DayNumber(t) * MicrosPerDay + HourOf(t) * MicrosPerHour + k * MicrosPerMinute
    ensures start <= t < start + w * MicrosPerMinute
    ensures SecondOf(start) == 0 && MicrosecondOf(start) == 0
    ensures DayNumber(start) == DayNumber(t) && HourOf(start) == HourOf(t)
    ensures MinuteOf(start) == k && k % w == 0 && k <= MinuteOf(t)
  {
    var m := MinuteOf(t);
    FloorMinute(m, w);
    assert k <= m < k + w;
    Decompose(t);
    assert k < 60;
    Compose(start, DayNumber(t), HourOf(t), k, 0, 0);
    assert t - start == (m - k) * MicrosPerMinute + SecondOf(t) * MicrosPerSecond + MicrosecondOf(t);
    assert (m - k + 1) * MicrosPerMinute <= w * MicrosPerMinute;
  }

  lemma FloorMinute(m: nat, w: nat)
    requires w >= 1
    ensures m - m % w <= m < m - m % w + w
    ensures (m - m % w) % w == 0
  {
    var q := m / w;
    assert m == q * w + m % w;
    MultipleMod(q, w);
  }

  lemma MultipleMod(q: nat, w: nat)
    requires w >= 1
    ensures (q * w) % w == 0
  {
    var x := q * w;
    var d, r := x / w, x % w;
    assert x == d * w + r && 0 <= r < w;
    assert (q - d) * w == r;
    if q - d >= 1 {
      MulAtLeast(q - d, w);
    } else if q - d <= -1 {
      assert (q - d) * w == -((d - q) * w);
      MulAtLeast(d - q, w);
    }
  }

  lemma {:induction false} MulAtLeast(k: int, w: int)
    requires k >= 1 && w >= 1
    ensures k * w >= w
    decreases k
  {
    if k > 1 {
      MulAtLeast(k - 1, w);
      assert k * w == (k - 1) * w + w;
    }
  }

  /** The minute-aligned instant in `t`'s hour, at a multiple of `w`
      minutes, at most `t` and less than `w` minutes before it, is exactly
      `FloorWindow(t, w)`. */
  lemma FloorWindowUnique(t: Instant, w: nat, s: Instant)
    requires w >= 1
    requires SecondOf(s) == 0 && MicrosecondOf(s) == 0
    requires DayNumber(s) == DayNumber(t) && HourOf(s) == HourOf(t)
    requires MinuteOf(s) % w == 0
    requires s <= t < s + w * MicrosPerMinute
    ensures s == FloorWindow(t, w)
  {
    var f := FloorWindow(t, w);
    FloorWindowShape(t, w);
    Decompose(s);
    Decompose(f);
    Decompose(t);
    var a, b := MinuteOf(s), MinuteOf(f);
    // Both minutes are multiples of w that are at most t's minute and
    // within w of it, so they are equal.
    assert a <= MinuteOf(t) && MinuteOf(t) - a < w;
    assert b <= MinuteOf(t) && MinuteOf(t) - b < w;
    MultiplesApart(a, b, w);
  }

  lemma MultiplesApart(a: nat, b: nat, w: nat)
    requires w >= 1 && a % w == 0 && b % w == 0
    requires a < b + w && b < a + w
    ensures a == b
  {
    var qa, qb := a / w, b / w;
    assert a == qa * w && b == qb * w;
    if qa < qb {
      assert b - a == (qb - qa) * w;
      MulAtLeast(qb - qa, w);
    } else if qb < qa {
      assert a - b == (qa - qb) * w;
      MulAtLeast(qa - qb, w);
    }
  }

  /** Flooring is idempotent. */
  lemma FloorWindowIdempotent(t: Instant, w: nat)
    requires w >= 1
    ensures FloorWindow(FloorWindow(t, w), w) == FloorWindow(t, w)
  {
    var s := FloorWindow(t, w);
    FloorWindowShape(t, w);
    FloorWindowUnique(s, w, s);
  }

  /** A window: `start` floored, `end` inclusive. */
  datatype Window = Window(start: Instant, end: Instant)

  /** `_window_bounds`: `end = start + w minutes - 1 second`. */
  function WindowBounds(t: Instant, w: nat): (win: Window)
    requires w >= 1
    ensures win.start <= t && win.start <= win.end
    ensures win.end + MicrosPerSecond == win.start + w * MicrosPerMinute
  {
    var start := FloorWindow(t, w);
    Window(start, start + w * MicrosPerMinute - MicrosPerSecond)
  }

  /** A multiple of `w` below 60, where `w` divides 60, leaves room for a
      whole window before the end of the hour. */
  lemma WindowFitsHour(k: nat, w: nat)
    requires w >= 1 && 60 % w == 0 && k % w == 0 && k < 60
    ensures k + w <= 60
  {
    var q, n := k / w, 60 / w;
    assert k == q * w && 60 == n * w;
    assert (n - q) * w == 60 - k;
    assert n - q >= 1;
    MulAtLeast(n - q, w);
  }

  /** An instant of the hour starting at `hourStart` has that day and hour. */
  lemma InHour(t: Instant, d: nat, h: nat)
    requires h < 24
    requires d * MicrosPerDay + h * MicrosPerHour <= t < d * MicrosPerDay + h * MicrosPerHour + MicrosPerHour
    ensures DayNumber(t) == d && HourOf(t) == h
  {
    var rest := t - d * MicrosPerDay - h * MicrosPerHour;
    var m, sec, us := rest / MicrosPerMinute, (rest % MicrosPerMinute) / MicrosPerSecond, rest % MicrosPerSecond;
    assert rest == m * MicrosPerMinute + sec * MicrosPerSecond + us;
    Compose(t, d, h, m, sec, us);
  }

  /** When `w` divides the hour, every instant up to the next window start
      has the same bounds, including the instants of the last second that
      are later than the inclusive `end`. */
  lemma LastSecondSameBounds(t0: Instant, now: Instant, w: nat)
    requires w >= 1 && 60 % w == 0
    requires WindowBounds(t0, w).end < now < WindowBounds(t0, w).end + MicrosPerSecond
    ensures WindowBounds(now, w) == WindowBounds(t0, w)
  {
    var s := FloorWindow(t0, w);
    FloorWindowShape(t0, w);
    Decompose(s);
    WindowFitsHour(MinuteOf(s), w);
    InHour(now, DayNumber(s), HourOf(s));
    FloorWindowUnique(now, w, s);
  }

  // ---------------------------------------------------------------------
  // Names

  /** `strftime('%Y%m%d_%H%M')`. */
  function CompactStamp(t: Instant): string {
    var d := DateOf(t);
    ZeroPad(d.year, 4) + ZeroPad(d.month, 2) + ZeroPad(d.day, 2) + "_"
      + ZeroPad(HourOf(t), 2) + ZeroPad(MinuteOf(t), 2)
  }

  /** `strftime("ingest_dt=%Y/%m/%d/hour=%H")`. */
  function DatePrefix(t: Instant): string {
    var d := DateOf(t);
    "ingest_dt=" + ZeroPad(d.year, 4) + "/" + ZeroPad(d.month, 2) + "/" + ZeroPad(d.day, 2)
      + "/hour=" + ZeroPad(HourOf(t), 2)
  }

  function PartPrefix(win: Window): string {
    "part=" + CompactStamp(win.start) + "-" + CompactStamp(win.end)
  }

  /** Python's `os.path.join(a, b)` on POSIX. */
  function JoinPath(a: string, b: string): (r: string)
    ensures EndsWith(r, b)
  {
    if StartsWith(b, "/") then b
    else if a == "" || EndsWith(a, "/") then a + b
    else a + "/" + b
  }

  /** `_prefix_for_window`: `<base>/ingest_dt=YYYY/MM/DD/hour=HH/part=<start>-<end>`. */
  function PrefixForWindow(base: string, win: Window): string {
    JoinPath(JoinPath(base, DatePrefix(win.start)), PartPrefix(win))
  }

  const MarkerName: string := "uploading.marker"

  function MarkerPath(prefix: string): string {
    JoinPath(prefix, MarkerName)
  }

  /** The name of the object with sequence number `n`:
      `<host>-seq=<n:06d>.ndjson`. */
  function ObjectName(host: string, n: nat): string {
    host + "-seq=" + ZeroPad(n, 6) + ".ndjson"
  }

  /** Object names of one host differ whenever their sequence numbers do. */
  lemma ObjectNameInjective(host: string, a: nat, b: nat)
    requires ObjectName(host, a) == ObjectName(host, b)
    ensures a == b
  {
    var na, nb := ObjectName(host, a), ObjectName(host, b);
    var pre := host + "-seq=";
    assert |ZeroPad(a, 6)| == |ZeroPad(b, 6)|;
    assert na[|pre|..|pre| + |ZeroPad(a, 6)|] == ZeroPad(a, 6);
    assert nb[|pre|..|pre| + |ZeroPad(b, 6)|] == ZeroPad(b, 6);
    ZeroPadInjective(a, b, 6);
  }

  /** In a path that ends with an object name, the `=` of `-seq=` is the
      last `=`: only digits and `.ndjson` follow it. */
  lemma SeqMarkPosition(p: string, host: string, n: nat)
    requires EndsWith(p, ObjectName(host, n))
    ensures |ZeroPad(n, 6)| + 8 <= |p|
    ensures p[|p| - |ZeroPad(n, 6)| - 8] == '='
    ensures forall i :: |p| - |ZeroPad(n, 6)| - 8 < i < |p| ==> p[i] != '='
  {
    var z := ZeroPad(n, 6);
    ZeroPadShape(n, 6);
    var name := ObjectName(host, n);
    var off := |p| - |name|;
    assert name == host + "-seq=" + z + ".ndjson";
    assert |name| == |host| + |z| + 12;
    assert name[|host| + 4] == '=';
    forall i | |p| - |z| - 8 < i < |p|
      ensures p[i] != '='
    {
      var j := i - off;
      assert p[i] == name[j];
      if j < |host| + 5 + |z| {
        assert name[j] == z[j - |host| - 5];
        assert IsDigit(z[j - |host| - 5]);
      } else {
        assert name[j] == ".ndjson"[j - |host| - 5 - |z|];
      }
    }
  }

  /** Paths that end with object names of one host carry one sequence
      number: the object name is recoverable from the path alone. */
  lemma NameSuffixInjective(p: string, host: string, a: nat, b: nat)
    requires EndsWith(p, ObjectName(host, a)) && EndsWith(p, ObjectName(host, b))
    ensures a == b
  {
    SeqMarkPosition(p, host, a);
    SeqMarkPosition(p, host, b);
    assert |ZeroPad(a, 6)| == |ZeroPad(b, 6)|;
    var na, nb := ObjectName(host, a), ObjectName(host, b);
    assert |na| == |nb|;
    assert na == p[|p| - |na|..] == nb;
    ObjectNameInjective(host, a, b);
  }

  // ---------------------------------------------------------------------
  // Reading a compact stamp back

  lemma FourDigitYear(y: nat)
    requires 1000 <= y <= 9999
    ensures |ZeroPad(y, 4)| == 4 && AllDigits(ZeroPad(y, 4))
  {
    DigitsShape(y);
    ZeroPadShape(y, 4);
  }

  lemma TwoDigits(n: nat)
    requires n < 100
    ensures |ZeroPad(n, 2)| == 2 && AllDigits(ZeroPad(n, 2))
  {
    DigitsShape(n);
    ZeroPadShape(n, 2);
  }

  /** Reads `YYYYmmdd_HHMM` back into its fields. */
  function ParseStamp(s: string): Option<(int, int, int, int, int)> {
    if |s| == 13 && AllDigits(s[..8]) && s[8] == '_' && AllDigits(s[9..]) then
      Some((ParseDigits(s[..4]), ParseDigits(s[4..6]), ParseDigits(s[6..8]),
            ParseDigits(s[9..11]), ParseDigits(s[11..])))
    else None
  }

  /** `ParseStamp` splits a stamp into its five fixed-width fields. */
  lemma ParseStampFields(y: string, mo: string, dd: string, h: string, mi: string)
    requires |y| == 4 && |mo| == 2 && |dd| == 2 && |h| == 2 && |mi| == 2
    requires AllDigits(y) && AllDigits(mo) && AllDigits(dd) && AllDigits(h) && AllDigits(mi)
    ensures ParseStamp(y + mo + dd + "_" + h + mi) ==
            Some((ParseDigits(y), ParseDigits(mo), ParseDigits(dd), ParseDigits(h), ParseDigits(mi)))
  {
    var s := y + mo + dd + "_" + h + mi;
    var date, time := y + mo + dd, h + mi;
    assert s == date + "_" + time;
    assert s[..8] == date && s[8] == '_' && s[9..] == time;
    assert date[..4] == y && date[4..6] == mo && date[6..] == dd;
    assert time[..2] == h && time[2..] == mi;
    assert s[..4] == date[..4] && s[4..6] == date[4..6] && s[6..8] == date[6..];
    assert s[9..11] == time[..2] && s[11..] == time[2..];
    AllDigitsConcat(y, mo);
    AllDigitsConcat(y + mo, dd);
    AllDigitsConcat(h, mi);
    assert |s| == 13 && AllDigits(s[..8]) && AllDigits(s[9..]);
  }

  lemma ParseCompactStamp(t: Instant)
    requires Representable(t)
    ensures ParseStamp(CompactStamp(t)) ==
            Some((DateOf(t).year, DateOf(t).month, DateOf(t).day, HourOf(t), MinuteOf(t)))
  {
    var d := DateOf(t);
    CivilFromDaysSound(DayNumber(t));
    Decompose(t);
    FourDigitYear(d.year);
    TwoDigits(d.month);
    TwoDigits(d.day);
    TwoDigits(HourOf(t));
    TwoDigits(MinuteOf(t));
    ParseStampFields(ZeroPad(d.year, 4), ZeroPad(d.month, 2), ZeroPad(d.day, 2),
                     ZeroPad(HourOf(t), 2), ZeroPad(MinuteOf(t), 2));
    ParseZeroPad(d.year, 4);
    ParseZeroPad(d.month, 2);
    ParseZeroPad(d.day, 2);
    ParseZeroPad(HourOf(t), 2);
    ParseZeroPad(MinuteOf(t), 2);
  }

  lemma CompactStampLength(t: Instant)
    requires Representable(t)
    ensures |CompactStamp(t)| == 13
  {
    CivilFromDaysSound(DayNumber(t));
    Decompose(t);
    FourDigitYear(DateOf(t).year);
    TwoDigits(DateOf(t).month);
    TwoDigits(DateOf(t).day);
    TwoDigits(HourOf(t));
    TwoDigits(MinuteOf(t));
  }

  /** Two minute-aligned instants with the same compact stamp are equal. */
  lemma CompactStampInjective(a: Instant, b: Instant)
    requires Representable(a) && Representable(b)
    requires SecondOf(a) == 0 && MicrosecondOf(a) == 0
    requires SecondOf(b) == 0 && MicrosecondOf(b) == 0
    requires CompactStamp(a) == CompactStamp(b)
    ensures a == b
  {
    ParseCompactStamp(a);
    ParseCompactStamp(b);
    assert DateOf(a) == DateOf(b);
    CivilInjective(DayNumber(a), DayNumber(b));
    Decompose(a);
    Decompose(b);
  }

  lemma PartPrefixShape(win: Window)
    requires Representable(win.start) && Representable(win.end)
    ensures |PartPrefix(win)| == 32
    ensures PartPrefix(win)[5..18] == CompactStamp(win.start)
  {
    var c1, c2 := CompactStamp(win.start), CompactStamp(win.end);
    CompactStampLength(win.start);
    CompactStampLength(win.end);
    assert PartPrefix(win) == "part=" + c1 + ("-" + c2);
    SliceMiddle("part=", c1, "-" + c2);
  }

  /** Distinct window starts give distinct partition prefixes, whatever the
      base directory: a prefix names exactly one window. */
  lemma PrefixNamesOneWindow(base: string, w1: Window, w2: Window)
    requires Representable(w1.start) && Representable(w1.end)
    requires Representable(w2.start) && Representable(w2.end)
    requires SecondOf(w1.start) == 0 && MicrosecondOf(w1.start) == 0
    requires SecondOf(w2.start) == 0 && MicrosecondOf(w2.start) == 0
    requires PrefixForWindow(base, w1) == PrefixForWindow(base, w2)
    ensures w1.start == w2.start
  {
    var p := PrefixForWindow(base, w1);
    var p1, p2 := PartPrefix(w1), PartPrefix(w2);
    PartPrefixShape(w1);
    PartPrefixShape(w2);
    assert p1 == p[|p| - 32..];
    assert p2 == p[|p| - 32..];
    CompactStampInjective(w1.start, w2.start);
  }
}

=== FILE: writer_runs.dfy ===
/** A writer's life as a sequence of `write_line` calls: what the consumer
    loop does with one writer. The properties are about the whole run: the
    bytes appended are exactly the UTF-8 encoding of the lines whose write
    succeeded, in call order; the objects opened carry strictly increasing
    sequence numbers from a counter that never resets; files only grow. */
module WriterRuns {
  import opened Common
  import opened Utf8
  import opened FileWriter

  /** One `write_line` call: the clock reading, the line, and which of the
      filesystem calls it makes succeed. */
  datatype Call = Call(now: nat, line: string, io: Io)

  /** The lines of the calls that succeeded, concatenated in call order. */
  function Delivered(calls: seq<Call>, outcomes: seq<Option<Failure>>): string
    requires |calls| == |outcomes|
    decreases |calls|
  {
    if |calls| == 0 then ""
    else
      Delivered(calls[..|calls| - 1], outcomes[..|calls| - 1])
      + (if outcomes[|calls| - 1].None? then calls[|calls| - 1].line else "")
  }

  /** The sequence numbers of `ops` strictly increase and lie in (`lo`, `hi`]. */
  predicate Numbered(ops: seq<(Path, nat)>, lo: nat, hi: nat) {
    && (forall i :: 0 <= i < |ops| ==> lo < ops[i].1 <= hi)
    && (forall i, j :: 0 <= i < j < |ops| ==> ops[i].1 < ops[j].1)
  }

  /** Performs the calls in order on one writer, collecting the effects and
      each call's outcome; a failed call does not stop the run, as the
      consumer loop logs the failure and goes on. */
  method Run(w: Writer, fs: Fs, calls: seq<Call>)
    returns (w': Writer, fs': Fs, log: seq<Event>, outcomes: seq<Option<Failure>>)
    requires Inv(w, fs)
    ensures Inv(w', fs') && w'.cfg == w.cfg
    ensures |outcomes| == |calls|
    ensures AppendedBytes(log) == Encode(Delivered(calls, outcomes))
    ensures w.seqCounter <= w'.seqCounter
    ensures Numbered(Openings(log), w.seqCounter, w'.seqCounter)
    ensures forall p :: p in fs.files ==> p in fs'.files && fs.files[p] <= fs'.files[p]
  {
    w', fs', log, outcomes := w, fs, [], [];
    var i := 0;
    while i < |calls|
      invariant 0 <= i <= |calls|
      invariant Inv(w', fs') && w'.cfg == w.cfg
      invariant |outcomes| == i
      invariant AppendedBytes(log) == Encode(Delivered(calls[..i], outcomes))
      invariant w.seqCounter <= w'.seqCounter
      invariant Numbered(Openings(log), w.seqCounter, w'.seqCounter)
      invariant forall p :: p in fs.files ==> p in fs'.files && fs.files[p] <= fs'.files[p]
    {
      var c := calls[i];
      var r := Deliver(w', fs', c);
      var sent := if r.failure.None? then c.line else "";
      ProjectionsConcat(log, r.log);
      EncodeAppend(Delivered(calls[..i], outcomes), sent);
      assert calls[..i + 1][..i] == calls[..i];
      assert (outcomes + [r.failure])[..i] == outcomes;
      assert Delivered(calls[..i + 1], outcomes + [r.failure]) == Delivered(calls[..i], outcomes) + sent;
      NumberedExtend(Openings(log), Openings(r.log), w.seqCounter, w'.seqCounter, r.w.seqCounter);
      w', fs', log, outcomes := r.w, r.fs, log + r.log, outcomes + [r.failure];
      i := i + 1;
    }
    assert calls[..i] == calls;
  }

  /** One call of the run: `write_line`, seen through the facts the run
      needs. */
  method Deliver(w: Writer, fs: Fs, c: Call) returns (r: Step)
    requires Inv(w, fs)
    ensures Inv(r.w, r.fs) && r.w.cfg == w.cfg
    ensures AppendedBytes(r.log) == Encode(if r.failure.None? then c.line else "")
    ensures w.seqCounter <= r.w.seqCounter
    ensures Openings(r.log) == [] || (|Openings(r.log)| == 1 && Openings(r.log)[0].1 == r.w.seqCounter
                                      && r.w.seqCounter == w.seqCounter + 1)
    ensures forall p :: p in fs.files ==> p in r.fs.files && fs.files[p] <= r.fs.files[p]
  {
    r := WriteLine(w, fs, c.now, c.line, c.io);
  }

  /** Appending at most one opening numbered `hi'`, past every earlier one,
      keeps the numbers ascending. */
  lemma NumberedExtend(ops: seq<(Path, nat)>, more: seq<(Path, nat)>, lo: nat, hi: nat, hi': nat)
    requires Numbered(ops, lo, hi) && lo <= hi <= hi'
    requires more == [] || (|more| == 1 && more[0].1 == hi' && hi < hi')
    ensures Numbered(ops + more, lo, hi')
  {
    var all := ops + more;
    assert forall i :: 0 <= i < |ops| ==> all[i] == ops[i];
    if more != [] {
      assert all[|ops|] == more[0];
    }
  }
}

=== FILE: ws_client.dfy ===
/** The stream consumer: the connection URL, the reconnect loop with its
    jittered exponential backoff, the per-frame decisions of the consumer
    loop, and the choice of sink. The network, the event loop and real
    waiting are not modelled: each connection attempt is an input saying
    how it ended, and a delay is a computed value. */
module WsClient {
  import opened Common
  import opened Utf8
  import opened Models
  import opened FileWriter
  import opened WriterRuns

  // ---------------------------------------------------------------------
  // Connection URL

  /** `_build_ws_url`: the token goes in as a query parameter, joined with
      `&` when the URL already has a query and with `?` otherwise. */
  function BuildWsUrl(url: string, token: string): (r: string)
    ensures StartsWith(r, url) && EndsWith(r, "token=" + token)
    ensures |r| == |url| + 7 + |token|
    ensures r[|url|] == (if '?' in url then '&' else '?')
  {
    var sep := if '?' in url then "&" else "?";
    url + sep + "token=" + token
  }

  /** The URL and token can be read back from the result: the base is the
      text before the separator, the token the text after `token=`. */
  lemma BuildWsUrlInjective(url: string, token: string, url': string, token': string)
    requires |url| == |url'|
    requires BuildWsUrl(url, token) == BuildWsUrl(url', token')
    ensures url == url' && token == token'
  {
    var r := BuildWsUrl(url, token);
    assert url == r[..|url|] == url';
    assert token == r[|url| + 7..] == token';
  }

  // ---------------------------------------------------------------------
  // Reconnect backoff

  /** The base and maximum reconnect delays, in seconds. */
  datatype Backoff = Backoff(base: real, maxDelay: real)

  /** The settings the backoff bounds are stated under. */
  predicate Sane(cfg: Backoff) {
    0.0 <= cfg.base <= cfg.maxDelay
  }

  function Min(a: real, b: real): real { if a <= b then a else b }

  function Max(a: real, b: real): real { if a >= b then a else b }

  /** `random.uniform(0, backoff)`: `backoff * u` for the draw `u` of
      `random()`, which lies in [0, 1). */
  function Jitter(backoff: real, u: real): real {
    backoff * u
  }

  /** The wait before reconnecting. */
  function Delay(cfg: Backoff, backoff: real, jitter: real): real {
    Min(cfg.maxDelay, backoff + jitter)
  }

  /** The delay never exceeds the maximum; with non-negative jitter it is at
      least the lesser of maximum and backoff, and with jitter up to the
      backoff at most twice the backoff. */
  lemma DelayBounds(cfg: Backoff, backoff: real, jitter: real)
    ensures var d := Delay(cfg, backoff, jitter);
      && d <= cfg.maxDelay
      && (0.0 <= jitter ==> Min(cfg.maxDelay, backoff) <= d)
      && (0.0 <= jitter <= backoff ==> d <= 2.0 * backoff)
  {
  }

  /** The backoff after a failure. */
  function NextBackoff(cfg: Backoff, backoff: real): real {
    Min(cfg.maxDelay, Max(cfg.base, backoff * 2.0))
  }

  /** With sane settings the next backoff lies in [base, max] and never
      falls below a backoff that was within the maximum. */
  lemma NextBackoffBounds(cfg: Backoff, backoff: real)
    requires Sane(cfg)
    ensures var b := NextBackoff(cfg, backoff);
      && cfg.base <= b <= cfg.maxDelay
      && (backoff <= cfg.maxDelay ==> backoff <= b)
  {
  }

  /** `b` doubled `k` times. */
  function Doubled(b: real, k: nat): real {
    if k == 0 then b else 2.0 * Doubled(b, k - 1)
  }

  /** The backoff after `k` failures in a row, starting from `b`. */
  function Backoffs(cfg: Backoff, b: real, k: nat): real {
    if k == 0 then b else NextBackoff(cfg, Backoffs(cfg, b, k - 1))
  }

  /** From the base delay, `k` consecutive failures give the base doubled
      `k` times, capped at the maximum. */
  lemma {:induction false} BackoffsClosedForm(cfg: Backoff, k: nat)
    requires Sane(cfg)
    ensures Backoffs(cfg, cfg.base, k) == Min(cfg.maxDelay, Doubled(cfg.base, k))
    ensures cfg.base <= Doubled(cfg.base, k)
  {
    if k > 0 {
      BackoffsClosedForm(cfg, k - 1);
      CappedDoubling(cfg, Doubled(cfg.base, k - 1));
    }
  }

  /** Doubling a capped value and capping again is capping the double. */
  lemma CappedDoubling(cfg: Backoff, x: real)
    requires Sane(cfg) && cfg.base <= x
    ensures NextBackoff(cfg, Min(cfg.maxDelay, x)) == Min(cfg.maxDelay, 2.0 * x)
  {
  }

  /** How one connection attempt ended. `u` is the `random()` draw the
      jitter is made from. */
  datatype Attempt =
    | ConnectFailed(u: real)  // the connect itself raised
    | Dropped(u: real)        // connected, then the session raised
    | Closed                  // connected, and the server closed the stream
    | Cancelled               // the asyncio task was cancelled

  /** One pass of the loop: whether `stop` was set when the loop condition
      was evaluated, and how the attempt then ended. */
  datatype Turn = Turn(stopSet: bool, attempt: Attempt)

  /** Why the loop ended: `stop` was seen set, a cancellation propagated,
      or the given turns ran out with the loop still going. */
  datatype Ending = Stopped | CancelledOut | Pending

  /** What a run of the loop did: the delays it waited, the backoff it
      ended with, why it ended, and how many turns it completed. */
  datatype StreamRun = StreamRun(delays: seq<real>, backoff: real, ending: Ending, turns: nat)

  predicate Draws(turns: seq<Turn>) {
    forall i :: 0 <= i < |turns| ==> (turns[i].attempt.ConnectFailed? || turns[i].attempt.Dropped?)
                                       ==> 0.0 <= turns[i].attempt.u < 1.0
  }

  /** One completed turn from backoff `b`: the delay waited, if any, and
      the backoff carried into the next turn. A successful connect first
      resets the backoff to the base. */
  function Attempted(cfg: Backoff, b: real, a: Attempt): (r: (Option<real>, real))
    requires !a.Cancelled?
  {
    match a
    case Closed => (None, cfg.base)
    case Dropped(u) => (Some(Delay(cfg, cfg.base, Jitter(cfg.base, u))), NextBackoff(cfg, cfg.base))
    case ConnectFailed(u) => (Some(Delay(cfg, b, Jitter(b, u))), NextBackoff(cfg, b))
  }

  /** `run_stream` from backoff `b` over the given turns. */
  function RunStream(cfg: Backoff, b: real, turns: seq<Turn>): (r: StreamRun)
    ensures r.turns <= |turns|
    ensures r.ending == Pending <==> r.turns == |turns|
    ensures |r.delays| <= r.turns
    decreases |turns|
  {
    if |turns| == 0 then StreamRun([], b, Pending, 0)
    else if turns[0].stopSet then StreamRun([], b, Stopped, 0)
    else if turns[0].attempt.Cancelled? then StreamRun([], b, CancelledOut, 0)
    else
      var (d, b') := Attempted(cfg, b, turns[0].attempt);
      var rest := RunStream(cfg, b', turns[1..]);
      var delays := (if d.Some? then [d.value] else []) + rest.delays;
      StreamRun(delays, rest.backoff, rest.ending, rest.turns + 1)
  }

  /** The loop takes a turn only while `stop` is unset and no cancellation
      came; it ends at the first turn that sees `stop` set, or at the first
      cancellation, which propagates instead of leading to a reconnect. */
  lemma {:induction false} RunStreamEnds(cfg: Backoff, b: real, turns: seq<Turn>)
    ensures var r := RunStream(cfg, b, turns);
      && (forall i :: 0 <= i < r.turns ==> !turns[i].stopSet && !turns[i].attempt.Cancelled?)
      && (r.ending == Stopped ==> r.turns < |turns| && turns[r.turns].stopSet)
      && (r.ending == CancelledOut ==> r.turns < |turns| && !turns[r.turns].stopSet
                                       && turns[r.turns].attempt.Cancelled?)
    decreases |turns|
  {
    if |turns| > 0 && !turns[0].stopSet && !turns[0].attempt.Cancelled? {
      var (d, b') := Attempted(cfg, b, turns[0].attempt);
      RunStreamEnds(cfg, b', turns[1..]);
      var rest := RunStream(cfg, b', turns[1..]);
      assert forall i :: 1 <= i < rest.turns + 1 ==> turns[i] == turns[1..][i - 1];
    }
  }

  /** The loop as `run_stream` starts it, with the backoff at the base. */
  function StartStream(cfg: Backoff, turns: seq<Turn>): StreamRun {
    RunStream(cfg, cfg.base, turns)
  }

  /** With sane settings and draws in [0, 1), every delay lies between the
      base (capped by the maximum) and the maximum, and the backoff stays
      in [base, max]. */
  lemma {:induction false} DelaysBounded(cfg: Backoff, b: real, turns: seq<Turn>)
    requires Sane(cfg) && cfg.base <= b <= cfg.maxDelay && Draws(turns)
    ensures var r := RunStream(cfg, b, turns);
      && cfg.base <= r.backoff <= cfg.maxDelay
      && forall k :: 0 <= k < |r.delays| ==> cfg.base <= r.delays[k] <= cfg.maxDelay
    decreases |turns|
  {
    if |turns| > 0 && !turns[0].stopSet && !turns[0].attempt.Cancelled? {
      var a := turns[0].attempt;
      var (d, b') := Attempted(cfg, b, a);
      assert Draws(turns[1..]) by {
        forall i | 0 <= i < |turns[1..]| ensures turns[1..][i] == turns[i + 1] { }
      }
      DelaysBounded(cfg, b', turns[1..]);
      if a.ConnectFailed? {
        JitterBounds(b, a.u);
        DelayBounds(cfg, b, Jitter(b, a.u));
        NextBackoffBounds(cfg, b);
      } else if a.Dropped? {
        JitterBounds(cfg.base, a.u);
        DelayBounds(cfg, cfg.base, Jitter(cfg.base, a.u));
        NextBackoffBounds(cfg, cfg.base);
      }
    }
  }

  lemma JitterBounds(b: real, u: real)
    requires 0.0 <= b && 0.0 <= u < 1.0
    ensures 0.0 <= Jitter(b, u) <= b
  {
    assert b * u <= b * 1.0;
  }

  /** Turns whose connects fail, with the given random draws. */
  function FailedConnects(us: seq<real>): (ts: seq<Turn>)
    decreases |us|
  {
    if us == [] then [] else [Turn(false, ConnectFailed(us[0]))] + FailedConnects(us[1..])
  }

  /** The delays waited by failed connects with draws `us`, from backoff `b`. */
  function FailureDelays(cfg: Backoff, b: real, us: seq<real>): seq<real>
    decreases |us|
  {
    if us == [] then [] else [Delay(cfg, b, Jitter(b, us[0]))] + FailureDelays(cfg, NextBackoff(cfg, b), us[1..])
  }

  /** Consecutive failed connects make the backoff grow as `Backoffs`: after
      `|us|` of them the loop goes on from `Backoffs(b, |us|)`, having waited
      their delays. */
  lemma {:induction false} FailuresCompound(cfg: Backoff, b: real, us: seq<real>, more: seq<Turn>)
    ensures var tail := RunStream(cfg, Backoffs(cfg, b, |us|), more);
      RunStream(cfg, b, FailedConnects(us) + more)
        == tail.(delays := FailureDelays(cfg, b, us) + tail.delays, turns := |us| + tail.turns)
    decreases |us|
  {
    if us == [] {
      assert FailedConnects(us) + more == more;
    } else {
      var b1 := NextBackoff(cfg, b);
      var later := FailedConnects(us[1..]) + more;
      var r := RunStream(cfg, b1, later);
      var tail := RunStream(cfg, Backoffs(cfg, b, |us|), more);
      var d := Delay(cfg, b, Jitter(b, us[0]));
      var fd := FailureDelays(cfg, b1, us[1..]);
      calc {
        RunStream(cfg, b, FailedConnects(us) + more);
        { FailedConnectsCons(us, more); }
        RunStream(cfg, b, [Turn(false, ConnectFailed(us[0]))] + later);
        { FailedTurn(cfg, b, us[0], later); }
        r.(delays := [d] + r.delays, turns := r.turns + 1);
        { FailuresCompound(cfg, b1, us[1..], more);
          BackoffsShift(cfg, b, |us| - 1); }
        tail.(delays := [d] + (fd + tail.delays), turns := |us| + tail.turns);
        { assert FailureDelays(cfg, b, us) == [d] + fd;
          assert [d] + (fd + tail.delays) == [d] + fd + tail.delays; }
        tail.(delays := FailureDelays(cfg, b, us) + tail.delays, turns := |us| + tail.turns);
      }
    }
  }

  lemma FailedConnectsCons(us: seq<real>, more: seq<Turn>)
    requires us != []
    ensures FailedConnects(us) + more == [Turn(false, ConnectFailed(us[0]))] + (FailedConnects(us[1..]) + more)
  {
  }

  /** A failed connect waits its delay and carries the next backoff on. */
  lemma FailedTurn(cfg: Backoff, b: real, u: real, rest: seq<Turn>)
    ensures var r := RunStream(cfg, NextBackoff(cfg, b), rest);
      RunStream(cfg, b, [Turn(false, ConnectFailed(u))] + rest)
        == r.(delays := [Delay(cfg, b, Jitter(b, u))] + r.delays, turns := r.turns + 1)
  {
    assert ([Turn(false, ConnectFailed(u))] + rest)[1..] == rest;
  }

  lemma {:induction false} BackoffsShift(cfg: Backoff, b: real, k: nat)
    ensures Backoffs(cfg, NextBackoff(cfg, b), k) == Backoffs(cfg, b, k + 1)
    decreases k
  {
    if k > 0 {
      BackoffsShift(cfg, b, k - 1);
    }
  }

  /** A successful connect forgets earlier failures: whatever the backoff
      was, a session that drops waits as if it were the first failure. */
  lemma DroppedResets(cfg: Backoff, b: real, b': real, u: real)
    ensures Attempted(cfg, b, Dropped(u)) == Attempted(cfg, b', Dropped(u))
  {
  }

  // ---------------------------------------------------------------------
  // The consumer loop

  /** A frame as the consumer sees it: not JSON, JSON that is not a stream
      message, or a stream message. */
  datatype Frame = BadJson | BadSchema | Msg(msg: StreamMessage)

  /** The record a frame yields, if any. */
  function RecordOf(f: Frame): Option<OutputRecord> {
    match f
    case Msg(m) => TryExtractOutput(m)
    case _ => None
  }

  /** The records the loop hands to the writer, frame by frame. */
  function Accepted(frames: seq<Frame>): seq<OutputRecord>
    decreases |frames|
  {
    if |frames| == 0 then []
    else
      var n := |frames| - 1;
      Accepted(frames[..n]) + (match RecordOf(frames[n]) case Some(r) => [r] case None => [])
  }

  /** The positions of the frames that yield records, in order. */
  function Positions(frames: seq<Frame>): seq<nat>
    decreases |frames|
  {
    if |frames| == 0 then []
    else
      var n := |frames| - 1;
      Positions(frames[..n]) + (if RecordOf(frames[n]).Some? then [n] else [])
  }

  /** The loop writes exactly the records of the frames that yield one, in
      frame order: the k-th record comes from the k-th such frame, and no
      frame that yields a record is passed over. */
  lemma {:induction false} AcceptedInOrder(frames: seq<Frame>)
    ensures var p, a := Positions(frames), Accepted(frames);
      && |p| == |a|
      && (forall k :: 0 <= k < |p| ==> p[k] < |frames| && RecordOf(frames[p[k]]) == Some(a[k]))
      && (forall k, l :: 0 <= k < l < |p| ==> p[k] < p[l])
      && (forall i :: 0 <= i < |frames| && RecordOf(frames[i]).Some? ==> i in p)
    decreases |frames|
  {
    if |frames| > 0 {
      var n := |frames| - 1;
      var pre := frames[..n];
      AcceptedInOrder(pre);
      assert forall i :: 0 <= i < n ==> frames[i] == pre[i];
    }
  }

  /** Frames that yield no record change nothing: the loop just goes on. */
  lemma SkippedFrame(frames: seq<Frame>, f: Frame)
    requires RecordOf(f).None?
    ensures Accepted(frames + [f]) == Accepted(frames)
  {
    assert (frames + [f])[..|frames|] == frames;
  }

  /** The lines handed to `write_line`: one NDJSON line per accepted
      record, given the JSON text `dump` of each record. */
  function Lines(frames: seq<Frame>, dump: OutputRecord -> string): (ls: seq<string>)
    ensures |ls| == |Accepted(frames)|
  {
    var recs := Accepted(frames);
    seq(|recs|, k requires 0 <= k < |recs| => ToNdjson(dump(recs[k])))
  }

  /** `_consume_messages` on the file writer. `env(k)` is the clock reading
      and the filesystem behaviour of the k-th write. A failed write is
      logged and the loop goes on, so every line is attempted. */
  method ConsumeMessages(w: Writer, fs: Fs, frames: seq<Frame>, dump: OutputRecord -> string,
                         env: nat -> (nat, Io))
    returns (w': Writer, fs': Fs, log: seq<Event>, calls: seq<Call>, outcomes: seq<Option<Failure>>)
    requires Inv(w, fs)
    ensures Inv(w', fs') && w'.cfg == w.cfg
    ensures |calls| == |outcomes| == |Accepted(frames)|
    ensures forall k :: 0 <= k < |calls| ==> calls[k].line == ToNdjson(dump(Accepted(frames)[k]))
    ensures AppendedBytes(log) == Encode(Delivered(calls, outcomes))
    ensures Numbered(Openings(log), w.seqCounter, w'.seqCounter)
  {
    var ls := Lines(frames, dump);
    calls := seq(|ls|, k requires 0 <= k < |ls| => Call(env(k).0, ls[k], env(k).1));
    w', fs', log, outcomes := Run(w, fs, calls);
  }

  /** Text of single-line JSON records written one after another. */
  lemma {:induction false} NdjsonTextSnoc(jsons: seq<string>, j: string)
    ensures NdjsonText(jsons + [j]) == NdjsonText(jsons) + ToNdjson(j)
    decreases |jsons|
  {
    if |jsons| > 0 {
      assert (jsons + [j])[1..] == jsons[1..] + [j];
      NdjsonTextSnoc(jsons[1..], j);
    } else {
      assert NdjsonText([j]) == ToNdjson(j) + NdjsonText([]);
    }
  }

  /** When every write succeeds, the text delivered is the NDJSON text of
      the lines' JSON. */
  lemma {:induction false} DeliveredAllOk(calls: seq<Call>, outcomes: seq<Option<Failure>>, jsons: seq<string>)
    requires |calls| == |outcomes| == |jsons|
    requires forall k :: 0 <= k < |calls| ==> outcomes[k].None? && calls[k].line == ToNdjson(jsons[k])
    ensures Delivered(calls, outcomes) == NdjsonText(jsons)
    decreases |calls|
  {
    if |calls| > 0 {
      var n := |calls| - 1;
      DeliveredAllOk(calls[..n], outcomes[..n], jsons[..n]);
      NdjsonTextSnoc(jsons[..n], jsons[n]);
      assert jsons[..n] + [jsons[n]] == jsons;
    }
  }

  /** The JSON text of each record. */
  function Jsons(recs: seq<OutputRecord>, dump: OutputRecord -> string): (js: seq<string>)
    ensures |js| == |recs| && forall k :: 0 <= k < |recs| ==> js[k] == dump(recs[k])
  {
    seq(|recs|, k requires 0 <= k < |recs| => dump(recs[k]))
  }

  /** End to end: if every write succeeds and every record's JSON is one
      line, the bytes appended decode, and split at newlines, to the JSON of
      the accepted records in frame order, and nothing else. */
  lemma StoredRecords(frames: seq<Frame>, dump: OutputRecord -> string, calls: seq<Call>,
                      outcomes: seq<Option<Failure>>, log: seq<Event>)
    requires |calls| == |outcomes| == |Accepted(frames)|
    requires forall k :: 0 <= k < |calls| ==> calls[k].line == ToNdjson(dump(Accepted(frames)[k]))
    requires forall k :: 0 <= k < |outcomes| ==> outcomes[k].None?
    requires forall k :: 0 <= k < |Accepted(frames)| ==> '\n' !in dump(Accepted(frames)[k])
    requires AppendedBytes(log) == Encode(Delivered(calls, outcomes))
    ensures Decode(AppendedBytes(log)) == Some(NdjsonText(Jsons(Accepted(frames), dump)))
    ensures Split(NdjsonText(Jsons(Accepted(frames), dump)), '\n') == Jsons(Accepted(frames), dump) + [""]
  {
    var jsons := Jsons(Accepted(frames), dump);
    DeliveredAllOk(calls, outcomes, jsons);
    DecodeEncode(NdjsonText(jsons));
    NdjsonSplit(jsons);
  }

  // ---------------------------------------------------------------------
  // Sink selection

  const WindowMinutes: nat := 30
  const MaxObjectBytes: nat := 512_000_000
  const PartSizeBytes: nat := 16_777_216

  /** The writer `main_async` builds. */
  datatype Sink =
    | FileSink(baseDir: string, windowMinutes: nat, maxObjectBytes: nat, useMarker: bool)
    | S3Sink(bucket: string, basePrefix: string, windowMinutes: nat, maxObjectBytes: nat,
             partSizeBytes: nat, region: Option<string>, useMarker: bool)

  /** `(settings.sink or "file").lower() == "s3"` picks the object store;
      anything else, an unset or empty setting included, the file writer.
      Both get 30-minute windows, 512 MB objects and markers. */
  function SelectSink(sink: Option<string>, fileDir: string, bucket: string, prefix: string,
                      region: Option<string>): (s: Sink)
    ensures s.S3Sink? <==> sink.Some? && Lower(sink.value) == "s3"
    ensures s.windowMinutes == 30 && s.maxObjectBytes == 512_000_000 && s.useMarker
    ensures s.FileSink? ==> s.baseDir == fileDir
    ensures s.S3Sink? ==> s.bucket == bucket && s.basePrefix == prefix && s.region == region
  {
    var name := if sink.None? || sink.value == "" then "file" else sink.value;
    if Lower(name) == "s3" then S3Sink(bucket, prefix, WindowMinutes, MaxObjectBytes, PartSizeBytes, region, true)
    else FileSink(fileDir, WindowMinutes, MaxObjectBytes, true)
  }

  /** The selection ignores ASCII case. */
  lemma SelectSinkCaseInsensitive(a: string, b: string, fileDir: string, bucket: string, prefix: string,
                                  region: Option<string>)
    requires Lower(a) == Lower(b)
    ensures SelectSink(Some(a), fileDir, bucket, prefix, region) == SelectSink(Some(b), fileDir, bucket, prefix, region)
  {
  }

  /** `main_async` when the settings select the file writer: the writer is
      constructed, the consumer runs for as long as the stream lasts, and
      `close` runs afterwards whatever happened. The stream's frames are
      passed in. The frames of all connections go through one consumer run:
      the writer is built once and outlives every reconnect, and a failed
      write is caught inside the consumer, so reconnecting only splits the
      same sequence of frames into sessions. `written` is the log of the
      consumer's filesystem effects and `outcomes` the result of each
      write. */
  method MainFile(setting: Option<string>, fileDir: string, bucket: string, prefix: string,
                  region: Option<string>, host: string, fs: Fs, mkdirOk: bool, frames: seq<Frame>,
                  dump: OutputRecord -> string, env: nat -> (nat, Io), removeOk: bool)
    returns (r: Option<(Writer, Fs)>, written: seq<Event>, outcomes: seq<Option<Failure>>)
    requires SelectSink(setting, fileDir, bucket, prefix, region).FileSink?
    ensures r.None? <==> !mkdirOk
    ensures r.None? ==> written == [] && outcomes == []
    ensures r.Some? ==> Inv(r.value.0, r.value.1) && r.value.0.file.None? && r.value.0.bytesWritten == 0
    ensures r.Some? ==> r.value.0.cfg == Config(fileDir, 30, 512_000_000, true, host)
    ensures r.Some? ==> |outcomes| == |Accepted(frames)|
    // With every write succeeding and every record's JSON on one line, the
    // stored bytes are the NDJSON text of the accepted records, in order.
    ensures r.Some? && (forall k :: 0 <= k < |outcomes| ==> outcomes[k].None?)
            && (forall k :: 0 <= k < |Accepted(frames)| ==> '\n' !in dump(Accepted(frames)[k])) ==>
      Decode(AppendedBytes(written)) == Some(NdjsonText(Jsons(Accepted(frames), dump)))
  {
    var sink := SelectSink(setting, fileDir, bucket, prefix, region);
    var cfg := Config(sink.baseDir, sink.windowMinutes, sink.maxObjectBytes, sink.useMarker, host);
    match Init(cfg, fs, mkdirOk)
    case None =>
      r, written, outcomes := None, [], [];
    case Some((w0, fs0)) =>
      var w1, fs1, log, calls, outs := ConsumeMessages(w0, fs0, frames, dump, env);
      if (forall k :: 0 <= k < |outs| ==> outs[k].None?)
         && (forall k :: 0 <= k < |Accepted(frames)| ==> '\n' !in dump(Accepted(frames)[k])) {
        StoredRecords(frames, dump, calls, outs, log);
      }
      var c := Close(w1, fs1, removeOk);
      r, written, outcomes := Some((c.0, c.1)), log, outs;
  }
}
